=== FILE: README.md ===
# Advent of Code 2019, days 1–5, in Dafny

This project models five small Rust programs that solve the first five
puzzles of Advent of Code 2019. The Intcode virtual machine is at the centre.

- **Fuel (day 1).** The rocket equation: the fuel a module's mass needs, the
  fuel that fuel needs in turn, and the `u32` sum over all modules.
- **Reduced Intcode (day 2).** A machine with only `Add`, `Mul` and `Fin`
  over `u32` memory. Around it sits the brute-force search for the
  `(noun, verb)` pair that leaves `19690720` in cell 0.
- **Wires (day 3).** Wire descriptions like `R8,U5,L5,D3` are parsed into
  commands, walked into paths and cut into segments. The segment crossings
  are enumerated. Two answers are picked from them: the crossing nearest the
  origin, and the crossing reached in the fewest combined steps.
- **Passwords (day 4).** The six-digit password rule: digits never decrease,
  and some two adjacent digits are equal. Also the count of valid numbers in
  a range.
- **Full Intcode (day 5).** The nine-instruction machine over `i32` memory:
  parameter modes, input and output, jumps and comparisons.

Every panic of the Rust code becomes an explicit error value:

- an `Err(Fault)` in the Intcode machines: an unknown opcode, an invalid
  mode digit, an out-of-bounds index, an arithmetic overflow, or bad input;
- `None` or `Err(Failure)` elsewhere.

Rust's truncating `/` and `%`, the `i32 as usize` cast and the `u32`/`i32`
overflow checks are written out in `Base`. Arithmetic overflow is modelled
as in an overflow-checked (debug) build, where `+`, `*` and `sum()` panic
(`rust/day01/src/main.rs:10`, `rust/day02/src/main.rs:72,76`,
`rust/day05/src/main.rs:139,145`); a release build would wrap instead.

Module layout:

- `Base`: Option and Result, integer widths, truncating division, the usize
  cast, decimal digits.
- `Intcode`: the program state and the fuel-bounded run loop shared by both
  machines.
- `IntcodeFull`: day 5.
- `IntcodeReduced`: day 2.
- `IntcodeAgreement`: the day 2 machine is the day 5 machine restricted to
  `1`, `2` and `99`.
- `Fuel`: day 1.
- `Password`: day 4.
- `Wires`: day 3 parsing and geometry.
- `WireCrossings`: day 3 crossings and the two answers.
- Each `*Examples` module restates the Rust unit tests as lemmas.

`Line::intersects` computes segment crossings in floating point. It enters
the model as a function-valued parameter (`WireCrossings.Intersects`), so
every property of the crossing search holds for any intersection function.
`WireCrossingsExamples.AxisMeets` is one such function: the exact crossing
of two perpendicular axis-aligned segments. The worked example of day 3 is
carried through the search with it.

Details of the decoder worth knowing:

- **Mode digits.** Decoding an opcode parses only the mode digits that the
  opcode uses. `Add`, `Mul`, the jumps and the comparisons read two digits.
  `Out` reads one. `In` and `Fin` read none. A stray digit elsewhere is
  ignored: `20001` decodes as `Add(Position, Position)`.
- **Bad mode digits.** Decoding unwraps the mode parse
  (`rust/day05/src/main.rs:46`), so a bad mode digit panics. The model
  reports it as `InvalidMode(digit)`, and an unknown opcode as
  `UnknownOpcode(word)`.
- **Negative words.** The opcode and mode digits of a negative word follow
  Rust's truncating division, so `-99 % 100` is `-99`, which is an unknown
  opcode.

## Model

| member | source | states |
|---|---|---|
| Base.TruncDiv | rust/day05/src/main.rs:45-51 | Rust's `/` rounds toward zero: for a non-negative dividend the quotient times the divisor is the largest multiple not above it, for a negative one the smallest not below it |
| Base.TruncRem | rust/day05/src/main.rs:45-51 | the digit extraction `i - 10 * (i / 10)` lies strictly between `-b` and `b`, agrees with the mathematical remainder on non-negative words and is never positive on negative ones |
| Base.AsUsize | rust/day05/src/main.rs:126-133 | `i32 as usize` is congruent to its argument modulo 2^64, below 2^64, the identity on non-negative values and larger than any `i32` for negative ones (so a negative address is always out of bounds) |
| Base.DigitValues | rust/day04/src/main.rs:58-65 | mapping `to_digit(10)` over a digit string keeps its length and gives each position the value of its character |
| Base.DecimalString | rust/day04/src/main.rs:9-13 | `to_string` of a `u32` is a non-empty all-digit string without a leading zero whose decimal value is the number |
| Base.Reverse | rust/day04/src/main.rs:71-77 | `.rev()` keeps the length and puts position `i` at `n - 1 - i` |
| Intcode.RunWith | rust/day05/src/main.rs:11-13 | the `while !finished { tick() }` loop, cut off after `fuel` ticks: a finished machine halts at once, a halted result is finished, running out of fuel leaves an unfinished machine |
| Intcode.RunAdditive | rust/day05/src/main.rs:11-13 | running `n + m` ticks is running `n` ticks and resuming for `m` more |
| Intcode.RunStable | rust/day05/src/main.rs:11-13 | once a run halts or faults within `n` ticks, more fuel changes nothing |
| Intcode.RunPreserves | rust/day05/src/main.rs:11-13 | any property every successful tick preserves holds of the final state of a run |
| IntcodeFull.ParseMode | rust/day05/src/main.rs:94-100 | a mode parses exactly when the digit is 0 or 1, and the parsed mode has that digit |
| IntcodeFull.DecodeOpcode | rust/day05/src/main.rs:42-63 | a word decodes exactly when it is well formed (known opcode and valid used mode digits); the opcode's number is the word mod 100 and its modes match the word's digits; an unknown opcode reports the word, a known one with a bad used digit reports the first such digit (the first mode digit if it is bad, else the second) |
| IntcodeFull.DigitsOfPositive | rust/day05/src/main.rs:45-51 | for positive words the truncating digit arithmetic of the decoder yields the ordinary decimal digits |
| IntcodeFull.DecodeEncode | rust/day05/src/main.rs:42-63 | every opcode with every mode combination is recovered by decoding its canonical word |
| IntcodeFull.DecodeByDigits | rust/day05/src/main.rs:42-63 | any well-formed word decodes to the opcode whose number and modes its digits spell out |
| IntcodeFull.SameDigitsSameOpcode | rust/day05/src/main.rs:29-40 | an opcode is determined by its number and the mode digits it uses |
| IntcodeFull.DecodeInstr | rust/day05/src/main.rs:69-85 | an instruction decodes exactly when its opcode word decodes and the operands it needs exist; it carries exactly those operands; an empty slice faults at index 0, a bad word with the word's decoding fault, and a slice too short for the operands at the first missing index |
| IntcodeFull.Operand | rust/day05/src/main.rs:126-133 | an immediate operand is its own value; a position operand is the cell at its `usize` address, or an out-of-bounds fault naming that address |
| IntcodeFull.WriteCell | rust/day05/src/main.rs:139-139 | a store succeeds exactly when the `usize` target is in bounds, changes only that cell, and otherwise faults with the target |
| IntcodeFull.CheckedI32 | rust/day05/src/main.rs:139-145 | an arithmetic result is kept exactly when it fits in `i32`, and is otherwise an overflow fault |
| IntcodeFull.ExecArith | rust/day05/src/main.rs:136-147 | `Add`/`Mul` read both operands first, then fault on `i32` overflow before checking the target; on success the sum or product is stored at the target and pc moves by 4 |
| IntcodeFull.ExecCompare | rust/day05/src/main.rs:176-187 | `LessThan`/`Equals` store exactly 1 when the comparison holds and 0 otherwise, changing only the target cell, and pc moves by 4 |
| IntcodeFull.ExecJump | rust/day05/src/main.rs:166-175 | a jump evaluates both operands, never touches memory, and sets pc to the second operand's `usize` value when taken and to pc + 3 otherwise |
| IntcodeFull.ExecIn | rust/day05/src/main.rs:148-159 | `In` faults when the input is exhausted or not an `i32`; otherwise it consumes one value, stores it at the target and moves pc by 2 |
| IntcodeFull.ExecOut | rust/day05/src/main.rs:160-165 | `Out` appends exactly the operand's value to the output, consumes no input, leaves memory alone and moves pc by 2 |
| IntcodeFull.Execute | rust/day05/src/main.rs:123-190 | executing never changes the memory size; the machine is finished afterwards exactly when it was or the instruction is `Fin`; only `In`/`Out` touch I/O; `Fin` changes nothing else; faults are bounds, overflow or input faults |
| IntcodeFull.Tick | rust/day05/src/main.rs:118-121 | a pc past the end is an out-of-bounds fault, an ill-formed word at pc a decoding fault, and a successful step keeps the memory size |
| IntcodeFull.Run | rust/day05/src/main.rs:11-13 | a run halts only in a finished state and never changes the memory size |
| IntcodeFull.RunStableFull | rust/day05/src/main.rs:11-13 | a run that has halted or faulted gives the same outcome with any extra fuel |
| IntcodeFullExamples.ParseModeExamples | rust/day05/src/main.rs:674-678 | `test_parse`: 0 and 1 are the two modes, 2 is rejected |
| IntcodeFullExamples.DecodeAddExample | rust/day05/src/main.rs:562-596 | `test_decode_opcode`: word 1 is `Add` with position modes |
| IntcodeFullExamples.DecodeMulExample | rust/day05/src/main.rs:562-596 | word 2 is `Mul` |
| IntcodeFullExamples.DecodeInExample | rust/day05/src/main.rs:562-596 | word 3 is `In` |
| IntcodeFullExamples.DecodeOutExample | rust/day05/src/main.rs:562-596 | word 4 is `Out` |
| IntcodeFullExamples.DecodeJumpIfTrueExample | rust/day05/src/main.rs:562-596 | word 5 is `JT` |
| IntcodeFullExamples.DecodeJumpIfFalseExample | rust/day05/src/main.rs:562-596 | word 6 is `JF` |
| IntcodeFullExamples.DecodeLessThanExample | rust/day05/src/main.rs:562-596 | word 7 is `LT` |
| IntcodeFullExamples.DecodeEqualsWord | rust/day05/src/main.rs:59-59 | word 8 is `EQ` with position modes, the decoding `test_decode` relies on for `[8,2,3,4]` |
| IntcodeFullExamples.DecodeFinExample | rust/day05/src/main.rs:562-596 | word 99 is `Fin` |
| IntcodeFullExamples.DecodeUnknownExample | rust/day05/src/main.rs:42-63 | word 9 is an unknown opcode |
| IntcodeFullExamples.DecodeWithModesExample | rust/day05/src/main.rs:599-607 | `11001` is `Add` with a position first operand and an immediate second one |
| IntcodeFullExamples.DecodeInstrAddExample | rust/day05/src/main.rs:616-665 | `test_decode`: `[1,2,3,4]` is `Add` with operands `[2,3,4]` |
| IntcodeFullExamples.DecodeInstrMulExample | rust/day05/src/main.rs:616-665 | `[2,3,4,5]` is `Mul` with `[3,4,5]` |
| IntcodeFullExamples.DecodeInstrInExample | rust/day05/src/main.rs:616-665 | `[3,1]` is `In` with `[1]` |
| IntcodeFullExamples.DecodeInstrOutExample | rust/day05/src/main.rs:616-665 | `[4,2]` is `Out` with `[2]` |
| IntcodeFullExamples.DecodeInstrJumpIfTrueExample | rust/day05/src/main.rs:616-665 | `[5,2,3]` is `JT` with `[2,3]` |
| IntcodeFullExamples.DecodeInstrJumpIfFalseExample | rust/day05/src/main.rs:616-665 | `[6,2,3]` is `JF` with `[2,3]` |
| IntcodeFullExamples.DecodeInstrLessThanExample | rust/day05/src/main.rs:616-665 | `[7,2,3,4]` is `LT` with `[2,3,4]` |
| IntcodeFullExamples.DecodeInstrEqualsExample | rust/day05/src/main.rs:616-665 | `[8,2,3,4]` is `EQ` with `[2,3,4]` |
| IntcodeFullExamples.DecodeInstrFinExample | rust/day05/src/main.rs:616-665 | `[99]` is `Fin` with no operands |
| IntcodeFullExamples.ExecuteAddExample | rust/day05/src/main.rs:200-220 | `Add` of cells 1 and 2 into cell 0 gives 3 and pc 4 |
| IntcodeFullExamples.ExecuteMulExample | rust/day05/src/main.rs:223-243 | `Mul` of cells 4 and 5 into cell 0 gives 30 |
| IntcodeFullExamples.ExecuteMulNegativeExample | rust/day05/src/main.rs:246-266 | `Mul` with a negative factor gives -20 |
| IntcodeFullExamples.ExecuteFinExample | rust/day05/src/main.rs:269-286 | `Fin` sets finished and leaves pc and memory alone |
| IntcodeFullExamples.ExecuteInExample | rust/day05/src/main.rs:289-306 | `In` stores the input 89 at cell 1 |
| IntcodeFullExamples.ExecuteOutExample | rust/day05/src/main.rs:309-328 | `Out` of cell 1 writes 10 |
| IntcodeFullExamples.ExecuteJumpTakenExample | rust/day05/src/main.rs:331-351 | `JT` on 1 jumps to 7 |
| IntcodeFullExamples.ExecuteJumpNotTakenExample | rust/day05/src/main.rs:354-374 | `JT` on 0 moves pc to 3 |
| IntcodeFullExamples.ExecuteJumpIfFalseNotTakenExample | rust/day05/src/main.rs:399-419 | `JF` on 1 moves pc to 3 |
| IntcodeFullExamples.ExecuteLessThanTrueExample | rust/day05/src/main.rs:422-442 | `LT` of 1 and 7 stores 1 |
| IntcodeFullExamples.ExecuteLessThanFalseExample | rust/day05/src/main.rs:445-465 | `LT` of 8 and 7 stores 0 |
| IntcodeFullExamples.ExecuteEqualsTrueExample | rust/day05/src/main.rs:468-488 | `EQ` of 1 and 1 stores 1 |
| IntcodeFullExamples.ExecuteEqualsFalseExample | rust/day05/src/main.rs:491-511 | `EQ` of 8 and 7 stores 0 |
| IntcodeFullExamples.ExecuteImmediateExample | rust/day05/src/main.rs:533-553 | immediate `Add` of 10 and 20 stores 30 |
| IntcodeFullExamples.TickExample1 | rust/day05/src/main.rs:514-530 | `test_code`: the first tick of the sample program performs its `Add` |
| IntcodeFullExamples.TickExample2 | rust/day05/src/main.rs:514-530 | the second tick performs its `Mul` |
| IntcodeFullExamples.TickExample3 | rust/day05/src/main.rs:514-530 | the third tick reaches `Fin` |
| IntcodeFullExamples.ExampleProgramRuns | rust/day05/src/main.rs:514-530 | the sample program halts after three ticks with cell 0 equal to 3500 |
| IntcodeReduced.EncodeInstr | rust/day02/src/main.rs:107-113 | an instruction occupies one word for the opcode plus one per operand |
| IntcodeReduced.DecodeOpcode | rust/day02/src/main.rs:98-105 | only 1, 2 and 99 are opcodes, each decoding to the opcode with that number |
| IntcodeReduced.DecodeNumber | rust/day02/src/main.rs:98-105 | every opcode's number decodes back to it |
| IntcodeReduced.DecodeInstr | rust/day02/src/main.rs:107-113 | a slice decodes exactly when its first word is an opcode with all its operands present, and the decoded instruction re-encodes to a prefix of the slice; otherwise the fault says which index was missing or which word was unknown |
| IntcodeReduced.DecodeEncode | rust/day02/src/main.rs:107-113 | decoding an encoded instruction, followed by anything, gives the instruction back |
| IntcodeReduced.Execute | rust/day02/src/main.rs:67-81 | `Fin` only sets finished; `Add`/`Mul` fault on the first out-of-bounds source, then on `u32` overflow, then on an out-of-bounds target; on success they store the sum or product at the target alone and move pc by 4 |
| IntcodeReduced.Tick | rust/day02/src/main.rs:62-65 | a pc past the end and an unknown word at pc are faults; a step keeps the memory size |
| IntcodeReduced.Run | rust/day02/src/main.rs:17-19 | a run halts only in a finished state and keeps the memory size |
| IntcodeReduced.Trial | rust/day02/src/main.rs:11-19 | patching noun and verb into cells 1 and 2 faults for programs shorter than 3 words, naming the first missing cell |
| IntcodeReduced.ScanVerbs | rust/day02/src/main.rs:10-30 | the inner loop: every verb before the stopping one misses the target; a hit is a halting trial with cell 0 equal to 19690720; otherwise all 100 verbs were tried or the stopping trial did not halt |
| IntcodeReduced.ReportExtends | rust/day02/src/main.rs:9-31 | reporting the first hit of a noun extends the explained prefix by that noun |
| IntcodeReduced.MissesExtend | rust/day02/src/main.rs:9-31 | a noun whose 100 verbs all miss extends the explained prefix without a report |
| IntcodeReduced.Search | rust/day02/src/main.rs:9-31 | every reported pair is the first hitting verb of its noun; nouns are reported in increasing order; without a stuck trial every noun up to 99 is accounted for; a stuck trial did not halt, every earlier verb of its noun missed, and every earlier noun is accounted for |
| IntcodeReducedExamples.DecodeOpcodeExamples | rust/day02/src/main.rs:121-126 | 1, 2 and 99 decode; 5 does not |
| IntcodeReducedExamples.DecodeInstrExamples | rust/day02/src/main.rs:129-133 | `[1,2,3,4]`, `[2,3,4,5]` and `[99]` decode as in the test |
| IntcodeReducedExamples.ExecuteAddExample | rust/day02/src/main.rs:136-149 | `Add` of cells 1 and 2 into cell 0 gives 3 |
| IntcodeReducedExamples.ExecuteMulExample | rust/day02/src/main.rs:152-165 | `Mul` of cells 4 and 5 into cell 0 gives 30 |
| IntcodeReducedExamples.ExecuteFinExample | rust/day02/src/main.rs:168-181 | `Fin` only sets finished |
| IntcodeReducedExamples.TickExample1 | rust/day02/src/main.rs:184-200 | the first tick of the sample program performs its `Add` |
| IntcodeReducedExamples.TickExample2 | rust/day02/src/main.rs:184-200 | the second tick performs its `Mul` |
| IntcodeReducedExamples.TickExample3 | rust/day02/src/main.rs:184-200 | the third tick reaches `Fin` |
| IntcodeReducedExamples.ExampleProgramRuns | rust/day02/src/main.rs:184-200 | the sample program halts after three ticks with cell 0 equal to 3500 |
| IntcodeAgreement.ToFull | rust/day02/src/main.rs:47-60 | a `u32` program whose cells fit in `i32` is the same program to the day 5 machine |
| IntcodeAgreement.FullOpcode | rust/day02/src/main.rs:84-89 | each day 2 opcode is the day 5 opcode with the same number, the same arity and all-position modes |
| IntcodeAgreement.DecodeAgrees | rust/day02/src/main.rs:98-105 | the day 5 decoder reads 1, 2 and 99 as the day 2 decoder does |
| IntcodeAgreement.DecodeInstrAgrees | rust/day02/src/main.rs:107-113 | on a day 2 opcode word both instruction decoders succeed together on the same instruction, or fail with the same fault |
| IntcodeAgreement.FullArith | rust/day05/src/main.rs:136-147 | day 5 `Add`/`Mul` with position modes and non-negative operands is the day 2 computation, with `i32` in place of `u32` |
| IntcodeAgreement.ExecuteAgrees | rust/day02/src/main.rs:67-81 | executing a day 2 instruction on either machine gives the same program, except that the day 5 machine reports overflow when a result leaves `i32` |
| IntcodeAgreement.ExecuteArithAgrees | rust/day02/src/main.rs:71-78 | the same agreement for `Add` and `Mul` |
| IntcodeAgreement.ArithFaultAgrees | rust/day02/src/main.rs:71-78 | when the day 2 step faults, the day 5 step faults the same way or with an overflow |
| IntcodeAgreement.ArithStoreAgrees | rust/day02/src/main.rs:71-78 | when the day 2 step succeeds, the day 5 step stores the same value, or overflows if it leaves `i32` |
| IntcodeAgreement.ArithResult | rust/day02/src/main.rs:71-78 | a successful day 2 arithmetic step changes exactly the target cell |
| IntcodeAgreement.TickAgrees | rust/day02/src/main.rs:62-65 | a tick on a day 2 word agrees between the two machines up to `i32` overflow |
| Fuel.SaturatingSub | rust/day01/src/main.rs:33-33 | `saturating_sub` is the difference when it is non-negative and 0 otherwise |
| Fuel.Third | rust/day01/src/main.rs:28-28 | `u32` division by 3 rounds down |
| Fuel.FuelForFuel | rust/day01/src/main.rs:32-37 | the fuel chain is zero exactly for loads below 9 and never more than half the load, so it never overflows |
| Fuel.FuelForFuelMonotonic | rust/day01/src/main.rs:32-37 | a heavier load never needs less fuel |
| Fuel.FuelForFuelIterative | rust/day01/src/main.rs:32-37 | the recursion computed with an accumulator gives the same chain total |
| Fuel.FuelForMass | rust/day01/src/main.rs:27-30 | the mass formula is defined exactly for masses of at least 6 (below that the `u32` subtraction underflows) and lies between a third minus two and half the mass |
| Fuel.MassAsFuel | rust/day01/src/main.rs:27-37 | wherever the mass formula is defined it equals the fuel chain of the mass itself |
| Fuel.TotalFuel | rust/day01/src/main.rs:8-10 | the summed fuel is returned exactly when every mass is at least 6 and the total fits in `u32`, and then equals the mathematical total |
| Fuel.TotalRequiredGrows | rust/day01/src/main.rs:8-10 | the total over a prefix of the masses never exceeds the whole total |
| FuelExamples.FuelForFuelExamples | rust/day01/src/main.rs:53-59 | loads 2, 5, 21, 70, 216 need 0, 0, 5, 26, 96 |
| FuelExamples.FuelForMassSmallExamples | rust/day01/src/main.rs:46-47 | masses 12 and 14 need 2 |
| FuelExamples.FuelForMass1969 | rust/day01/src/main.rs:48-48 | mass 1969 needs 966 |
| FuelExamples.FuelForMass100756 | rust/day01/src/main.rs:49-49 | mass 100756 needs 50346 |
| Password.FoldIncreasingMeans | rust/day04/src/main.rs:29-40 | the increasing fold is true exactly when its flag is set and the digits never decrease |
| Password.FoldAdjacentMeans | rust/day04/src/main.rs:42-53 | the adjacency fold is true exactly when its flag is set or two adjacent digits are equal |
| Password.IncreasingCheck | rust/day04/src/main.rs:29-40 | the increasing check holds exactly for non-decreasing digits (vacuously for none) |
| Password.AdjacentCheck | rust/day04/src/main.rs:42-53 | the adjacency check holds exactly when some two adjacent digits are equal, or there are no digits |
| Password.New | rust/day04/src/main.rs:21-56 | a password is built exactly from six non-decreasing digits with an adjacent equal pair, and keeps those digits |
| Password.Parse | rust/day04/src/main.rs:58-65 | a digit string is a password exactly when it has six characters that never decrease and have an adjacent equal pair; the digits are the characters' values |
| Password.DigitOrderIsCharOrder | rust/day04/src/main.rs:58-65 | comparing digit values and comparing digit characters agree on order and on equality |
| Password.ParsePair | rust/day04/src/main.rs:67-69 | a pair parses exactly when both halves do, each to its own parse |
| Password.FoldPositionalValue | rust/day04/src/main.rs:71-77 | the positional `u32` fold over the reversed digits succeeds exactly when the place-value total fits in `u32`, and then equals it |
| Password.ReversedValue | rust/day04/src/main.rs:71-77 | reading the reversed digits little-endian gives the ordinary decimal value |
| Password.ToU32 | rust/day04/src/main.rs:71-77 | a password converts without overflow exactly when its decimal value fits in `u32`, and converts to that value |
| Password.DecimalLength | rust/day04/src/main.rs:9-13 | the decimal form of `i` has more than `k` digits exactly when `i >= 10^k` |
| Password.SixDigitNumbers | rust/day04/src/main.rs:9-13 | the decimal form has six digits exactly for 100000..999999 |
| Password.AcceptedRoundTrip | rust/day04/src/main.rs:9-13 | an accepted number has six digits, and parsing its decimal form and converting back gives the number |
| Password.MatchingStep | rust/day04/src/main.rs:9-13 | extending the range by one adds one match exactly when the new number matches |
| Password.CountMatching | rust/day04/src/main.rs:9-13 | the counting loop returns the number of matching values in the half-open range |
| Password.CountValid | rust/day04/src/main.rs:9-13 | `main`'s count is the number of accepted passwords in `n1..n2`, upper end excluded |
| PasswordExamples.ParseWrongLength | rust/day04/src/main.rs:91-94 | seven and five digits are rejected |
| PasswordExamples.ParseExample | rust/day04/src/main.rs:97-99 | `113459` parses to its digits |
| PasswordExamples.ParsePairExample | rust/day04/src/main.rs:102-107 | a pair of valid strings parses to both passwords |
| PasswordExamples.NewRejectsDecrease | rust/day04/src/main.rs:110-112 | a decreasing pair of digits is rejected |
| PasswordExamples.NewAcceptsValid | rust/day04/src/main.rs:115-120 | `1,1,3,4,5,6` is accepted |
| PasswordExamples.NewRejectsNoPair | rust/day04/src/main.rs:123-125 | strictly increasing digits are rejected |
| PasswordExamples.ParseAllOnes | rust/day04/src/main.rs:128-132 | `111111` is valid |
| PasswordExamples.ParseRejectsDecrease | rust/day04/src/main.rs:128-132 | `223450` is not |
| PasswordExamples.ParseRejectsNoPair | rust/day04/src/main.rs:128-132 | `123789` is not |
| PasswordExamples.ToU32Example | rust/day04/src/main.rs:135-137 | `112234` converts to 112234 |
| Wires.Split | rust/day03/src/main.rs:149-149 | `str::split` yields at least one piece and no piece contains the separator |
| Wires.JoinSplit | rust/day03/src/main.rs:149-149 | joining the pieces of a split with the separator gives the string back |
| Wires.SplitJoin | rust/day03/src/main.rs:149-149 | splitting a join of separator-free pieces gives the pieces back |
| Wires.Trim | rust/day03/src/main.rs:150-150 | `str::trim` gives the contiguous middle of the string, empty exactly for all-whitespace input, with no whitespace at either end |
| Wires.TrimmedIsTrim | rust/day03/src/main.rs:150-150 | trimming a string with no whitespace at its ends leaves it unchanged |
| Wires.ReadLinesMeaning | rust/day03/src/main.rs:141-143 | `lines()` yields each piece before a newline with one trailing `\r` removed, then the final piece unless it is empty (kept as is), and no line contains a newline |
| Wires.ParseDirection | rust/day03/src/main.rs:163-171 | exactly `L`, `R`, `U` and `D` are directions, each the direction with that letter; anything else is the panic |
| Wires.ParseDirectionLetter | rust/day03/src/main.rs:163-171 | every direction's letter parses back to it |
| Wires.ParseU32 | rust/day03/src/main.rs:158-158 | `parse::<u32>` accepts an optional `+` followed by a non-empty run of digits whose value fits in `u32`, and returns that value |
| Wires.AccumulateValue | rust/day03/src/main.rs:158-158 | the digit-by-digit accumulation with overflow checks succeeds exactly when the string is all digits and the value fits, and returns the value |
| Wires.ParseDecimalString | rust/day03/src/main.rs:158-158 | the decimal form of any `u32` parses back to it |
| Wires.ParseCommand | rust/day03/src/main.rs:156-161 | a command parses exactly when its first character is a direction and the rest a `u32`, and then has that direction and distance |
| Wires.ParseFormatCommand | rust/day03/src/main.rs:156-161 | every command written as its letter and decimal distance parses back to it |
| Wires.ParseEachSome | rust/day03/src/main.rs:148-154 | a line's commands parse exactly when every kept token parses |
| Wires.ParseEachValues | rust/day03/src/main.rs:148-154 | a parsed line has one command per kept token, each the parse of that token |
| Wires.ParseTokensMeaning | rust/day03/src/main.rs:148-154 | `read_commands` with `trim` and `parse_command` succeeds exactly when every non-blank token parses, and yields their commands in order |
| Wires.ParseEachAll | rust/day03/src/main.rs:148-154 | tokens that all trim to parsable commands give exactly those commands |
| Wires.ParseFormattedTokens | rust/day03/src/main.rs:148-154 | formatted commands, as tokens, parse back to the commands |
| Wires.ReadFormattedWire | rust/day03/src/main.rs:148-154 | a wire written as comma-separated commands is read back as that wire |
| Wires.Collect | rust/day03/src/main.rs:137-146 | `read_wires` keeps only lines with at least one command, so every wire read is non-empty and there are no more wires than lines |
| Wires.CollectSome | rust/day03/src/main.rs:137-146 | reading the wires succeeds exactly when every line's commands parse |
| Wires.Move | rust/day03/src/main.rs:180-186 | a command moves the point by its distance along its axis and leaves the other coordinate alone |
| Wires.CommandsToPath | rust/day03/src/main.rs:173-189 | the path starts at the given point and each next point is the previous one moved by the next command |
| Wires.PointsToLines | rust/day03/src/main.rs:191-200 | the segments join each point to the next, one fewer than the points (none for fewer than two) |
| Wires.PointsToLinesInverse | rust/day03/src/main.rs:191-200 | the segments are chained end to start and their corners are the original points |
| Wires.Manhattan | rust/day03/src/main.rs:92-94 | the Manhattan distance is zero exactly between equal points |
| Wires.ManhattanSymmetric | rust/day03/src/main.rs:92-94 | the distance is symmetric |
| Wires.ManhattanTriangle | rust/day03/src/main.rs:92-94 | the distance obeys the triangle inequality |
| Wires.LineLength | rust/day03/src/main.rs:132-134 | a segment's length is the Manhattan distance between its ends |
| Wires.LinesLengthAppend | rust/day03/src/main.rs:83-85 | the length of a concatenation of segment lists is the sum of their lengths |
| Wires.PathLength | rust/day03/src/main.rs:83-85 | the segments of a wire's path are as long as the sum of its command distances |
| WireCrossings.IntersectingPoints | rust/day03/src/main.rs:202-220 | the nested loop returns the crossings of every first-wire segment with every second-wire segment, row by row, each with the walks up to the crossing |
| WireCrossings.RowCrossingsMembers | rust/day03/src/main.rs:205-216 | a crossing is in a row exactly when some second-wire segment meets the row's segment at its point and the crossing's walks are the ones built for that pair |
| WireCrossings.CrossingsMembers | rust/day03/src/main.rs:202-220 | a crossing is found exactly when some pair of segments meets at its point and its walks are the ones built for that pair |
| WireCrossings.WalkLength | rust/day03/src/main.rs:209-212 | a walk to a crossing is as long as the earlier segments plus the distance from the segment's start to the crossing |
| WireCrossings.CrossingSteps | rust/day03/src/main.rs:42-42 | the combined steps of a crossing are both walks' earlier segments plus both distances from the crossed segments' starts |
| WireCrossings.Insert | rust/day03/src/main.rs:28-28 | inserting into a sorted list keeps it sorted and adds exactly the new element |
| WireCrossings.SortBy | rust/day03/src/main.rs:28-28 | `sort_by` yields a sorted permutation of its input |
| WireCrossings.SortFirst | rust/day03/src/main.rs:28-31 | the head of the stable sort is the first minimal element of the input |
| WireCrossings.SelectMin | rust/day03/src/main.rs:28-31 | sort, reverse and pop return nothing exactly for an empty list, and otherwise the first element with the least key |
| WireCrossings.WireLines | rust/day03/src/main.rs:55-64 | the last two wires become chained segment lists as long as their command totals; unparsable input and fewer than two wires are distinct failures |
| WireCrossings.Distances | rust/day03/src/main.rs:24-27 | each crossing maps to its point and that point's distance to the origin |
| WireCrossings.FindShortestPath | rust/day03/src/main.rs:19-33 | fails exactly when reading the wires fails; otherwise returns nothing when no segments cross, and else the first crossing in search order whose distance to the origin is least, with that distance |
| WireCrossings.Nearest | rust/day03/src/main.rs:23-32 | selecting the minimum distance picks the first nearest crossing |
| WireCrossings.FirstMinDistance | rust/day03/src/main.rs:24-31 | the first minimal distance entry is a crossing nearer than every earlier one and no farther than any |
| WireCrossings.StepsOf | rust/day03/src/main.rs:40-43 | each crossing maps to the combined length of its two walks |
| WireCrossings.FindLeastStepsPath | rust/day03/src/main.rs:35-48 | fails exactly when reading the wires fails; otherwise returns nothing when no segments cross, and else the least combined step count over the crossings |
| WireCrossings.Fewest | rust/day03/src/main.rs:39-47 | selecting the minimum step count gives the fewest steps of any crossing |
| WiresExamples.ParseDirectionExamples | rust/day03/src/main.rs:230-235 | the four letters parse to their directions and `X` does not parse |
| WiresExamples.ParseCommandR10 | rust/day03/src/main.rs:238-243 | `R10` is right 10 |
| WiresExamples.ParseCommandU9 | rust/day03/src/main.rs:238-243 | `U9` is up 9 |
| WiresExamples.ParseCommandD999 | rust/day03/src/main.rs:238-243 | `D999` is down 999 |
| WiresExamples.ParseCommandL7 | rust/day03/src/main.rs:238-243 | `L7` is left 7 |
| WiresExamples.ParseU32Examples | rust/day03/src/main.rs:158-158 | the empty string, a bare `+` and a negative number are not `u32`s |
| WiresExamples.ParseU32Overflow | rust/day03/src/main.rs:158-158 | 2^32 is not a `u32` |
| WiresExamples.CommandsToPathExample | rust/day03/src/main.rs:246-256 | `U10,R9,D1` from the origin walks through (0,10), (9,10), (9,9) |
| WiresExamples.PointsToLinesExample | rust/day03/src/main.rs:259-267 | three points give two segments |
| WiresExamples.ReadWiresBlank | rust/day03/src/main.rs:294-296 | a blank line gives no wires |
| WiresExamples.ReadWiresExample1 | rust/day03/src/main.rs:299-325 | the indented two-line input reads as the two wires of the first example |
| WireCrossingsExamples.AxisMeetsExamples | rust/day03/src/main.rs:270-291 | the sample intersection function gives the answers of `test_line_intersects` |
| WireCrossingsExamples.ExampleSegments | rust/day03/src/main.rs:327-369 | the two wires of the first example walk into the paths and segments of the test |
| WireCrossingsExamples.ExampleCrossings | rust/day03/src/main.rs:371-408 | the crossing search on the first example finds (6,5) then (3,3), with the walks the test lists |
| WireCrossingsExamples.ShortestExample | rust/day03/src/main.rs:19-33 | on the first example the nearest crossing is (3,3) at distance 6 |
| WireCrossingsExamples.LeastStepsExample | rust/day03/src/main.rs:436-444 | on the first example the fewest combined steps are 30 |

## Left out

- **File and console I/O.** Not modelled: opening the file named on the
  command line, `read_intcode`, `read_mass_line`, printing results, and the
  `Input: ` prompt of `In`. The models take already-read text, code or
  numbers as parameters.
- **`In` input.** `In` takes its values from a sequence of integers in the
  machine's `Io`, standing for the lines read from stdin. `Out` appends to a
  sequence, with no formatting.
- **Loaders.** `read_mass_line` and `read_intcode` drop tokens that do not
  parse. Day 1 and day 2 take the parsed numbers directly.
- **Intcode.RunWith:** the `while !finished` loops are bounded by a `fuel`
  count. A program that never halts is `OutOfFuel` rather than a loop that
  runs forever.
- **IntcodeReduced.Search:** a trial that faults or runs out of fuel stops
  the search and is reported as stuck. The Rust program would panic or hang
  at that trial.
- **Program counter overflow.** The program counter is an unbounded `nat`.
  The `usize` overflow of `pc + 4` and `pc + 3` in the source is not modelled.
  Jump targets do use the real `i32 as usize` cast.
- **Line::intersects:** its floating-point computation is not modelled. It
  is a parameter of the crossing search. The published answers of the
  larger day 3 examples (159, 135, 610, 410) depend on it and are not
  restated.
- **Geometry overflow.** Point coordinates, distances and lengths are
  unbounded integers. The `i32` arithmetic in `commands_to_path`, the
  `as u32` casts in `manhattan_distance_to` and `Line::length`, and the
  `u32` fold in `Lines::length` are not checked for overflow.
  In particular, `commands_to_path` converts each `u32` distance with
  `x as i32`, which does not panic: a distance above `i32::MAX` wraps to a
  negative number and reverses the move. `Wires.Move` moves the full
  distance instead.
- **Password.Parse:** requires every character to be a decimal digit. The
  source panics on any other character, and every call in the source
  passes a digit string: `main` passes `i.to_string()`
  (`rust/day04/src/main.rs:11`), and `parse_pair` and the unit tests pass
  digit literals (`parse_pair` is used only by the test at
  `rust/day04/src/main.rs:102-107`).
- **Password.ParsePair:** requires the same of both strings. The second is
  needed only when the first parses, because `?` stops at the first `None`.
- **Invalid UTF-8.** Invalid UTF-8 and read errors in `lines()` (the `unwrap`
  in `read_wires`) are not modelled. The text is a Dafny string.
- **`test_least_steps_path_example1`:** only prints its result.
  `WireCrossingsExamples.LeastStepsExample` proves the value 30 using the
  sample intersection function.
- **Untagged day 5 helper.** The function at `rust/day05/src/main.rs:376-396`
  has no test attribute. It repeats the jump-if-false "taken" case with
  inconsistent expectations and is not restated.
- **IntcodeFull.Execute:** requires an instruction to carry at least as many
  operands as its opcode reads. Every instruction built by `Instr::decode`
  does.

=== FILE: base.dfy ===
/** Shared vocabulary for the puzzle models: optional and fallible results,
    and the fixed-width Rust integer operations the programs rely on. */
module Base {

  /** `Option<T>` of the source: `None` is also used where the source panics
      and the model reports the failure instead. */
  datatype Option<+T> = None | Some(value: T) {
    predicate IsFailure() { None? }

    function PropagateFailure<U>(): Option<U>
      requires None?
    {
      None
    }

    function Extract(): T
      requires Some?
    {
      value
    }
  }

  /** A value or the error that stopped the computation. */
  datatype Result<+T, +E> = Ok(value: T) | Err(error: E) {
    predicate IsFailure() { Err? }

    function PropagateFailure<U>(): Result<U, E>
      requires Err?
    {
      Err(error)
    }

    function Extract(): T
      requires Ok?
    {
      value
    }
  }

  const I32_MIN: int := -0x8000_0000
  const I32_MAX: int := 0x7FFF_FFFF
  const U32_MAX: int := 0xFFFF_FFFF
  /** `usize` on a 64-bit target. */
  const USIZE_MODULUS: int := 0x1_0000_0000_0000_0000

  predicate IsI32(x: int) { I32_MIN <= x <= I32_MAX }

  predicate IsU32(x: int) { 0 <= x <= U32_MAX }

  /** Rust's `i32` and `u32`. */
  type I32 = x: int | I32_MIN <= x <= I32_MAX

  type U32 = x: int | 0 <= x <= U32_MAX

  /** Rust's `/` on integers: the quotient is rounded toward zero
      (Dafny's own `/` rounds so that the remainder is non-negative). */
  function TruncDiv(a: int, b: int): (q: int)
    requires b > 0
    ensures a >= 0 ==> q * b <= a < q * b + b
    ensures a < 0 ==> q * b - b < a <= q * b
  {
    if a >= 0 then a / b else -((-a) / b)
  }

  /** `a - b * (a / b)` in Rust: the remainder takes the sign of `a`. */
  function TruncRem(a: int, b: int): (r: int)
    requires b > 0
    ensures -b < r < b
    ensures a >= 0 ==> r == a % b
    ensures a < 0 ==> r <= 0
  {
    a - b * TruncDiv(a, b)
  }

  /** For non-negative operands Rust's and Dafny's division agree. */
  lemma TruncDivOfNonNegative(a: int, b: int)
    requires a >= 0 && b > 0
    ensures TruncDiv(a, b) == a / b && TruncRem(a, b) == a % b
  {
  }

  /** `x as usize` for an `i32` value: a negative value is reinterpreted in
      two's complement, which lands it far beyond any real memory size. */
  function AsUsize(x: int): (r: nat)
    requires IsI32(x)
    ensures r < USIZE_MODULUS
    ensures (r - x) % USIZE_MODULUS == 0
    ensures x >= 0 ==> r == x
    ensures x < 0 ==> r > I32_MAX
  {
    if x >= 0 then x else x + USIZE_MODULUS
  }

  /** `10u32.pow(k)`, without a width limit. */
  function Pow10(k: nat): (r: nat)
    ensures r >= 1
  {
    if k == 0 then 1 else 10 * Pow10(k - 1)
  }

  // ---------------------------------------------------------------------
  // Decimal digits

  predicate IsDigit(c: char) {
    '0' <= c <= '9'
  }

  predicate AllDigits(s: string) {
    forall i | 0 <= i < |s| :: IsDigit(s[i])
  }

  /** `char::to_digit(10)` on a decimal digit. */
  function ToDigit(c: char): (d: U32)
    requires IsDigit(c)
    ensures d <= 9
  {
    c as int - '0' as int
  }

  /** The character of a decimal digit. */
  function DigitChar(d: nat): (c: char)
    requires d <= 9
    ensures IsDigit(c) && ToDigit(c) == d
  {
    ('0' as int + d) as char
  }

  /** The digits of a decimal string, in order. */
  function DigitValues(s: string): (ds: seq<U32>)
    requires AllDigits(s)
    ensures |ds| == |s|
    ensures forall i | 0 <= i < |s| :: ds[i] == ToDigit(s[i])
  {
    seq(|s|, i requires 0 <= i < |s| => ToDigit(s[i]))
  }

  /** The number written by digits, most significant first (Horner). */
  function DecimalValue(ds: seq<int>): int {
    if |ds| == 0 then 0 else 10 * DecimalValue(ds[..|ds| - 1]) + ds[|ds| - 1]
  }

  /** `u32::to_string`: decimal digits, no leading zeros, "0" for zero. */
  function DecimalString(i: nat): (s: string)
    ensures 1 <= |s| && AllDigits(s)
    ensures DecimalValue(DigitValues(s)) == i
    ensures i > 0 ==> s[0] != '0'
  {
    if i < 10 then [DigitChar(i)]
    else
      var s := DecimalString(i / 10) + [DigitChar(i % 10)];
      assert DigitValues(s)[..|s| - 1] == DigitValues(DecimalString(i / 10));
      s
  }

  /** The elements in the opposite order. */
  function Reverse<T>(s: seq<T>): (r: seq<T>)
    ensures |r| == |s|
    ensures forall i | 0 <= i < |s| :: r[i] == s[|s| - 1 - i]
  {
    seq(|s|, i requires 0 <= i < |s| => s[|s| - 1 - i])
  }
}

=== FILE: fuel.dfy ===
/** The rocket equation of rust/day01: the fuel a module's mass needs, the
    fuel that fuel needs in turn, and the total over all modules, in `u32`
    arithmetic. */
module Fuel {
  import opened Base

  /** `u32::saturating_sub`. */
  function SaturatingSub(a: nat, b: nat): (r: nat)
    ensures a >= b ==> r == a - b
    ensures a < b ==> r == 0
  {
    if a >= b then a - b else 0
  }

  /** `u32` division by 3, rounding down. */
  function Third(x: nat): (r: nat)
    ensures 3 * r <= x < 3 * r + 3
  {
    x / 3
  }

  /** `calculate_fuel_required_for_fuel`: a third of the load, less two and
      never below zero, is the fuel it needs; that fuel needs fuel in turn,
      until the amount reaches zero. The whole chain is at most half the
      load, so the `u32` additions never overflow. */
  function FuelForFuel(f: U32): (r: U32)
    ensures r == 0 <==> f < 9
    ensures 2 * r <= f
    decreases f
  {
    var n := SaturatingSub(Third(f), 2);
    if n <= 0 then 0 else n + FuelForFuel(n)
  }

  /** The fuel chain grows with the load it carries. */
  lemma {:induction false} FuelForFuelMonotonic(f: U32, g: U32)
    requires f <= g
    ensures FuelForFuel(f) <= FuelForFuel(g)
    decreases g
  {
    var n := SaturatingSub(Third(f), 2);
    var m := SaturatingSub(Third(g), 2);
    assert n <= m;
    if n > 0 {
      FuelForFuelMonotonic(n, m);
    }
  }

  /** The same chain computed with an accumulator, one link per iteration. */
  method FuelForFuelIterative(f: U32) returns (total: nat)
    ensures total == FuelForFuel(f)
  {
    total := 0;
    var load: U32 := f;
    while SaturatingSub(Third(load), 2) > 0
      invariant total + FuelForFuel(load) == FuelForFuel(f)
      decreases load
    {
      var n := SaturatingSub(Third(load), 2);
      total := total + n;
      load := n;
    }
  }

  /** `calculate_fuel_required_for_mass`: as for fuel, but the subtraction
      is a plain `u32` one, which panics (`None` here) for a mass below 6. */
  function FuelForMass(m: U32): (r: Option<U32>)
    ensures r.Some? <==> m >= 6
    ensures r.Some? ==> Third(m) - 2 <= r.value && 2 * r.value <= m
  {
    if Third(m) < 2 then None
    else
      var fuel := Third(m) - 2;
      Some(fuel + FuelForFuel(fuel))
  }

  /** Wherever the mass formula is defined it is the fuel formula: the two
      differ only in how they treat a third that is less than two. */
  lemma MassAsFuel(m: U32)
    requires m >= 6
    ensures FuelForMass(m).Some? && FuelForMass(m).value == FuelForFuel(m)
  {
    var n := Third(m) - 2;
    assert FuelForMass(m).value == n + FuelForFuel(n);
    assert FuelForFuel(m) == n + FuelForFuel(n);
  }

  /** The mathematical total fuel, with no width limit. */
  function TotalRequired(masses: seq<U32>): nat {
    if |masses| == 0 then 0
    else TotalRequired(masses[..|masses| - 1]) + FuelForFuel(masses[|masses| - 1])
  }

  predicate AllAtLeastSix(masses: seq<U32>) {
    forall i | 0 <= i < |masses| :: masses[i] >= 6
  }

  /** The summation in `main`: map each mass to its fuel and add up in
      `u32`. A mass below 6 or a running total beyond `u32` panics; both are
      `None` here. */
  method TotalFuel(masses: seq<U32>) returns (r: Option<U32>)
    ensures r.Some? <==> AllAtLeastSix(masses) && TotalRequired(masses) <= U32_MAX
    ensures r.Some? ==> r.value == TotalRequired(masses)
  {
    var sum: U32 := 0;
    var i := 0;
    while i < |masses|
      invariant 0 <= i <= |masses|
      invariant AllAtLeastSix(masses[..i])
      invariant sum == TotalRequired(masses[..i])
    {
      assert masses[..i + 1][..i] == masses[..i];
      var fuel := FuelForMass(masses[i]);
      if fuel.None? {
        return None;
      }
      MassAsFuel(masses[i]);
      if sum + fuel.value > U32_MAX {
        TotalRequiredGrows(masses, i + 1);
        return None;
      }
      sum := sum + fuel.value;
      i := i + 1;
    }
    assert masses[..i] == masses;
    return Some(sum);
  }

  /** A total is at least the total of any prefix. */
  lemma {:induction false} TotalRequiredGrows(masses: seq<U32>, k: nat)
    requires k <= |masses|
    ensures TotalRequired(masses[..k]) <= TotalRequired(masses)
    decreases |masses|
  {
    if k < |masses| {
      var init := masses[..|masses| - 1];
      assert masses[..k] == init[..k];
      TotalRequiredGrows(init, k);
    } else {
      assert masses[..k] == masses;
    }
  }
}

=== FILE: fuel_examples.dfy ===
/** The unit tests of rust/day01 restated as facts about the model. */
module FuelExamples {
  import opened Base
  import opened Fuel

  /** `test_calculate_fuel_required_for_fuel`. */
  lemma FuelForFuelExamples()
    ensures FuelForFuel(2) == 0 && FuelForFuel(5) == 0
    ensures FuelForFuel(21) == 5 && FuelForFuel(70) == 26 && FuelForFuel(216) == 96
  {
  }

  /** `test_calculate_fuel_required_for_mass`, small masses. */
  lemma FuelForMassSmallExamples()
    ensures FuelForMass(12) == Some(2) && FuelForMass(14) == Some(2)
  {
  }

  /** `test_calculate_fuel_required_for_mass`: 1969 needs 966. */
  lemma FuelForMass1969()
    ensures FuelForMass(1969) == Some(966)
  {
  }

  /** `test_calculate_fuel_required_for_mass`: 100756 needs 50346. */
  lemma FuelForMass100756()
    ensures FuelForMass(100756) == Some(50346)
  {
    assert FuelForFuel(12) == 2;
    assert FuelForFuel(43) == 14;
    assert FuelForFuel(135) == 57;
    assert FuelForFuel(411) == 192;
    assert FuelForFuel(1240) == 603;
    assert FuelForFuel(3728) == 1843;
    assert FuelForFuel(11192) == 5571;
    assert FuelForFuel(33583) == 16763;
  }
}

=== FILE: intcode.dfy ===
/** State shared by both revisions of the Intcode machine: the program
    record `{pc, code, finished}`, the ways a step can fail, and the driving
    loop that ticks a program until it finishes. */
module Intcode {
  import opened Base

  /** `Program` of both revisions, over their cell type `C` (`u32` in the
      reduced machine, `i32` in the full one). `pc` is a `usize`; `code` is
      the flat memory that holds instructions and data alike. */
  datatype Program<C> = Program(pc: nat, code: seq<C>, finished: bool)

  /** The conditions under which the source panics, reported as values.
      `OutOfBounds(index)` carries the index that was out of range: an
      absolute address for memory reads and writes, the `pc` for a slice
      start beyond the end, and an offset into the instruction slice when
      the instruction itself runs off the end of memory. */
  datatype Fault =
    | UnknownOpcode(word: int)
    | InvalidMode(digit: int)
    | OutOfBounds(index: int)
    | Overflow
    | BadInput

  /** `Program::new`: execution starts at address 0, not finished. */
  function New<C>(code: seq<C>): Program<C> {
    Program(0, code, false)
  }

  /** Cell `t` of `after` holds `v`, and every other cell is as in `before`. */
  ghost predicate Stored(before: seq<int>, after: seq<int>, t: int, v: int) {
    && |after| == |before|
    && 0 <= t < |before|
    && after[t] == v
    && forall j | 0 <= j < |before| && j != t :: after[j] == before[j]
  }

  /** How `while !program.finished { program.tick() }` ends: finished, stopped
      by the first fault, or still running when the step budget is spent
      (the source would keep going, possibly forever). */
  datatype Outcome<S> = Halted(state: S) | Faulted(fault: Fault) | OutOfFuel(state: S)

  /** The driving loop over any machine: tick until `finished` holds, for at
      most `fuel` ticks. */
  function RunWith<S>(tick: S -> Result<S, Fault>, finished: S -> bool, s: S, fuel: nat): (r: Outcome<S>)
    ensures finished(s) ==> r == Halted(s)
    ensures r.Halted? ==> finished(r.state)
    ensures r.OutOfFuel? ==> !finished(r.state)
    ensures fuel == 0 ==> r.Halted? || r == OutOfFuel(s)
    decreases fuel
  {
    if finished(s) then Halted(s)
    else if fuel == 0 then OutOfFuel(s)
    else
      match tick(s)
      case Err(f) => Faulted(f)
      case Ok(s') => RunWith(tick, finished, s', fuel - 1)
  }

  /** Give a run that ran out of fuel `m` more ticks; any other outcome is
      final. */
  function Resume<S>(tick: S -> Result<S, Fault>, finished: S -> bool, o: Outcome<S>, m: nat): Outcome<S> {
    if o.OutOfFuel? then RunWith(tick, finished, o.state, m) else o
  }

  /** Running for `n + m` ticks is running for `n`, then for `m` more from
      wherever the first run stopped. */
  lemma {:induction false} RunAdditive<S>(tick: S -> Result<S, Fault>, finished: S -> bool, s: S, n: nat, m: nat)
    ensures RunWith(tick, finished, s, n + m) == Resume(tick, finished, RunWith(tick, finished, s, n), m)
    decreases n
  {
    if finished(s) || n == 0 {
    } else if tick(s).Ok? {
      RunAdditive(tick, finished, tick(s).value, n - 1, m);
      assert (n - 1) + m == n + m - 1;
    }
  }

  /** A run that finished or faulted is unaffected by a larger budget: the
      loop is deterministic and stops for good. */
  lemma {:induction false} RunStable<S>(tick: S -> Result<S, Fault>, finished: S -> bool, s: S, n: nat, k: nat)
    requires !RunWith(tick, finished, s, n).OutOfFuel?
    ensures RunWith(tick, finished, s, n + k) == RunWith(tick, finished, s, n)
  {
    RunAdditive(tick, finished, s, n, k);
  }

  /** A property that every successful tick preserves holds of the state a
      run stops in. */
  lemma {:induction false} RunPreserves<S>(tick: S -> Result<S, Fault>, finished: S -> bool, inv: S -> bool, s: S, fuel: nat)
    requires inv(s)
    requires forall x | inv(x) && tick(x).Ok? :: inv(tick(x).value)
    ensures var r := RunWith(tick, finished, s, fuel); r.Halted? || r.OutOfFuel? ==> inv(r.state)
    decreases fuel
  {
    if !finished(s) && fuel > 0 && tick(s).Ok? {
      RunPreserves(tick, finished, inv, tick(s).value, fuel - 1);
    }
  }
}

=== FILE: intcode_agreement.dfy ===
/** The two Intcode revisions side by side: on the words 1, 2 and 99, and
    on memory whose cells are representable in both `u32` and `i32`, a step
    of the reduced machine (rust/day02) is a step of the full one
    (rust/day05) with every operand in Position mode. They part only where a
    result fits `u32` but not `i32`: the full machine then overflows. */
module IntcodeAgreement {
  import opened Base
  import opened Intcode
  import Full = IntcodeFull
  import Reduced = IntcodeReduced

  /** Cells that both revisions can hold: non-negative `i32` values. */
  predicate Shared(code: seq<int>) {
    forall i | 0 <= i < |code| :: 0 <= code[i] <= I32_MAX
  }

  /** The same program seen by the full machine. */
  function ToFull(p: Program<U32>): (q: Program<I32>)
    requires Shared(p.code)
    ensures q.pc == p.pc && q.finished == p.finished && q.code == p.code
  {
    Program(p.pc, p.code, p.finished)
  }

  /** A reduced opcode is the full opcode of the same number with Position
      operands. */
  function FullOpcode(op: Reduced.Opcode): (r: Full.Opcode)
    ensures Full.OpcodeNumber(r) == Reduced.Number(op)
    ensures forall k | 0 <= k < |Full.ModesOf(r)| :: Full.ModesOf(r)[k] == Full.Position
    ensures Full.Arity(r) == Reduced.Arity(op)
  {
    match op
    case Add => Full.Add(Full.Position, Full.Position)
    case Mul => Full.Mul(Full.Position, Full.Position)
    case Fin => Full.Fin
  }

  function FullInstr(instr: Reduced.Instr): Full.Instr
    requires Shared(Reduced.Operands(instr))
  {
    Full.Instr(FullOpcode(Reduced.OpcodeOf(instr)), Reduced.Operands(instr))
  }

  /** The full decoder reads each of the reduced machine's words as the
      corresponding opcode in Position mode. */
  lemma DecodeAgrees(w: U32)
    requires w == 1 || w == 2 || w == 99
    ensures Full.DecodeOpcode(w) == Ok(FullOpcode(Reduced.DecodeOpcode(w).value))
  {
    var op := FullOpcode(Reduced.DecodeOpcode(w).value);
    assert Pow10(0) == 1 && Pow10(1) == 10;
    assert Full.ModeDigitSpec(w, 0) == 0 && Full.ModeDigitSpec(w, 1) == 0;
    Full.DecodeByDigits(w, op);
  }

  /** The instruction decoders agree on a slice that starts with one of the
      reduced machine's words, including when the slice is too short. */
  lemma DecodeInstrAgrees(code: seq<U32>)
    requires Shared(code) && |code| > 0
    requires code[0] == 1 || code[0] == 2 || code[0] == 99
    ensures var r := Reduced.DecodeInstr(code);
      && (r.Ok? ==> Shared(Reduced.Operands(r.value)) && Full.DecodeInstr(code) == Ok(FullInstr(r.value)))
      && (r.Err? ==> Full.DecodeInstr(code) == Err(r.error))
  {
    var op := Reduced.DecodeOpcode(code[0]).value;
    DecodeAgrees(code[0]);
    Full.DecodeInstrOf(code, FullOpcode(op));
    if |code| >= 1 + Reduced.Arity(op) {
      DecodedInstrAgrees(code, op);
    }
  }

  /** A complete reduced instruction decodes, in the full machine, to its
      Position-mode counterpart with the same operands. */
  lemma DecodedInstrAgrees(code: seq<U32>, op: Reduced.Opcode)
    requires Shared(code) && |code| > 0 && Reduced.DecodeOpcode(code[0]) == Some(op)
    requires |code| >= 1 + Reduced.Arity(op)
    ensures var r := Reduced.DecodeInstr(code);
      r.Ok? && Reduced.OpcodeOf(r.value) == op
      && Reduced.Operands(r.value) == code[1..1 + Reduced.Arity(op)]
      && Shared(Reduced.Operands(r.value))
  {
    var r := Reduced.DecodeInstr(code);
    assert Reduced.OpcodeOf(r.value) == op by {
      Reduced.DecodeNumber(Reduced.OpcodeOf(r.value));
    }
    ReducedOperands(code, r.value);
    var ps := Reduced.Operands(r.value);
    forall k | 0 <= k < |ps| ensures 0 <= ps[k] <= I32_MAX {
      assert ps[k] == code[1 + k];
    }
  }

  /** The operands of a decoded reduced instruction are the cells after its
      opcode word. */
  lemma ReducedOperands(code: seq<U32>, instr: Reduced.Instr)
    requires Reduced.DecodeInstr(code) == Ok(instr)
    ensures Reduced.Operands(instr) == code[1..1 + Reduced.Arity(Reduced.OpcodeOf(instr))]
  {
    var e := Reduced.EncodeInstr(instr);
    assert Reduced.Operands(instr) == e[1..];
  }

  /** What the full machine does with a Position-mode `Add` or `Mul` whose
      operands are non-negative. */
  lemma FullArith(p: Program<I32>, op: Full.Opcode, ps: seq<I32>, io: Full.Io)
    requires op == Full.Add(Full.Position, Full.Position) || op == Full.Mul(Full.Position, Full.Position)
    requires |ps| == 3 && Shared(ps)
    ensures var c := p.code;
      Full.Execute(p, Full.Instr(op, ps), io) ==
        if ps[0] >= |c| then Err(OutOfBounds(ps[0]))
        else if ps[1] >= |c| then Err(OutOfBounds(ps[1]))
        else
          var v := if op.Add? then c[ps[0]] as int + c[ps[1]] else c[ps[0]] as int * c[ps[1]];
          if !IsI32(v) then Err(Overflow)
          else if ps[2] >= |c| then Err(OutOfBounds(ps[2]))
          else Ok((p.(code := c[ps[2] := v], pc := p.pc + 4), io))
  {
    assert Full.ModesOf(op) == [Full.Position, Full.Position];
    assert AsUsize(ps[0]) == ps[0] && AsUsize(ps[1]) == ps[1] && AsUsize(ps[2]) == ps[2];
  }

  /** `execute_instr` of both revisions on a reduced instruction: both fail
      or both succeed alike, except that a stored value beyond `i32` is an
      overflow in the full machine. */
  lemma ExecuteAgrees(p: Program<U32>, instr: Reduced.Instr, io: Full.Io)
    requires Shared(p.code) && Shared(Reduced.Operands(instr))
    ensures var r := Reduced.Execute(p, instr);
      var f := Full.Execute(ToFull(p), FullInstr(instr), io);
      && (r.Ok? && Shared(r.value.code) ==> f == Ok((ToFull(r.value), io)))
      && (r.Ok? && !Shared(r.value.code) ==> f == Err(Overflow))
      && (r.Err? ==> f.Err? && (f.error == r.error || f.error == Overflow))
  {
    if !instr.FinInstr? {
      ExecuteArithAgrees(p, instr, io);
    }
  }

  /** `ExecuteAgrees` for `Add` and `Mul`. */
  lemma ExecuteArithAgrees(p: Program<U32>, instr: Reduced.Instr, io: Full.Io)
    requires Shared(p.code) && Shared(Reduced.Operands(instr)) && !instr.FinInstr?
    ensures var r := Reduced.Execute(p, instr);
      var f := Full.Execute(ToFull(p), FullInstr(instr), io);
      && (r.Ok? && Shared(r.value.code) ==> f == Ok((ToFull(r.value), io)))
      && (r.Ok? && !Shared(r.value.code) ==> f == Err(Overflow))
      && (r.Err? ==> f.Err? && (f.error == r.error || f.error == Overflow))
  {
    if Reduced.Execute(p, instr).Ok? {
      ArithStoreAgrees(p, instr, io);
    } else {
      ArithFaultAgrees(p, instr, io);
    }
  }

  /** A reduced `Add` or `Mul` that fails fails in the full machine too, with
      the same fault or an overflow. */
  lemma ArithFaultAgrees(p: Program<U32>, instr: Reduced.Instr, io: Full.Io)
    requires Shared(p.code) && Shared(Reduced.Operands(instr)) && !instr.FinInstr?
    requires Reduced.Execute(p, instr).Err?
    ensures var f := Full.Execute(ToFull(p), FullInstr(instr), io);
      f.Err? && (f.error == Reduced.Execute(p, instr).error || f.error == Overflow)
  {
    var ps := Reduced.Operands(instr);
    assert ps[0] == instr.a && ps[1] == instr.b && ps[2] == instr.t;
    FullArith(ToFull(p), FullOpcode(Reduced.OpcodeOf(instr)), ps, io);
  }

  /** A reduced `Add` or `Mul` that stores a value stores the same value in
      the full machine when it fits `i32`, and overflows there otherwise. */
  lemma ArithStoreAgrees(p: Program<U32>, instr: Reduced.Instr, io: Full.Io)
    requires Shared(p.code) && Shared(Reduced.Operands(instr)) && !instr.FinInstr?
    requires Reduced.Execute(p, instr).Ok?
    ensures var q := Reduced.Execute(p, instr).value;
      var f := Full.Execute(ToFull(p), FullInstr(instr), io);
      && (Shared(q.code) ==> f == Ok((ToFull(q), io)))
      && (!Shared(q.code) ==> f == Err(Overflow))
  {
    var ps := Reduced.Operands(instr);
    assert ps[0] == instr.a && ps[1] == instr.b && ps[2] == instr.t;
    FullArith(ToFull(p), FullOpcode(Reduced.OpcodeOf(instr)), ps, io);
    ArithResult(p, instr);
  }

  /** A successful reduced `Add` or `Mul` leaves memory shared exactly when
      the stored value fits `i32`. */
  lemma ArithResult(p: Program<U32>, instr: Reduced.Instr)
    requires Shared(p.code) && !instr.FinInstr? && Reduced.Execute(p, instr).Ok?
    ensures var q := Reduced.Execute(p, instr).value;
      var v := Reduced.Combine(instr, p.code[instr.a], p.code[instr.b]);
      && q.code == p.code[instr.t := v]
      && (Shared(q.code) <==> IsI32(v))
  {
    var q := Reduced.Execute(p, instr).value;
    var v := Reduced.Combine(instr, p.code[instr.a], p.code[instr.b]);
    assert q.code == p.code[instr.t := v];
    if IsI32(v) {
      forall i | 0 <= i < |q.code| ensures 0 <= q.code[i] <= I32_MAX {
        if i != instr.t {
          assert q.code[i] == p.code[i];
        }
      }
    } else {
      assert !(0 <= q.code[instr.t] <= I32_MAX);
    }
  }

  /** `tick` of both revisions at a word of the reduced machine. */
  lemma TickAgrees(p: Program<U32>, io: Full.Io)
    requires Shared(p.code) && p.pc < |p.code|
    requires p.code[p.pc] == 1 || p.code[p.pc] == 2 || p.code[p.pc] == 99
    ensures var r := Reduced.Tick(p);
      var f := Full.Tick((ToFull(p), io));
      && (r.Ok? && Shared(r.value.code) ==> f == Ok((ToFull(r.value), io)))
      && (r.Ok? && !Shared(r.value.code) ==> f == Err(Overflow))
      && (r.Err? ==> f.Err? && (f.error == r.error || f.error == Overflow))
  {
    var slice := p.code[p.pc..];
    assert Shared(slice) by {
      forall i | 0 <= i < |slice| ensures 0 <= slice[i] <= I32_MAX {
        assert slice[i] == p.code[p.pc + i];
      }
    }
    DecodeInstrAgrees(slice);
    var d := Reduced.DecodeInstr(slice);
    if d.Ok? {
      ExecuteAgrees(p, d.value, io);
    }
  }
}

=== FILE: intcode_full.dfy ===
/** The full Intcode machine (rust/day05): nine opcodes, Position and
    Immediate addressing, console input and output as integer sequences. */
module IntcodeFull {
  import opened Base
  import opened Intcode

  /** `ParameterMode`. */
  datatype Mode = Position | Immediate

  /** `Opcode`: each variant carries the addressing modes of the operands it
      reads. Write targets have no mode: they are always addresses. */
  datatype Opcode =
    | Add(m1: Mode, m2: Mode)
    | Mul(m1: Mode, m2: Mode)
    | In
    | Out(m1: Mode)
    | JumpIfTrue(m1: Mode, m2: Mode)
    | JumpIfFalse(m1: Mode, m2: Mode)
    | LessThan(m1: Mode, m2: Mode)
    | Equals(m1: Mode, m2: Mode)
    | Fin

  /** `Instr`: a decoded opcode and its raw operand cells. */
  datatype Instr = Instr(op: Opcode, params: seq<I32>)

  /** Console input still to be read (already parsed to integers; a value
      outside `i32` is a line the source fails to parse) and the values
      written so far. */
  datatype Io = Io(input: seq<int>, output: seq<I32>)

  /** The program of this revision: memory cells are `i32`. */
  type Machine = (Program<I32>, Io)

  // ---------------------------------------------------------------------
  // The instruction encoding, stated independently of the decoder

  /** The two low decimal digits that select each opcode. */
  function OpcodeNumber(op: Opcode): nat {
    match op
    case Add(_, _) => 1
    case Mul(_, _) => 2
    case In => 3
    case Out(_) => 4
    case JumpIfTrue(_, _) => 5
    case JumpIfFalse(_, _) => 6
    case LessThan(_, _) => 7
    case Equals(_, _) => 8
    case Fin => 99
  }

  /** The addressing modes an opcode carries, operand by operand. */
  function ModesOf(op: Opcode): seq<Mode> {
    match op
    case Add(a, b) => [a, b]
    case Mul(a, b) => [a, b]
    case In => []
    case Out(a) => [a]
    case JumpIfTrue(a, b) => [a, b]
    case JumpIfFalse(a, b) => [a, b]
    case LessThan(a, b) => [a, b]
    case Equals(a, b) => [a, b]
    case Fin => []
  }

  /** How many mode digits the decoder inspects for a given opcode number. */
  function ModesUsed(n: int): nat {
    if n == 3 || n == 99 then 0 else if n == 4 then 1 else 2
  }

  predicate KnownOpcode(n: int) {
    1 <= n <= 8 || n == 99
  }

  /** The digit that encodes a mode. */
  function ModeNumber(m: Mode): nat {
    if m.Position? then 0 else 1
  }

  /** Decimal digit `k` of `i / 100`, for a positive word. */
  function ModeDigitSpec(i: nat, k: nat): nat {
    (i / (100 * Pow10(k))) % 10
  }

  /** A word the decoder accepts: a known opcode in the two low digits and
      a 0 or 1 in every mode digit that opcode reads. */
  predicate WellFormedWord(i: int) {
    && i > 0
    && KnownOpcode(i % 100)
    && (ModesUsed(i % 100) > 0 ==> ModeDigitSpec(i, 0) <= 1)
    && (ModesUsed(i % 100) > 1 ==> ModeDigitSpec(i, 1) <= 1)
  }

  /** The modes of `op` are the mode digits of `i`, operand by operand. */
  predicate ModesMatch(op: Opcode, i: nat) {
    var ms := ModesOf(op);
    && (|ms| > 0 ==> ModeNumber(ms[0]) == ModeDigitSpec(i, 0))
    && (|ms| > 1 ==> ModeNumber(ms[1]) == ModeDigitSpec(i, 1))
  }

  /** The canonical word for an opcode: its number plus its mode digits. */
  function Encode(op: Opcode): (w: nat) {
    var ms := ModesOf(op);
    OpcodeNumber(op)
    + (if |ms| > 0 then 100 * ModeNumber(ms[0]) else 0)
    + (if |ms| > 1 then 1000 * ModeNumber(ms[1]) else 0)
  }

  /** Operands taken from the cells after the instruction word. */
  function Arity(op: Opcode): nat {
    match op
    case Add(_, _) => 3
    case Mul(_, _) => 3
    case In => 1
    case Out(_) => 1
    case JumpIfTrue(_, _) => 2
    case JumpIfFalse(_, _) => 2
    case LessThan(_, _) => 3
    case Equals(_, _) => 3
    case Fin => 0
  }

  // ---------------------------------------------------------------------
  // Decoder

  /** `ParameterMode::parse`. */
  function ParseMode(n: int): (r: Option<Mode>)
    ensures r.Some? <==> n == 0 || n == 1
    ensures r.Some? ==> ModeNumber(r.value) == n
  {
    if n == 0 then Some(Position)
    else if n == 1 then Some(Immediate)
    else None
  }

  /** Mode digit `k` as the source computes it, with Rust's truncating
      division. */
  function ModeDigit(i: int, k: nat): int {
    TruncRem(TruncDiv(i, 100 * Pow10(k)), 10)
  }

  /** The `param!` macro: parse mode digit `k`, where the source's `unwrap`
      panics on a digit other than 0 or 1. */
  function OperandMode(i: int, k: nat): Result<Mode, Fault> {
    var d := ModeDigit(i, k);
    match ParseMode(d)
    case Some(m) => Ok(m)
    case None => Err(InvalidMode(d))
  }

  function TwoModes(i: int): Result<(Mode, Mode), Fault> {
    var a :- OperandMode(i, 0);
    var b :- OperandMode(i, 1);
    Ok((a, b))
  }

  /** `Opcode::decode`: the opcode is the truncated remainder of the word by
      100; an unknown opcode is `None` in the source, reported here as
      `UnknownOpcode`. */
  function DecodeOpcode(i: int): (r: Result<Opcode, Fault>)
    ensures r.Ok? <==> WellFormedWord(i)
    ensures r.Ok? ==> OpcodeNumber(r.value) == i % 100 && ModesMatch(r.value, i)
    ensures !KnownOpcode(TruncRem(i, 100)) ==> r == Err(UnknownOpcode(i))
    ensures r.Err? && KnownOpcode(TruncRem(i, 100)) ==> r.error.InvalidMode? && !(0 <= r.error.digit <= 1)
    ensures r.Err? && KnownOpcode(TruncRem(i, 100)) ==>
      r.error == InvalidMode(if ParseMode(ModeDigit(i, 0)).None? then ModeDigit(i, 0) else ModeDigit(i, 1))
  {
    var n := TruncRem(i, 100);
    if i > 0 then
      DigitsOfPositive(i);
      DecodeOpcodeBody(i, n)
    else
      DecodeOpcodeBody(i, n)
  }

  function DecodeOpcodeBody(i: int, n: int): Result<Opcode, Fault> {
    if n == 1 then var (a, b) :- TwoModes(i); Ok(Add(a, b))
    else if n == 2 then var (a, b) :- TwoModes(i); Ok(Mul(a, b))
    else if n == 3 then Ok(In)
    else if n == 4 then var a :- OperandMode(i, 0); Ok(Out(a))
    else if n == 5 then var (a, b) :- TwoModes(i); Ok(JumpIfTrue(a, b))
    else if n == 6 then var (a, b) :- TwoModes(i); Ok(JumpIfFalse(a, b))
    else if n == 7 then var (a, b) :- TwoModes(i); Ok(LessThan(a, b))
    else if n == 8 then var (a, b) :- TwoModes(i); Ok(Equals(a, b))
    else if n == 99 then Ok(Fin)
    else Err(UnknownOpcode(i))
  }

  /** For a positive word the truncating digit extraction of the source is
      ordinary decimal digit extraction. */
  lemma DigitsOfPositive(i: int)
    requires i > 0
    ensures TruncRem(i, 100) == i % 100
    ensures ModeDigit(i, 0) == ModeDigitSpec(i, 0)
    ensures ModeDigit(i, 1) == ModeDigitSpec(i, 1)
  {
    assert Pow10(0) == 1;
    assert Pow10(1) == 10;
    TruncDivOfNonNegative(i, 100);
    TruncDivOfNonNegative(i, 1000);
    TruncDivOfNonNegative(i / 100, 10);
    TruncDivOfNonNegative(i / 1000, 10);
  }

  /** The digits of a word assembled from an opcode number and two mode
      digits are those parts again. */
  lemma WordDigits(n: nat, d0: nat, d1: nat)
    requires 0 < n < 100 && d0 <= 1 && d1 <= 1
    ensures var w := n + 100 * d0 + 1000 * d1;
      w % 100 == n && ModeDigitSpec(w, 0) == d0 && ModeDigitSpec(w, 1) == d1
  {
    var w := n + 100 * d0 + 1000 * d1;
    assert Pow10(0) == 1 && Pow10(1) == 10;
    assert w / 100 == d0 + 10 * d1;
    assert w / 1000 == d1;
  }

  /** Decoding the canonical word of an opcode gives that opcode back. */
  lemma {:induction false} DecodeEncode(op: Opcode)
    ensures DecodeOpcode(Encode(op)) == Ok(op)
  {
    var ms := ModesOf(op);
    var d0 := if |ms| > 0 then ModeNumber(ms[0]) else 0;
    var d1 := if |ms| > 1 then ModeNumber(ms[1]) else 0;
    var w := Encode(op);
    WordDigits(OpcodeNumber(op), d0, d1);
    assert WellFormedWord(w);
    var r := DecodeOpcode(w);
    assert OpcodeNumber(r.value) == OpcodeNumber(op);
    assert ModesMatch(r.value, w) && ModesMatch(op, w);
    SameDigitsSameOpcode(r.value, op, w);
  }

  /** Conversely, a well-formed word decodes to the opcode whose number
      and modes are its digits. */
  lemma DecodeByDigits(i: int, op: Opcode)
    requires WellFormedWord(i)
    requires OpcodeNumber(op) == i % 100 && ModesMatch(op, i)
    ensures DecodeOpcode(i) == Ok(op)
  {
    SameDigitsSameOpcode(DecodeOpcode(i).value, op, i);
  }

  /** An opcode is determined by its number and its mode digits. */
  lemma SameDigitsSameOpcode(a: Opcode, b: Opcode, w: nat)
    requires OpcodeNumber(a) == OpcodeNumber(b)
    requires ModesMatch(a, w) && ModesMatch(b, w)
    ensures a == b
  {
  }

  /** `Instr::decode` on the memory slice that starts at the program
      counter; a slice too short for the operands panics in the source. */
  function DecodeInstr(code: seq<I32>): (r: Result<Instr, Fault>)
    ensures |code| == 0 ==> r == Err(OutOfBounds(0))
    ensures r.Ok? <==>
      |code| > 0 && WellFormedWord(code[0]) && 1 + Arity(DecodeOpcode(code[0]).value) <= |code|
    ensures r.Ok? ==> DecodeOpcode(code[0]) == Ok(r.value.op)
    ensures r.Ok? ==> |r.value.params| == Arity(r.value.op)
    ensures r.Ok? ==> forall k | 0 <= k < |r.value.params| :: r.value.params[k] == code[1 + k]
    ensures |code| > 0 && DecodeOpcode(code[0]).Err? ==> r == Err(DecodeOpcode(code[0]).error)
    ensures |code| > 0 && DecodeOpcode(code[0]).Ok? && |code| < 1 + Arity(DecodeOpcode(code[0]).value) ==>
      r == Err(OutOfBounds(|code|))
  {
    if |code| == 0 then Err(OutOfBounds(0))
    else
      var op :- DecodeOpcode(code[0]);
      if |code| < 1 + Arity(op) then Err(OutOfBounds(|code|))
      else Ok(Instr(op, code[1..1 + Arity(op)]))
  }

  /** Decoding a slice whose first word is known to decode to `op`. */
  lemma DecodeInstrOf(code: seq<I32>, op: Opcode)
    requires |code| > 0 && DecodeOpcode(code[0]) == Ok(op)
    ensures DecodeInstr(code) ==
      if |code| < 1 + Arity(op) then Err(OutOfBounds(|code|)) else Ok(Instr(op, code[1..1 + Arity(op)]))
  {
  }

  // ---------------------------------------------------------------------
  // Execution engine

  /** The `param_v!` macro: an Immediate operand is its own value, a
      Position operand is the cell it addresses. */
  function Operand(code: seq<I32>, m: Mode, x: I32): (r: Result<I32, Fault>)
    ensures m.Immediate? ==> r == Ok(x)
    ensures m.Position? ==> (r.Ok? <==> AsUsize(x) < |code|)
    ensures m.Position? && r.Ok? ==> r.value == code[AsUsize(x)]
    ensures r.Err? ==> r == Err(OutOfBounds(AsUsize(x)))
  {
    match m
    case Immediate => Ok(x)
    case Position =>
      var a := AsUsize(x);
      if a < |code| then Ok(code[a]) else Err(OutOfBounds(a))
  }

  /** `code[t as usize] = v`. */
  function WriteCell(code: seq<I32>, t: I32, v: I32): (r: Result<seq<I32>, Fault>)
    ensures r.Ok? <==> AsUsize(t) < |code|
    ensures r.Ok? ==> Stored(code, r.value, AsUsize(t), v)
    ensures r.Err? ==> r == Err(OutOfBounds(AsUsize(t)))
  {
    var a := AsUsize(t);
    if a < |code| then Ok(code[a := v]) else Err(OutOfBounds(a))
  }

  /** Arithmetic in `i32`, where the source panics on overflow. */
  function CheckedI32(v: int): (r: Result<I32, Fault>)
    ensures r.Ok? <==> IsI32(v)
    ensures r.Ok? ==> r.value == v
    ensures r.Err? ==> r.error == Overflow
  {
    if IsI32(v) then Ok(v) else Err(Overflow)
  }

  /** The two operands read through their modes, first one first. */
  function ReadPair(code: seq<I32>, op: Opcode, params: seq<I32>): Result<(I32, I32), Fault>
    requires |ModesOf(op)| == 2 && |params| >= 2
  {
    var a :- Operand(code, ModesOf(op)[0], params[0]);
    var b :- Operand(code, ModesOf(op)[1], params[1]);
    Ok((a, b))
  }

  /** The machine after a three-operand instruction: `v` stored at
      `params[2]`, used as an address whatever the mode digits say, and the
      program counter four cells on. */
  ghost predicate StoredAndAdvanced(p: Program<I32>, params: seq<I32>, v: int, q: Program<I32>)
    requires |params| >= 3
  {
    Stored(p.code, q.code, AsUsize(params[2]), v) && q.pc == p.pc + 4 && q.finished == p.finished
  }

  /** The `Add` and `Mul` arms: read both operands, compute in `i32`, store
      at the third operand. */
  function ExecArith(p: Program<I32>, op: Opcode, params: seq<I32>): (r: Result<Program<I32>, Fault>)
    requires op.Add? || op.Mul?
    requires |params| >= 3
    ensures var ab := ReadPair(p.code, op, params);
      && (ab.Err? ==> r == Err(ab.error))
      && (ab.Ok? ==>
            var v := if op.Add? then ab.value.0 + ab.value.1 else ab.value.0 * ab.value.1;
            && (!IsI32(v) ==> r == Err(Overflow))
            && (IsI32(v) && AsUsize(params[2]) >= |p.code| ==> r == Err(OutOfBounds(AsUsize(params[2]))))
            && (r.Ok? <==> IsI32(v) && AsUsize(params[2]) < |p.code|)
            && (r.Ok? ==> StoredAndAdvanced(p, params, v, r.value)))
  {
    var (a, b) :- ReadPair(p.code, op, params);
    var v :- CheckedI32(if op.Add? then a + b else a * b);
    var code :- WriteCell(p.code, params[2], v);
    Ok(p.(code := code, pc := p.pc + 4))
  }

  /** The `LT` and `EQ` arms: store 1 when the comparison holds and 0
      otherwise. */
  function ExecCompare(p: Program<I32>, op: Opcode, params: seq<I32>): (r: Result<Program<I32>, Fault>)
    requires op.LessThan? || op.Equals?
    requires |params| >= 3
    ensures var ab := ReadPair(p.code, op, params);
      && (ab.Err? ==> r == Err(ab.error))
      && (ab.Ok? ==>
            var holds := if op.LessThan? then ab.value.0 < ab.value.1 else ab.value.0 == ab.value.1;
            var t := AsUsize(params[2]);
            && (r.Ok? <==> t < |p.code|)
            && (r.Err? ==> r.error == OutOfBounds(t))
            && (r.Ok? ==> |r.value.code| == |p.code| && StoredAndAdvanced(p, params, r.value.code[t], r.value))
            && (r.Ok? ==> (r.value.code[t] == 0 || r.value.code[t] == 1))
            && (r.Ok? ==> (r.value.code[t] == 1 <==> holds)))
  {
    var (a, b) :- ReadPair(p.code, op, params);
    var holds := if op.LessThan? then a < b else a == b;
    var code :- WriteCell(p.code, params[2], if holds then 1 else 0);
    Ok(p.(code := code, pc := p.pc + 4))
  }

  /** The `JT` and `JF` arms: both operands are read whatever the condition;
      a taken jump sets `pc` to the second operand cast to `usize`, a jump
      not taken moves past the three cells of the instruction. */
  function ExecJump(p: Program<I32>, op: Opcode, params: seq<I32>): (r: Result<Program<I32>, Fault>)
    requires op.JumpIfTrue? || op.JumpIfFalse?
    requires |params| >= 2
    ensures var ab := ReadPair(p.code, op, params);
      && (ab.Err? ==> r == Err(ab.error))
      && (ab.Ok? ==>
            var taken := if op.JumpIfTrue? then ab.value.0 != 0 else ab.value.0 == 0;
            && r.Ok?
            && r.value.code == p.code && r.value.finished == p.finished
            && (taken ==> r.value.pc == AsUsize(ab.value.1))
            && (!taken ==> r.value.pc == p.pc + 3))
  {
    var (a, b) :- ReadPair(p.code, op, params);
    var taken := if op.JumpIfTrue? then a != 0 else a == 0;
    Ok(p.(pc := if taken then AsUsize(b) else p.pc + 3))
  }

  /** The `In` arm: the next input value is stored at the operand, used as
      an address, and one value of input is consumed. The source reads and
      parses a line; a missing or unparsable line panics. */
  function ExecIn(p: Program<I32>, params: seq<I32>, io: Io): (r: Result<Machine, Fault>)
    requires |params| >= 1
    ensures (|io.input| == 0 || !IsI32(io.input[0])) ==> r == Err(BadInput)
    ensures r.Ok? <==> |io.input| > 0 && IsI32(io.input[0]) && AsUsize(params[0]) < |p.code|
    ensures r.Ok? ==>
      && Stored(p.code, r.value.0.code, AsUsize(params[0]), io.input[0])
      && r.value.0.pc == p.pc + 2 && r.value.0.finished == p.finished
      && r.value.1.input == io.input[1..] && r.value.1.output == io.output
  {
    if |io.input| == 0 || !IsI32(io.input[0]) then Err(BadInput)
    else
      var code :- WriteCell(p.code, params[0], io.input[0]);
      Ok((p.(code := code, pc := p.pc + 2), Io(io.input[1..], io.output)))
  }

  /** The `Out` arm: the operand's value is appended to the output; memory
      is untouched. */
  function ExecOut(p: Program<I32>, m: Mode, params: seq<I32>, io: Io): (r: Result<Machine, Fault>)
    requires |params| >= 1
    ensures var a := Operand(p.code, m, params[0]);
      && (a.Err? ==> r == Err(a.error))
      && (a.Ok? ==>
            && r.Ok?
            && r.value.0.code == p.code && r.value.0.pc == p.pc + 2
            && r.value.0.finished == p.finished
            && r.value.1.input == io.input
            && |r.value.1.output| == |io.output| + 1
            && r.value.1.output[..|io.output|] == io.output
            && r.value.1.output[|io.output|] == a.value)
  {
    var a :- Operand(p.code, m, params[0]);
    Ok((p.(pc := p.pc + 2), Io(io.input, io.output + [a])))
  }

  /** `Program::execute_instr`: dispatch on the opcode. Only `Fin` sets the
      finished flag, and it leaves `pc` and memory as they were. */
  function Execute(p: Program<I32>, instr: Instr, io: Io): (r: Result<Machine, Fault>)
    requires |instr.params| >= Arity(instr.op)
    ensures r.Ok? ==> |r.value.0.code| == |p.code|
    ensures r.Err? ==> r.error.OutOfBounds? || r.error.Overflow? || r.error.BadInput?
    ensures r.Ok? ==> (r.value.0.finished <==> p.finished || instr.op.Fin?)
    ensures !instr.op.In? && !instr.op.Out? && r.Ok? ==> r.value.1 == io
    ensures instr.op.Fin? ==>
      r.Ok? && r.value.0.pc == p.pc && r.value.0.code == p.code && r.value.1 == io
  {
    var ps := instr.params;
    match instr.op
    case Add(_, _) => var q :- ExecArith(p, instr.op, ps); Ok((q, io))
    case Mul(_, _) => var q :- ExecArith(p, instr.op, ps); Ok((q, io))
    case In => ExecIn(p, ps, io)
    case Out(m) => ExecOut(p, m, ps, io)
    case JumpIfTrue(_, _) => var q :- ExecJump(p, instr.op, ps); Ok((q, io))
    case JumpIfFalse(_, _) => var q :- ExecJump(p, instr.op, ps); Ok((q, io))
    case LessThan(_, _) => var q :- ExecCompare(p, instr.op, ps); Ok((q, io))
    case Equals(_, _) => var q :- ExecCompare(p, instr.op, ps); Ok((q, io))
    case Fin => Ok((p.(finished := true), io))
  }

  /** `Program::tick`: decode at `pc` (slicing beyond the end panics in the
      source) and execute. The finished flag is not consulted: stopping is
      the driving loop's business. */
  function Tick(m: Machine): (r: Result<Machine, Fault>)
    ensures m.0.pc >= |m.0.code| ==> r.Err? && r.error.OutOfBounds?
    ensures m.0.pc < |m.0.code| && !WellFormedWord(m.0.code[m.0.pc]) ==> r.Err? && !r.error.OutOfBounds?
    ensures r.Ok? ==> |r.value.0.code| == |m.0.code|
  {
    var (p, io) := m;
    if p.pc > |p.code| then Err(OutOfBounds(p.pc))
    else
      var instr :- DecodeInstr(p.code[p.pc..]);
      Execute(p, instr, io)
  }

  predicate Finished(m: Machine) {
    m.0.finished
  }

  /** `while !program.finished { program.tick() }`, for at most `fuel`
      ticks. */
  function Run(p: Program<I32>, io: Io, fuel: nat): (r: Outcome<Machine>)
    ensures p.finished ==> r == Halted((p, io))
    ensures r.Halted? ==> r.state.0.finished
    ensures r.Halted? || r.OutOfFuel? ==> |r.state.0.code| == |p.code|
  {
    var size := |p.code|;
    RunPreserves(Tick, Finished, (m: Machine) => |m.0.code| == size, (p, io), fuel);
    RunWith(Tick, Finished, (p, io), fuel)
  }

  /** A run that halted or faulted is unaffected by a larger budget. */
  lemma RunStableFull(p: Program<I32>, io: Io, n: nat, k: nat)
    requires !Run(p, io, n).OutOfFuel?
    ensures Run(p, io, n + k) == Run(p, io, n)
  {
    RunStable(Tick, Finished, (p, io), n, k);
  }
}

=== FILE: intcode_full_examples.dfy ===
/** The unit tests of rust/day05 restated as facts about the model. */
module IntcodeFullExamples {
  import opened Base
  import opened Intcode
  import opened IntcodeFull

  const NoIo := Io([], [])

  /** A word below 100 has no mode digits set. */
  lemma BareWordDigits(w: nat)
    requires w < 100
    ensures ModeDigitSpec(w, 0) == 0 && ModeDigitSpec(w, 1) == 0
  {
    assert Pow10(0) == 1 && Pow10(1) == 10;
  }

  /** `test_decode_opcode`: a bare 1 is Add with both operands in Position mode. */
  lemma DecodeAddExample()
    ensures DecodeOpcode(1) == Ok(Add(Position, Position))
  {
    BareWordDigits(1);
    DecodeByDigits(1, Add(Position, Position));
  }

  /** `test_decode_opcode`: a bare 2 is Mul with both operands in Position mode. */
  lemma DecodeMulExample()
    ensures DecodeOpcode(2) == Ok(Mul(Position, Position))
  {
    BareWordDigits(2);
    DecodeByDigits(2, Mul(Position, Position));
  }

  /** `test_decode_opcode`: 3 is In, which reads no mode digit. */
  lemma DecodeInExample()
    ensures DecodeOpcode(3) == Ok(In)
  {
    BareWordDigits(3);
    DecodeByDigits(3, In);
  }

  /** `test_decode_opcode`: a bare 4 is Out in Position mode. */
  lemma DecodeOutExample()
    ensures DecodeOpcode(4) == Ok(Out(Position))
  {
    BareWordDigits(4);
    DecodeByDigits(4, Out(Position));
  }

  /** `test_decode_opcode`: a bare 5 is JumpIfTrue in Position mode. */
  lemma DecodeJumpIfTrueExample()
    ensures DecodeOpcode(5) == Ok(JumpIfTrue(Position, Position))
  {
    BareWordDigits(5);
    DecodeByDigits(5, JumpIfTrue(Position, Position));
  }

  /** `test_decode_opcode`: a bare 6 is JumpIfFalse in Position mode. */
  lemma DecodeJumpIfFalseExample()
    ensures DecodeOpcode(6) == Ok(JumpIfFalse(Position, Position))
  {
    BareWordDigits(6);
    DecodeByDigits(6, JumpIfFalse(Position, Position));
  }

  /** `test_decode_opcode`: a bare 7 is LessThan in Position mode. */
  lemma DecodeLessThanExample()
    ensures DecodeOpcode(7) == Ok(LessThan(Position, Position))
  {
    BareWordDigits(7);
    DecodeByDigits(7, LessThan(Position, Position));
  }

  /** `test_decode_opcode`: 99 is Fin, which reads no mode digit. */
  lemma DecodeFinExample()
    ensures DecodeOpcode(99) == Ok(Fin)
  {
    BareWordDigits(99);
    DecodeByDigits(99, Fin);
  }

  /** `test_decode_opcode`: 9 is not an opcode. */
  lemma DecodeUnknownExample()
    ensures DecodeOpcode(9) == Err(UnknownOpcode(9))
  {
  }

  /** `test_decode_opcode_with_parameters`: the third mode digit of 11001
      is not inspected. */
  lemma DecodeWithModesExample()
    ensures DecodeOpcode(11001) == Ok(Add(Position, Immediate))
  {
    assert Pow10(0) == 1 && Pow10(1) == 10;
    assert ModeDigitSpec(11001, 0) == 0 && ModeDigitSpec(11001, 1) == 1;
    DecodeByDigits(11001, Add(Position, Immediate));
  }

  /** `parameter_mode_tests::test_parse`. */
  lemma ParseModeExamples()
    ensures ParseMode(0) == Some(Position) && ParseMode(1) == Some(Immediate) && ParseMode(2) == None
  {
  }
  /** `test_execute_instr_add`. */
  lemma ExecuteAddExample()
    ensures Execute(New([0, 1, 2, 0]), Instr(Add(Position, Position), [1, 2, 0]), NoIo) == Ok((Program(4, [3, 1, 2, 0], false), NoIo))
  {
    assert [0, 1, 2, 0][0 := 3] == [3, 1, 2, 0];
  }

  /** `test_execute_instr_mul`. */
  lemma ExecuteMulExample()
    ensures Execute(New([0, 4, 5, 0, 5, 6]), Instr(Mul(Position, Position), [4, 5, 0]), NoIo) == Ok((Program(4, [30, 4, 5, 0, 5, 6], false), NoIo))
  {
    assert [0, 4, 5, 0, 5, 6][0 := 30] == [30, 4, 5, 0, 5, 6];
  }

  /** `test_execute_instr_mul_neg`. */
  lemma ExecuteMulNegativeExample()
    ensures Execute(New([0, -4, 5]), Instr(Mul(Position, Position), [1, 2, 0]), NoIo) == Ok((Program(4, [-20, -4, 5], false), NoIo))
  {
    assert [0, -4, 5][0 := -20] == [-20, -4, 5];
  }

  /** `test_execute_instr_fin`. */
  lemma ExecuteFinExample()
    ensures Execute(New([99]), Instr(Fin, []), NoIo) == Ok((Program(0, [99], true), NoIo))
  {
  }

  /** `test_execute_instr_in`. */
  lemma ExecuteInExample()
    ensures Execute(New([3, 1]), Instr(In, [1]), Io([89], [])) == Ok((Program(2, [3, 89], false), NoIo))
  {
    assert [3, 1][1 := 89] == [3, 89];
  }

  /** `test_execute_instr_out`. */
  lemma ExecuteOutExample()
    ensures Execute(New([4, 10]), Instr(Out(Position), [1]), NoIo) == Ok((Program(2, [4, 10], false), Io([], [10])))
  {
  }

  /** `test_execute_instr_jt_jump_taken`. */
  lemma ExecuteJumpTakenExample()
    ensures Execute(New([5, 1, 7]), Instr(JumpIfTrue(Immediate, Immediate), [1, 7]), NoIo) == Ok((Program(7, [5, 1, 7], false), NoIo))
  {
  }

  /** `test_execute_instr_jt_jump_not_taken`. */
  lemma ExecuteJumpNotTakenExample()
    ensures Execute(New([5, 0, 7]), Instr(JumpIfTrue(Immediate, Immediate), [0, 7]), NoIo) == Ok((Program(3, [5, 0, 7], false), NoIo))
  {
  }

  /** `test_execute_instr_jf_jump_not_taken`. */
  lemma ExecuteJumpIfFalseNotTakenExample()
    ensures Execute(New([6, 1, 7]), Instr(JumpIfFalse(Immediate, Immediate), [1, 7]), NoIo) == Ok((Program(3, [6, 1, 7], false), NoIo))
  {
  }

  /** `test_execute_instr_lt_true`. */
  lemma ExecuteLessThanTrueExample()
    ensures Execute(New([8, 1, 7, 0]), Instr(LessThan(Immediate, Immediate), [1, 7, 0]), NoIo) == Ok((Program(4, [1, 1, 7, 0], false), NoIo))
  {
    assert [8, 1, 7, 0][0 := 1] == [1, 1, 7, 0];
  }

  /** `test_execute_instr_lt_false`. */
  lemma ExecuteLessThanFalseExample()
    ensures Execute(New([8, 8, 7, 0]), Instr(LessThan(Immediate, Immediate), [8, 7, 0]), NoIo) == Ok((Program(4, [0, 8, 7, 0], false), NoIo))
  {
    assert [8, 8, 7, 0][0 := 0] == [0, 8, 7, 0];
  }

  /** `test_execute_instr_eq_true`. */
  lemma ExecuteEqualsTrueExample()
    ensures Execute(New([9, 1, 1, 0]), Instr(Equals(Immediate, Immediate), [1, 1, 0]), NoIo) == Ok((Program(4, [1, 1, 1, 0], false), NoIo))
  {
    assert [9, 1, 1, 0][0 := 1] == [1, 1, 1, 0];
  }

  /** `test_execute_instr_eq_false`. */
  lemma ExecuteEqualsFalseExample()
    ensures Execute(New([9, 8, 7, 0]), Instr(Equals(Immediate, Immediate), [8, 7, 0]), NoIo) == Ok((Program(4, [0, 8, 7, 0], false), NoIo))
  {
    assert [9, 8, 7, 0][0 := 0] == [0, 8, 7, 0];
  }

  /** `execute_instr_with_immediate_mode`. */
  lemma ExecuteImmediateExample()
    ensures Execute(New([11100, 10, 20, 0]), Instr(Add(Immediate, Immediate), [10, 20, 0]), NoIo) == Ok((Program(4, [30, 10, 20, 0], false), NoIo))
  {
    assert [11100, 10, 20, 0][0 := 30] == [30, 10, 20, 0];
  }

  const Example: seq<I32> := [1, 9, 10, 3, 2, 3, 11, 0, 99, 30, 40, 50]
  const ExampleHalted: seq<I32> := [3500, 9, 10, 70, 2, 3, 11, 0, 99, 30, 40, 50]

  /** `test_code`: three ticks of the example program (Add, Mul, Fin). */
  lemma ExampleProgramRuns()
    ensures Run(New(Example), NoIo, 3) == Halted((Program(8, ExampleHalted, true), NoIo))
  {
    var m0: Machine := (New(Example), NoIo);
    var m1: Machine := (Program(4, ExampleAfterAdd, false), NoIo);
    var m2: Machine := (Program(8, ExampleHalted, false), NoIo);
    var m3: Machine := (Program(8, ExampleHalted, true), NoIo);
    TickExample1(); TickExample2(); TickExample3();
    assert RunWith(Tick, Finished, m3, 0) == Halted(m3);
    assert RunWith(Tick, Finished, m2, 1) == Halted(m3);
    assert RunWith(Tick, Finished, m1, 2) == Halted(m3);
  }

  const ExampleAfterAdd: seq<I32> := [1, 9, 10, 70, 2, 3, 11, 0, 99, 30, 40, 50]

  lemma DecodeExampleAdd()
    ensures DecodeInstr(Example) == Ok(Instr(Add(Position, Position), [9, 10, 3]))
  {
    var code := Example;
    assert Arity(Add(Position, Position)) == 3;
    assert code[1..4] == [9, 10, 3];
    assert code[0] == 1;
    DecodeAddExample();
    DecodeInstrOf(code, Add(Position, Position));
  }

  lemma ExecuteExampleAdd()
    ensures Execute(New(Example), Instr(Add(Position, Position), [9, 10, 3]), NoIo)
         == Ok((Program(4, ExampleAfterAdd, false), NoIo))
  {
    assert Example[3 := 70] == ExampleAfterAdd;
  }

  lemma TickExample1()
    ensures Tick((New(Example), NoIo)) == Ok((Program(4, ExampleAfterAdd, false), NoIo))
  {
    assert Example[0..] == Example;
    DecodeExampleAdd();
    ExecuteExampleAdd();
  }

  lemma DecodeExampleMul()
    ensures DecodeInstr(ExampleAfterAdd[4..]) == Ok(Instr(Mul(Position, Position), [3, 11, 0]))
  {
    var code := ExampleAfterAdd[4..];
    assert Arity(Mul(Position, Position)) == 3;
    assert code[1..4] == [3, 11, 0];
    assert code[0] == 2;
    DecodeMulExample();
    DecodeInstrOf(code, Mul(Position, Position));
  }

  lemma ExecuteExampleMul()
    ensures Execute(Program(4, ExampleAfterAdd, false), Instr(Mul(Position, Position), [3, 11, 0]), NoIo)
         == Ok((Program(8, ExampleHalted, false), NoIo))
  {
    assert ExampleAfterAdd[0 := 3500] == ExampleHalted;
  }

  lemma TickExample2()
    ensures Tick((Program(4, ExampleAfterAdd, false), NoIo)) == Ok((Program(8, ExampleHalted, false), NoIo))
  {
    DecodeExampleMul();
    ExecuteExampleMul();
  }

  lemma TickExample3()
    ensures Tick((Program(8, ExampleHalted, false), NoIo)) == Ok((Program(8, ExampleHalted, true), NoIo))
  {
    var code := ExampleHalted[8..];
    assert code == [99, 30, 40, 50];
    DecodeFinExample();
    assert code[1..1] == [];
    assert DecodeInstr(code) == Ok(Instr(Fin, []));
  }

  /** A slice holding exactly one whole instruction decodes to that
      instruction with the rest of the slice as its operands. */
  lemma DecodeWhole(code: seq<I32>, w: I32, op: Opcode)
    requires DecodeOpcode(w) == Ok(op)
    requires |code| == 1 + Arity(op) && code[0] == w
    ensures DecodeInstr(code) == Ok(Instr(op, code[1..]))
  {
    DecodeInstrOf(code, op);
    assert code[1..1 + Arity(op)] == code[1..];
  }

  /** A bare 8 is Equals with both operands in Position mode. */
  lemma DecodeEqualsWord()
    ensures DecodeOpcode(8) == Ok(Equals(Position, Position))
  {
    BareWordDigits(8);
    DecodeByDigits(8, Equals(Position, Position));
  }

  /** `test_decode`: `[1, 2, 3, 4]`. */
  lemma DecodeInstrAddExample()
    ensures DecodeInstr([1, 2, 3, 4]) == Ok(Instr(Add(Position, Position), [2, 3, 4]))
  {
    DecodeAddExample();
    DecodeWhole([1, 2, 3, 4], 1, Add(Position, Position));
  }

  /** `test_decode`: `[2, 3, 4, 5]`. */
  lemma DecodeInstrMulExample()
    ensures DecodeInstr([2, 3, 4, 5]) == Ok(Instr(Mul(Position, Position), [3, 4, 5]))
  {
    DecodeMulExample();
    DecodeWhole([2, 3, 4, 5], 2, Mul(Position, Position));
  }

  /** `test_decode`: `[99]`. */
  lemma DecodeInstrFinExample()
    ensures DecodeInstr([99]) == Ok(Instr(Fin, []))
  {
    DecodeFinExample();
    DecodeWhole([99], 99, Fin);
  }

  /** `test_decode`: `[3, 1]`. */
  lemma DecodeInstrInExample()
    ensures DecodeInstr([3, 1]) == Ok(Instr(In, [1]))
  {
    DecodeInExample();
    DecodeWhole([3, 1], 3, In);
  }

  /** `test_decode`: `[4, 2]`. */
  lemma DecodeInstrOutExample()
    ensures DecodeInstr([4, 2]) == Ok(Instr(Out(Position), [2]))
  {
    DecodeOutExample();
    DecodeWhole([4, 2], 4, Out(Position));
  }

  /** `test_decode`: `[5, 2, 3]`. */
  lemma DecodeInstrJumpIfTrueExample()
    ensures DecodeInstr([5, 2, 3]) == Ok(Instr(JumpIfTrue(Position, Position), [2, 3]))
  {
    DecodeJumpIfTrueExample();
    DecodeWhole([5, 2, 3], 5, JumpIfTrue(Position, Position));
  }

  /** `test_decode`: `[6, 2, 3]`. */
  lemma DecodeInstrJumpIfFalseExample()
    ensures DecodeInstr([6, 2, 3]) == Ok(Instr(JumpIfFalse(Position, Position), [2, 3]))
  {
    DecodeJumpIfFalseExample();
    DecodeWhole([6, 2, 3], 6, JumpIfFalse(Position, Position));
  }

  /** `test_decode`: `[7, 2, 3, 4]`. */
  lemma DecodeInstrLessThanExample()
    ensures DecodeInstr([7, 2, 3, 4]) == Ok(Instr(LessThan(Position, Position), [2, 3, 4]))
  {
    DecodeLessThanExample();
    DecodeWhole([7, 2, 3, 4], 7, LessThan(Position, Position));
  }

  /** `test_decode`: `[8, 2, 3, 4]`. */
  lemma DecodeInstrEqualsExample()
    ensures DecodeInstr([8, 2, 3, 4]) == Ok(Instr(Equals(Position, Position), [2, 3, 4]))
  {
    DecodeEqualsWord();
    DecodeWhole([8, 2, 3, 4], 8, Equals(Position, Position));
  }
}

=== FILE: intcode_reduced.dfy ===
/** The first Intcode machine (rust/day02): `Add`, `Mul` and `Fin` over
    `u32` cells, all operands addresses; and the search for the noun and
    verb that make the gravity-assist program leave 19690720 in cell 0. */
module IntcodeReduced {
  import opened Base
  import opened Intcode

  /** `Opcode`. */
  datatype Opcode = Add | Mul | Fin

  /** `Instr`: the three arithmetic operands are addresses of the two
      inputs and of the target. */
  datatype Instr =
    | AddInstr(a: U32, b: U32, t: U32)
    | MulInstr(a: U32, b: U32, t: U32)
    | FinInstr

  /** The word that selects each opcode. */
  function Number(op: Opcode): U32 {
    match op
    case Add => 1
    case Mul => 2
    case Fin => 99
  }

  /** Operand cells that follow the opcode word. */
  function Arity(op: Opcode): nat {
    if op.Fin? then 0 else 3
  }

  /** The opcode of an instruction. */
  function OpcodeOf(instr: Instr): Opcode {
    match instr
    case AddInstr(_, _, _) => Add
    case MulInstr(_, _, _) => Mul
    case FinInstr => Fin
  }

  /** The operand cells of an instruction, in memory order. */
  function Operands(instr: Instr): seq<U32> {
    match instr
    case AddInstr(a, b, t) => [a, b, t]
    case MulInstr(a, b, t) => [a, b, t]
    case FinInstr => []
  }

  /** How an instruction is laid out in memory. */
  function EncodeInstr(instr: Instr): (ws: seq<U32>)
    ensures |ws| == 1 + Arity(OpcodeOf(instr))
  {
    [Number(OpcodeOf(instr))] + Operands(instr)
  }

  /** `decode_opcode`: exactly the words 1, 2 and 99 are opcodes. */
  function DecodeOpcode(i: U32): (r: Option<Opcode>)
    ensures r.Some? <==> i == 1 || i == 2 || i == 99
    ensures r.Some? ==> Number(r.value) == i
  {
    if i == 1 then Some(Add)
    else if i == 2 then Some(Mul)
    else if i == 99 then Some(Fin)
    else None
  }

  /** Every opcode's word decodes to it. */
  lemma DecodeNumber(op: Opcode)
    ensures DecodeOpcode(Number(op)) == Some(op)
  {
  }

  /** `decode_instr` on the memory slice at the program counter. The
      source indexes `code[0]` before decoding and `code[1..3]` after, so an
      empty slice or one too short for the operands panics; an unknown word
      is `None`, which `tick` unwraps. */
  function DecodeInstr(code: seq<U32>): (r: Result<Instr, Fault>)
    ensures |code| == 0 ==> r == Err(OutOfBounds(0))
    ensures |code| > 0 && DecodeOpcode(code[0]).None? ==> r == Err(UnknownOpcode(code[0]))
    ensures r.Ok? <==>
      |code| > 0 && DecodeOpcode(code[0]).Some? && 1 + Arity(DecodeOpcode(code[0]).value) <= |code|
    ensures r.Ok? ==> |EncodeInstr(r.value)| <= |code| && EncodeInstr(r.value) == code[..|EncodeInstr(r.value)|]
    ensures r.Err? && |code| > 0 && DecodeOpcode(code[0]).Some? ==> r == Err(OutOfBounds(|code|))
  {
    if |code| == 0 then Err(OutOfBounds(0))
    else
      match DecodeOpcode(code[0])
      case None => Err(UnknownOpcode(code[0]))
      case Some(op) =>
        if |code| < 1 + Arity(op) then Err(OutOfBounds(|code|))
        else if op == Add then Ok(AddInstr(code[1], code[2], code[3]))
        else if op == Mul then Ok(MulInstr(code[1], code[2], code[3]))
        else Ok(FinInstr)
  }

  /** Decoding the encoding of an instruction, whatever follows it in
      memory, gives the instruction back. */
  lemma {:induction false} DecodeEncode(instr: Instr, rest: seq<U32>)
    ensures DecodeInstr(EncodeInstr(instr) + rest) == Ok(instr)
  {
    var code := EncodeInstr(instr) + rest;
    DecodeNumber(OpcodeOf(instr));
    assert code[0] == Number(OpcodeOf(instr));
    var r := DecodeInstr(code);
    assert r.Ok?;
    assert EncodeInstr(r.value) == code[..|EncodeInstr(r.value)|];
    assert OpcodeOf(r.value) == OpcodeOf(instr) by {
      DecodeNumber(OpcodeOf(r.value));
    }
    assert EncodeInstr(r.value) == EncodeInstr(instr);
    assert Operands(r.value) == EncodeInstr(r.value)[1..];
    assert Operands(instr) == EncodeInstr(instr)[1..];
  }

  /** The value an arithmetic instruction computes from its two inputs. */
  function Combine(instr: Instr, x: int, y: int): int
    requires !instr.FinInstr?
  {
    if instr.AddInstr? then x + y else x * y
  }

  /** `Program::execute_instr`. The right-hand side is evaluated before the
      target is indexed: both inputs are read, then the `u32` operation
      (which panics on overflow) is done, then the target is written. */
  function Execute(p: Program<U32>, instr: Instr): (r: Result<Program<U32>, Fault>)
    ensures instr.FinInstr? ==> r == Ok(p.(finished := true))
    ensures !instr.FinInstr? ==>
      var c := p.code;
      && (instr.a >= |c| ==> r == Err(OutOfBounds(instr.a)))
      && (instr.a < |c| && instr.b >= |c| ==> r == Err(OutOfBounds(instr.b)))
      && (instr.a < |c| && instr.b < |c| && !IsU32(Combine(instr, c[instr.a], c[instr.b])) ==> r == Err(Overflow))
      && (r.Ok? <==> instr.a < |c| && instr.b < |c| && IsU32(Combine(instr, c[instr.a], c[instr.b])) && instr.t < |c|)
      && (r.Err? ==> r.error.OutOfBounds? || r.error.Overflow?)
      && (r.Ok? ==>
            && Stored(c, r.value.code, instr.t, Combine(instr, c[instr.a], c[instr.b]))
            && r.value.pc == p.pc + 4 && r.value.finished == p.finished)
  {
    match instr
    case FinInstr => Ok(p.(finished := true))
    case _ =>
      if instr.a >= |p.code| then Err(OutOfBounds(instr.a))
      else if instr.b >= |p.code| then Err(OutOfBounds(instr.b))
      else
        var v := Combine(instr, p.code[instr.a], p.code[instr.b]);
        if !IsU32(v) then Err(Overflow)
        else if instr.t >= |p.code| then Err(OutOfBounds(instr.t))
        else Ok(p.(code := p.code[instr.t := v], pc := p.pc + 4))
  }

  /** `Program::tick`: decode at `pc` and execute. */
  function Tick(p: Program<U32>): (r: Result<Program<U32>, Fault>)
    ensures p.pc >= |p.code| ==> r.Err? && r.error.OutOfBounds?
    ensures p.pc < |p.code| && DecodeOpcode(p.code[p.pc]).None? ==> r == Err(UnknownOpcode(p.code[p.pc]))
    ensures r.Ok? ==> |r.value.code| == |p.code|
  {
    if p.pc > |p.code| then Err(OutOfBounds(p.pc))
    else
      var instr :- DecodeInstr(p.code[p.pc..]);
      Execute(p, instr)
  }

  predicate Finished(p: Program<U32>) {
    p.finished
  }

  /** `while !program.finished { program.tick() }`, for at most `fuel`
      ticks. */
  function Run(p: Program<U32>, fuel: nat): (r: Outcome<Program<U32>>)
    ensures p.finished ==> r == Halted(p)
    ensures r.Halted? ==> r.state.finished
    ensures r.Halted? || r.OutOfFuel? ==> |r.state.code| == |p.code|
  {
    var size := |p.code|;
    RunPreserves(Tick, Finished, (q: Program<U32>) => |q.code| == size, p, fuel);
    RunWith(Tick, Finished, p, fuel)
  }

  // ---------------------------------------------------------------------
  // The noun and verb search of `main`

  /** The output the search looks for in cell 0. */
  const Target: int := 19690720

  /** One trial of `main`: a copy of the program with `noun` in cell 1 and
      `verb` in cell 2, run until it finishes. Storing into a program with
      fewer than three cells panics at the first missing index. */
  function Trial(code: seq<U32>, noun: U32, verb: U32, fuel: nat): (r: Outcome<Program<U32>>)
    ensures |code| < 2 ==> r == Faulted(OutOfBounds(1))
    ensures |code| == 2 ==> r == Faulted(OutOfBounds(2))
    ensures r.Halted? ==> |r.state.code| == |code| >= 3
  {
    if |code| < 2 then Faulted(OutOfBounds(1))
    else if |code| < 3 then Faulted(OutOfBounds(2))
    else Run(New(code[1 := noun][2 := verb]), fuel)
  }

  /** The trial for `(noun, verb)` finished with the target in cell 0. */
  predicate Hits(code: seq<U32>, fuel: nat, noun: U32, verb: U32) {
    var o := Trial(code, noun, verb, fuel);
    o.Halted? && o.state.code[0] == Target
  }

  /** The trial for `(noun, verb)` finished with something else in cell 0. */
  predicate Misses(code: seq<U32>, fuel: nat, noun: U32, verb: U32) {
    var o := Trial(code, noun, verb, fuel);
    o.Halted? && o.state.code[0] != Target
  }

  predicate InRange(x: int) {
    0 <= x <= 99
  }

  /** A reported pair: its verb is the first one that hits for its noun. */
  predicate FirstHit(code: seq<U32>, fuel: nat, pair: (int, int)) {
    && InRange(pair.0) && InRange(pair.1)
    && Hits(code, fuel, pair.0, pair.1)
    && forall v | 0 <= v < pair.1 :: Misses(code, fuel, pair.0, v)
  }

  predicate Unreported(reports: seq<(int, int)>, noun: int) {
    forall k | 0 <= k < |reports| :: reports[k].0 != noun
  }

  /** Every noun below `upto` that has no report missed with every verb. */
  predicate Explained(code: seq<U32>, fuel: nat, reports: seq<(int, int)>, upto: int) {
    forall n, v | 0 <= n <= 99 && n < upto && 0 <= v <= 99 && Unreported(reports, n) :: Misses(code, fuel, n, v)
  }

  predicate StrictlyIncreasingNouns(reports: seq<(int, int)>) {
    forall j, k | 0 <= j < k < |reports| :: reports[j].0 < reports[k].0
  }

  /** The verb loop of `main` for one noun: try the verbs in order until one
      hits (`hit`) or a trial does not finish (`!halted`); `verb` is where the
      scan stopped, 100 when every verb missed. */
  method ScanVerbs(code: seq<U32>, fuel: nat, noun: U32) returns (verb: int, hit: bool, halted: bool)
    ensures 0 <= verb <= 100
    ensures forall w | 0 <= w < verb :: Misses(code, fuel, noun, w)
    ensures hit ==> halted && verb <= 99 && Hits(code, fuel, noun, verb)
    ensures !halted ==> verb <= 99 && !Trial(code, noun, verb, fuel).Halted?
    ensures halted && !hit ==> verb == 100
  {
    verb := 0;
    hit := false;
    halted := true;
    while verb <= 99 && !hit
      invariant 0 <= verb <= 100
      invariant forall w | 0 <= w < verb :: Misses(code, fuel, noun, w)
      invariant hit ==> verb <= 99 && Hits(code, fuel, noun, verb)
      decreases 100 - verb, if hit then 0 else 1
    {
      var o := Trial(code, noun, verb, fuel);
      if !o.Halted? {
        halted := false;
        return;
      }
      if o.state.code[0] == Target {
        hit := true;
      } else {
        verb := verb + 1;
      }
    }
  }

  /** The loop invariant of `main` after the nouns below `noun`. */
  predicate SearchedUpTo(code: seq<U32>, fuel: nat, reports: seq<(int, int)>, noun: int) {
    && (forall k | 0 <= k < |reports| :: FirstHit(code, fuel, reports[k]) && reports[k].0 < noun)
    && StrictlyIncreasingNouns(reports)
    && Explained(code, fuel, reports, noun)
  }

  /** Reporting the first hit of the next noun keeps the invariant. */
  lemma ReportExtends(code: seq<U32>, fuel: nat, reports: seq<(int, int)>, noun: int, verb: int)
    requires 0 <= noun <= 99 && SearchedUpTo(code, fuel, reports, noun)
    requires FirstHit(code, fuel, (noun, verb))
    ensures SearchedUpTo(code, fuel, reports + [(noun, verb)], noun + 1)
  {
    var after := reports + [(noun, verb)];
    forall n, v | 0 <= n <= 99 && n < noun + 1 && 0 <= v <= 99 && Unreported(after, n)
      ensures Misses(code, fuel, n, v)
    {
      assert after[|reports|].0 == noun;
      assert Unreported(reports, n) by {
        forall k | 0 <= k < |reports| ensures reports[k].0 != n {
          assert after[k] == reports[k];
        }
      }
    }
  }

  /** A noun that missed with every verb keeps the invariant unreported. */
  lemma MissesExtend(code: seq<U32>, fuel: nat, reports: seq<(int, int)>, noun: int)
    requires 0 <= noun <= 99 && SearchedUpTo(code, fuel, reports, noun)
    requires forall w | 0 <= w < 100 :: Misses(code, fuel, noun, w)
    ensures SearchedUpTo(code, fuel, reports, noun + 1)
  {
  }

  /** `main`: for every noun in 0..=99 try the verbs 0..=99 in order and
      report the first that leaves `Target` in cell 0 (the `break` leaves the
      verb loop only, so every noun gets its own report). The source stops
      for good at a trial that panics and never returns from one that does
      not finish; `stuck` is the first such trial, or `None` when every
      trial the search made finished within `fuel` ticks. */
  method Search(code: seq<U32>, fuel: nat) returns (reports: seq<(int, int)>, stuck: Option<(int, int)>)
    ensures forall k | 0 <= k < |reports| :: FirstHit(code, fuel, reports[k])
    ensures StrictlyIncreasingNouns(reports)
    ensures stuck.None? ==> Explained(code, fuel, reports, 100)
    ensures stuck.Some? ==>
      var (n, v) := stuck.value;
      && InRange(n) && InRange(v)
      && !Trial(code, n, v, fuel).Halted?
      && (forall w | 0 <= w < v :: Misses(code, fuel, n, w))
      && (forall k | 0 <= k < |reports| :: reports[k].0 < n)
      && Explained(code, fuel, reports, n)
  {
    reports := [];
    stuck := None;
    var noun := 0;
    while noun <= 99
      invariant 0 <= noun <= 100
      invariant SearchedUpTo(code, fuel, reports, noun)
    {
      var verb, hit, halted := ScanVerbs(code, fuel, noun);
      if !halted {
        stuck := Some((noun, verb));
        return;
      }
      if hit {
        ReportExtends(code, fuel, reports, noun, verb);
        reports := reports + [(noun, verb)];
      } else {
        MissesExtend(code, fuel, reports, noun);
      }
      noun := noun + 1;
    }
  }
}

=== FILE: intcode_reduced_examples.dfy ===
/** The unit tests of rust/day02 restated as facts about the model. */
module IntcodeReducedExamples {
  import opened Base
  import opened Intcode
  import opened IntcodeReduced

  /** `test_decode_opcode`. */
  lemma DecodeOpcodeExamples()
    ensures DecodeOpcode(1) == Some(Add) && DecodeOpcode(2) == Some(Mul)
    ensures DecodeOpcode(99) == Some(Fin) && DecodeOpcode(5) == None
  {
  }

  /** `test_decode_instr`. */
  lemma DecodeInstrExamples()
    ensures DecodeInstr([1, 2, 3, 4]) == Ok(AddInstr(2, 3, 4))
    ensures DecodeInstr([2, 3, 4, 5]) == Ok(MulInstr(3, 4, 5))
    ensures DecodeInstr([99]) == Ok(FinInstr)
  {
  }

  /** `test_execute_instr_add`. */
  lemma ExecuteAddExample()
    ensures Execute(New([0, 1, 2, 0]), AddInstr(1, 2, 0)) == Ok(Program(4, [3, 1, 2, 0], false))
  {
    assert [0, 1, 2, 0][0 := 3] == [3, 1, 2, 0];
  }

  /** `test_execute_instr_mul`. */
  lemma ExecuteMulExample()
    ensures Execute(New([0, 4, 5, 0, 5, 6]), MulInstr(4, 5, 0)) == Ok(Program(4, [30, 4, 5, 0, 5, 6], false))
  {
    assert [0, 4, 5, 0, 5, 6][0 := 30] == [30, 4, 5, 0, 5, 6];
  }

  /** `test_execute_instr_fin`. */
  lemma ExecuteFinExample()
    ensures Execute(New([99]), FinInstr) == Ok(Program(0, [99], true))
  {
  }

  const Example: seq<U32> := [1, 9, 10, 3, 2, 3, 11, 0, 99, 30, 40, 50]
  const ExampleAfterAdd: seq<U32> := [1, 9, 10, 70, 2, 3, 11, 0, 99, 30, 40, 50]
  const ExampleHalted: seq<U32> := [3500, 9, 10, 70, 2, 3, 11, 0, 99, 30, 40, 50]

  lemma TickExample1()
    ensures Tick(New(Example)) == Ok(Program(4, ExampleAfterAdd, false))
  {
    assert Example[0..] == Example;
    assert Example[3 := 70] == ExampleAfterAdd;
  }

  lemma TickExample2()
    ensures Tick(Program(4, ExampleAfterAdd, false)) == Ok(Program(8, ExampleHalted, false))
  {
    assert ExampleAfterAdd[4..] == [2, 3, 11, 0, 99, 30, 40, 50];
    assert ExampleAfterAdd[0 := 3500] == ExampleHalted;
  }

  lemma TickExample3()
    ensures Tick(Program(8, ExampleHalted, false)) == Ok(Program(8, ExampleHalted, true))
  {
    assert ExampleHalted[8..] == [99, 30, 40, 50];
  }

  /** `test_code`: three ticks of the example program (Add, Mul, Fin), after
      which the driving loop stops. */
  lemma ExampleProgramRuns()
    ensures Run(New(Example), 3) == Halted(Program(8, ExampleHalted, true))
  {
    var p1 := Program(4, ExampleAfterAdd, false);
    var p2 := Program(8, ExampleHalted, false);
    var p3 := Program(8, ExampleHalted, true);
    TickExample1(); TickExample2(); TickExample3();
    assert RunWith(Tick, Finished, p3, 0) == Halted(p3);
    assert RunWith(Tick, Finished, p2, 1) == Halted(p3);
    assert RunWith(Tick, Finished, p1, 2) == Halted(p3);
  }
}

=== FILE: password.dfy ===
/** The six-digit password rules of rust/day04: a candidate has exactly six
    digits, never decreasing from left to right, with at least one pair of
    equal neighbours; and the count of such numbers in a range. */
module Password {
  import opened Base

  type Six = s: seq<U32> | |s| == 6 witness [0, 0, 0, 0, 0, 0]

  /** `Numbers([u32; 6])`: the digits, most significant first. */
  datatype Numbers = Numbers(digits: Six)

  predicate NonDecreasing(n: seq<int>) {
    forall i | 0 < i < |n| :: n[i - 1] <= n[i]
  }

  predicate HasAdjacentEqual(n: seq<int>) {
    exists i | 0 < i < |n| :: n[i - 1] == n[i]
  }

  // ---------------------------------------------------------------------
  // The two checks of `Numbers::new`, as the source folds them

  /** `fold((accb, accn), |(accb, accn), &n| (accb && n >= accn, n))`. */
  function FoldIncreasing(acc: bool, prev: U32, rest: seq<U32>): bool
    decreases |rest|
  {
    if |rest| == 0 then acc
    else FoldIncreasing(acc && rest[0] >= prev, rest[0], rest[1..])
  }

  /** `fold((accb, accn), |(accb, accn), &n| (accb || accn == n, n))`. */
  function FoldAdjacent(acc: bool, prev: U32, rest: seq<U32>): bool
    decreases |rest|
  {
    if |rest| == 0 then acc
    else FoldAdjacent(acc || prev == rest[0], rest[0], rest[1..])
  }

  /** The ordering fold decides whether `prev` and the rest never decrease. */
  lemma {:induction false} FoldIncreasingMeans(acc: bool, prev: U32, rest: seq<U32>)
    ensures FoldIncreasing(acc, prev, rest) <==> acc && NonDecreasing([prev] + rest)
    decreases |rest|
  {
    if |rest| > 0 {
      FoldIncreasingMeans(acc && rest[0] >= prev, rest[0], rest[1..]);
      var s := [prev] + rest;
      assert [rest[0]] + rest[1..] == rest;
      assert NonDecreasing(s) <==> prev <= rest[0] && NonDecreasing(rest) by {
        if prev <= rest[0] && NonDecreasing(rest) {
          forall i | 0 < i < |s| ensures s[i - 1] <= s[i] {
            if i > 1 {
              assert s[i - 1] == rest[i - 2] && s[i] == rest[i - 1];
            }
          }
        }
        if NonDecreasing(s) {
          assert s[0] <= s[1];
          forall i | 0 < i < |rest| ensures rest[i - 1] <= rest[i] {
            assert s[i] <= s[i + 1];
          }
        }
      }
    }
  }

  /** The pairing fold decides whether `prev` and the rest have two equal
      neighbours (or `acc` already held). */
  lemma {:induction false} FoldAdjacentMeans(acc: bool, prev: U32, rest: seq<U32>)
    ensures FoldAdjacent(acc, prev, rest) <==> acc || HasAdjacentEqual([prev] + rest)
    decreases |rest|
  {
    if |rest| > 0 {
      FoldAdjacentMeans(acc || prev == rest[0], rest[0], rest[1..]);
      var s := [prev] + rest;
      assert [rest[0]] + rest[1..] == rest;
      assert HasAdjacentEqual(s) <==> prev == rest[0] || HasAdjacentEqual(rest) by {
        if prev == rest[0] {
          assert s[0] == s[1];
        }
        if HasAdjacentEqual(rest) {
          var i :| 0 < i < |rest| && rest[i - 1] == rest[i];
          assert s[i] == s[i + 1];
        }
        if HasAdjacentEqual(s) {
          var i :| 0 < i < |s| && s[i - 1] == s[i];
          if i > 1 {
            assert rest[i - 2] == rest[i - 1];
          }
        }
      }
    } else {
      assert !HasAdjacentEqual([prev]);
    }
  }

  /** The ordering check: `iter.next().map(fold).unwrap_or(true)`. */
  function IncreasingCheck(n: seq<U32>): (r: bool)
    ensures r <==> NonDecreasing(n)
  {
    if |n| == 0 then true
    else
      assert [n[0]] + n[1..] == n;
      FoldIncreasingMeans(true, n[0], n[1..]);
      FoldIncreasing(true, n[0], n[1..])
  }

  /** The pairing check: an empty input passes through `unwrap_or(true)`. */
  function AdjacentCheck(n: seq<U32>): (r: bool)
    ensures r <==> |n| == 0 || HasAdjacentEqual(n)
  {
    if |n| == 0 then true
    else
      assert [n[0]] + n[1..] == n;
      FoldAdjacentMeans(false, n[0], n[1..]);
      FoldAdjacent(false, n[0], n[1..])
  }

  /** `Numbers::new`: accepts exactly the six-element inputs that never
      decrease and have two equal neighbours, and keeps them as they are. */
  function New(n: seq<U32>): (r: Option<Numbers>)
    ensures r.Some? <==> |n| == 6 && NonDecreasing(n) && HasAdjacentEqual(n)
    ensures r.Some? ==> r.value.digits == n
  {
    if |n| != 6 then None
    else if !IncreasingCheck(n) then None
    else if !AdjacentCheck(n) then None
    else Some(Numbers(n))
  }

  // ---------------------------------------------------------------------
  // Parsing

  /** `Numbers::parse`. The source unwraps `to_digit`, so a character that
      is not a decimal digit panics: the caller must not pass one. Accepted
      strings are those of six characters that never decrease and have two
      equal neighbours. */
  function Parse(s: string): (r: Option<Numbers>)
    requires AllDigits(s)
    ensures r.Some? <==> |s| == 6 && NonDecreasing(CharCodes(s)) && HasAdjacentEqual(CharCodes(s))
    ensures r.Some? ==> forall i | 0 <= i < 6 :: r.value.digits[i] == ToDigit(s[i])
  {
    var ds := DigitValues(s);
    DigitOrderIsCharOrder(s);
    New(ds)
  }

  /** The characters of a string as numbers. */
  function CharCodes(s: string): (cs: seq<int>)
    ensures |cs| == |s|
    ensures forall i | 0 <= i < |s| :: cs[i] == s[i] as int
  {
    seq(|s|, i requires 0 <= i < |s| => s[i] as int)
  }

  /** Digit values compare as their characters do. */
  lemma DigitOrderIsCharOrder(s: string)
    requires AllDigits(s)
    ensures NonDecreasing(DigitValues(s)) <==> NonDecreasing(CharCodes(s))
    ensures HasAdjacentEqual(DigitValues(s)) <==> HasAdjacentEqual(CharCodes(s))
  {
    var ds := DigitValues(s);
    var cs := CharCodes(s);
    assert forall i | 0 <= i < |s| :: ds[i] == cs[i] - '0' as int;
    if HasAdjacentEqual(ds) {
      var i :| 0 < i < |ds| && ds[i - 1] == ds[i];
      assert cs[i - 1] == cs[i];
    }
    if HasAdjacentEqual(cs) {
      var i :| 0 < i < |cs| && cs[i - 1] == cs[i];
      assert ds[i - 1] == ds[i];
    }
  }

  /** `Numbers::parse_pair`: `None` as soon as the first string is rejected
      (the second is then not parsed at all), otherwise both parses. */
  function ParsePair(s1: string, s2: string): (r: Option<(Numbers, Numbers)>)
    requires AllDigits(s1)
    requires Parse(s1).Some? ==> AllDigits(s2)
    ensures r.Some? <==> Parse(s1).Some? && Parse(s2).Some?
    ensures r.Some? ==> r.value.0 == Parse(s1).value && r.value.1 == Parse(s2).value
  {
    var a :- Parse(s1);
    var b :- Parse(s2);
    Some((a, b))
  }

  // ---------------------------------------------------------------------
  // `to_u32`

  /** The number written by digits listed least significant first. */
  function LittleEndianValue(ds: seq<int>): int {
    if |ds| == 0 then 0 else ds[0] + 10 * LittleEndianValue(ds[1..])
  }

  /** `.rev().enumerate().fold(0, |acc, (idx, n)| acc + n * 10u32.pow(idx))`
      from position `idx` on, in `u32`: a product or a sum beyond `u32`
      panics (`None`). The powers stay below `10^10`, so the power itself
      never overflows. */
  function FoldPositional(rev: seq<U32>, idx: nat, acc: U32): Option<U32>
    requires idx + |rev| <= 10
    decreases |rev|
  {
    if |rev| == 0 then Some(acc)
    else
      var term := rev[0] * Pow10(idx);
      if term > U32_MAX then None
      else if acc + term > U32_MAX then None
      else FoldPositional(rev[1..], idx + 1, acc + term)
  }

  /** The positional fold adds each digit at its power of ten, and fails
      exactly when the total does not fit `u32`: every term is non-negative,
      so no partial sum can overflow while the total fits. */
  lemma {:induction false} FoldPositionalValue(rev: seq<U32>, idx: nat, acc: U32)
    requires idx + |rev| <= 10
    ensures var total := acc + Pow10(idx) * LittleEndianValue(rev);
      && (FoldPositional(rev, idx, acc).Some? <==> total <= U32_MAX)
      && (FoldPositional(rev, idx, acc).Some? ==> FoldPositional(rev, idx, acc).value == total)
    decreases |rev|
  {
    if |rev| > 0 {
      var p := Pow10(idx);
      var rest := LittleEndianValue(rev[1..]);
      var term := rev[0] * p;
      LittleEndianNonNegative(rev[1..]);
      PositionalStep(p, rev[0], rest);
      assert Pow10(idx + 1) == 10 * p;
      if acc + term <= U32_MAX {
        FoldPositionalValue(rev[1..], idx + 1, acc + term);
      }
    }
  }

  lemma {:induction false} LittleEndianNonNegative(ds: seq<U32>)
    ensures LittleEndianValue(ds) >= 0
    decreases |ds|
  {
    if |ds| > 0 {
      LittleEndianNonNegative(ds[1..]);
    }
  }

  /** One digit of the positional sum: `p * (d + 10 * rest)` splits into the
      digit's term and the rest at the next power, both non-negative. */
  lemma PositionalStep(p: nat, d: nat, rest: nat)
    ensures p * (d + 10 * rest) == d * p + (10 * p) * rest
    ensures d * p >= 0 && (10 * p) * rest >= 0
  {
  }

  /** Read backwards, the digits have the same value. */
  lemma {:induction false} ReversedValue(ds: seq<U32>)
    ensures LittleEndianValue(Reverse(ds)) == DecimalValue(ds)
    decreases |ds|
  {
    if |ds| > 0 {
      var init := ds[..|ds| - 1];
      ReversedValue(init);
      assert Reverse(ds)[1..] == Reverse(init);
    }
  }

  /** `Numbers::to_u32`: the number the six digits write, `None` when it does
      not fit `u32` (the source's arithmetic panics). */
  function ToU32(n: Numbers): (r: Option<U32>)
    ensures r.Some? <==> DecimalValue(n.digits) <= U32_MAX
    ensures r.Some? ==> r.value == DecimalValue(n.digits)
  {
    var rev := Reverse(n.digits);
    FoldPositionalValue(rev, 0, 0);
    ReversedValue(n.digits);
    FoldPositional(rev, 0, 0)
  }

  // ---------------------------------------------------------------------
  // Decimal strings and the count in `main`

  /** A decimal string is longer than `k` characters exactly when the number
      is at least `10^k` (for `k >= 1`: zero is written "0"). */
  lemma {:induction false} DecimalLength(i: nat, k: nat)
    requires k >= 1
    ensures |DecimalString(i)| > k <==> i >= Pow10(k)
    decreases k
  {
    if k == 1 {
      assert Pow10(1) == 10;
    } else if i >= 10 {
      DecimalLength(i / 10, k - 1);
      var p := Pow10(k - 1);
      assert Pow10(k) == 10 * p;
      assert |DecimalString(i)| == |DecimalString(i / 10)| + 1;
      assert i >= 10 * p <==> i / 10 >= p;
    } else {
      assert Pow10(k) >= 10 by {
        PowGrows(k);
      }
    }
  }

  lemma {:induction false} PowGrows(k: nat)
    requires k >= 1
    ensures Pow10(k) >= 10
    decreases k
  {
    if k > 1 {
      PowGrows(k - 1);
    }
  }

  /** Six-character decimal strings are those of 100000..=999999. */
  lemma SixDigitNumbers(i: nat)
    ensures |DecimalString(i)| == 6 <==> 100000 <= i <= 999999
  {
    DecimalLength(i, 5);
    DecimalLength(i, 6);
    assert Pow10(5) == 100000 by {
      assert Pow10(2) == 100;
    }
    assert Pow10(6) == 1000000;
  }

  /** A number counted by `main`. */
  predicate Accepted(i: nat) {
    Parse(DecimalString(i)).Some?
  }

  /** Every accepted number has six digits, and `to_u32` gives it back. */
  lemma AcceptedRoundTrip(i: nat)
    requires Accepted(i)
    ensures 100000 <= i <= 999999
    ensures ToU32(Parse(DecimalString(i)).value) == Some(i)
  {
    var s := DecimalString(i);
    SixDigitNumbers(i);
    var n := Parse(s).value;
    assert n.digits == DigitValues(s);
  }

  /** The numbers in the half-open range `[lo, hi)` that satisfy `p`. */
  function Matching(p: nat -> bool, lo: nat, hi: nat): set<nat> {
    set i: nat | lo <= i < hi && p(i)
  }

  lemma MatchingStep(p: nat -> bool, lo: nat, hi: nat)
    requires lo <= hi
    ensures |Matching(p, lo, hi + 1)| == |Matching(p, lo, hi)| + (if p(hi) then 1 else 0)
  {
    if p(hi) {
      assert Matching(p, lo, hi + 1) == Matching(p, lo, hi) + {hi};
    } else {
      assert Matching(p, lo, hi + 1) == Matching(p, lo, hi);
    }
  }

  /** Counts, one candidate at a time, the numbers in `lo..hi` that `p`
      accepts. */
  method CountMatching(p: nat -> bool, lo: nat, hi: nat) returns (count: nat)
    ensures count == |Matching(p, lo, hi)|
  {
    count := 0;
    if hi <= lo {
      assert Matching(p, lo, hi) == {};
      return;
    }
    var i: nat := lo;
    while i < hi
      invariant lo <= i <= hi
      invariant count == |Matching(p, lo, i)|
    {
      MatchingStep(p, lo, i);
      if p(i) {
        count := count + 1;
      }
      i := i + 1;
    }
  }

  /** `(n1..n2).map(|i| Numbers::parse(&i.to_string())).flatten().count()`. */
  method CountValid(n1: U32, n2: U32) returns (count: nat)
    ensures count == |Matching(Accepted, n1, n2)|
  {
    count := CountMatching(Accepted, n1, n2);
  }
}

=== FILE: password_examples.dfy ===
/** The unit tests of rust/day04, restated as lemmas about the model. */
module PasswordExamples {
  import opened Base
  import opened Password

  /** Inputs of seven and five digits are rejected for their length. */
  lemma ParseWrongLength()
    ensures Parse("1234567").None?
    ensures Parse("12345").None?
  {
  }

  /** A string of digits parses as `Numbers::new` of its digit values. */
  lemma ParseIs(s: string, ds: seq<U32>)
    requires AllDigits(s) && |ds| == |s|
    requires forall i | 0 <= i < |s| :: ds[i] == ToDigit(s[i])
    ensures Parse(s) == New(ds)
  {
    assert DigitValues(s) == ds;
  }

  lemma ParseExample()
    ensures Parse("113459") == Some(Numbers([1, 1, 3, 4, 5, 9]))
  {
    ParseIs("113459", [1, 1, 3, 4, 5, 9]);
    assert New([1, 1, 3, 4, 5, 9]).Some? by {
      var n: seq<U32> := [1, 1, 3, 4, 5, 9];
      assert n[0] == n[1];
    }
  }

  lemma ParsePairExample()
    ensures ParsePair("113456", "113456") ==
      Some((Numbers([1, 1, 3, 4, 5, 6]), Numbers([1, 1, 3, 4, 5, 6])))
  {
    ParseIs("113456", [1, 1, 3, 4, 5, 6]);
    NewAcceptsValid();
  }

  lemma NewRejectsDecrease()
    ensures New([1, 2, 3, 4, 7, 6]).None?
  {
    var n: seq<U32> := [1, 2, 3, 4, 7, 6];
    assert !(n[4] <= n[5]);
  }

  lemma NewAcceptsValid()
    ensures New([1, 1, 3, 4, 5, 6]) == Some(Numbers([1, 1, 3, 4, 5, 6]))
  {
    var n: seq<U32> := [1, 1, 3, 4, 5, 6];
    assert n[0] == n[1];
  }

  lemma NewRejectsNoPair()
    ensures New([1, 2, 3, 4, 5, 6]).None?
  {
  }

  lemma ParseAllOnes()
    ensures Parse("111111").Some?
  {
    ParseIs("111111", [1, 1, 1, 1, 1, 1]);
    var n: seq<U32> := [1, 1, 1, 1, 1, 1];
    assert n[0] == n[1];
  }

  lemma ParseRejectsDecrease()
    ensures Parse("223450").None?
  {
    ParseIs("223450", [2, 2, 3, 4, 5, 0]);
    var n: seq<U32> := [2, 2, 3, 4, 5, 0];
    assert !(n[4] <= n[5]);
  }

  lemma ParseRejectsNoPair()
    ensures Parse("123789").None?
  {
    ParseIs("123789", [1, 2, 3, 7, 8, 9]);
  }

  lemma ToU32Example()
    ensures Parse("112234") == Some(Numbers([1, 1, 2, 2, 3, 4]))
    ensures ToU32(Numbers([1, 1, 2, 2, 3, 4])) == Some(112234)
  {
    ParseIs("112234", [1, 1, 2, 2, 3, 4]);
    var n: seq<U32> := [1, 1, 2, 2, 3, 4];
    assert n[0] == n[1];
    ValueExample();
  }

  lemma ValueExample()
    ensures DecimalValue([1, 1, 2, 2, 3, 4]) == 112234
  {
    var n: seq<int> := [1, 1, 2, 2, 3, 4];
    assert n[..1] == [1] && [1][..0] == [];
    assert DecimalValue(n[..2]) == 11 by {
      assert n[..2][..1] == n[..1];
    }
    assert DecimalValue(n[..3]) == 112 by {
      assert n[..3][..2] == n[..2];
    }
    assert DecimalValue(n[..4]) == 1122 by {
      assert n[..4][..3] == n[..3];
    }
    assert DecimalValue(n[..5]) == 11223 by {
      assert n[..5][..4] == n[..4];
    }
    assert n[..6] == n;
  }
}

=== FILE: wire_crossings.dfy ===
/** What rust/day03 does with two wires: every crossing of their segments
    as `Line::intersects` reports it, and the crossing nearest the origin or
    reached in the fewest steps along both wires. `Line::intersects` itself
    is a parameter. */
module WireCrossings {
  import opened Base
  import opened Wires

  /** `Line::intersects`: where two segments cross, if they do. */
  type Intersects = (Line, Line) -> Option<Point>

  /** An entry of `intersecting_points`: each wire's segments up to the
      crossing, the last one cut short at it, and the crossing. */
  datatype Crossing = Crossing(walk1: seq<Line>, walk2: seq<Line>, at: Point)

  // ---------------------------------------------------------------------
  // `intersecting_points`

  /** The entry for segment `i` of the first wire meeting segment `j` of the
      second at `p`. */
  function CrossingAt(lines1: seq<Line>, lines2: seq<Line>, i: nat, j: nat, p: Point): Crossing
    requires i < |lines1| && j < |lines2|
  {
    Crossing(lines1[..i] + [Line(lines1[i].start, p)], lines2[..j] + [Line(lines2[j].start, p)], p)
  }

  /** The crossings of segment `i` of the first wire with the first `n`
      segments of the second, in the second wire's order. */
  function RowCrossings(lines1: seq<Line>, lines2: seq<Line>, i: nat, n: nat, meets: Intersects): seq<Crossing>
    requires i < |lines1| && n <= |lines2|
    decreases n
  {
    if n == 0 then []
    else
      var before := RowCrossings(lines1, lines2, i, n - 1, meets);
      match meets(lines1[i], lines2[n - 1])
      case None => before
      case Some(p) => before + [CrossingAt(lines1, lines2, i, n - 1, p)]
  }

  /** The crossings of the first `m` segments of the first wire, row by
      row: the order of the pairs `(i, j)` read row-major. */
  function Crossings(lines1: seq<Line>, lines2: seq<Line>, m: nat, meets: Intersects): seq<Crossing>
    requires m <= |lines1|
    decreases m
  {
    if m == 0 then []
    else Crossings(lines1, lines2, m - 1, meets) + RowCrossings(lines1, lines2, m - 1, |lines2|, meets)
  }

  /** `intersecting_points`: for each pair of segments, first wire outer,
      one entry per crossing the oracle reports, carrying the segments each
      wire has already passed (`v1`, `v2`) and the one cut at the crossing. */
  method IntersectingPoints(lines1: seq<Line>, lines2: seq<Line>, meets: Intersects) returns (found: seq<Crossing>)
    ensures found == Crossings(lines1, lines2, |lines1|, meets)
  {
    found := [];
    var done1: seq<Line> := [];
    var i := 0;
    while i < |lines1|
      invariant 0 <= i <= |lines1| && done1 == lines1[..i]
      invariant found == Crossings(lines1, lines2, i, meets)
    {
      var line1 := lines1[i];
      var done2: seq<Line> := [];
      var j := 0;
      while j < |lines2|
        invariant 0 <= j <= |lines2| && done2 == lines2[..j]
        invariant found == Crossings(lines1, lines2, i, meets) + RowCrossings(lines1, lines2, i, j, meets)
      {
        var line2 := lines2[j];
        var hit := meets(line1, line2);
        if hit.Some? {
          var p := hit.value;
          var walk1 := done1 + [Line(line1.start, p)];
          var walk2 := done2 + [Line(line2.start, p)];
          found := found + [Crossing(walk1, walk2, p)];
        }
        done2 := done2 + [line2];
        j := j + 1;
      }
      done1 := done1 + [line1];
      i := i + 1;
    }
    assert lines1[..|lines1|] == lines1;
  }

  /** A row holds the crossings of its segment, and nothing else. */
  lemma {:induction false} RowCrossingsMembers(lines1: seq<Line>, lines2: seq<Line>, i: nat, n: nat, meets: Intersects, c: Crossing)
    requires i < |lines1| && n <= |lines2|
    ensures c in RowCrossings(lines1, lines2, i, n, meets) <==>
      exists j | 0 <= j < n :: meets(lines1[i], lines2[j]) == Some(c.at) && c == CrossingAt(lines1, lines2, i, j, c.at)
    decreases n
  {
    if n > 0 {
      RowCrossingsMembers(lines1, lines2, i, n - 1, meets, c);
    }
  }

  /** The entries of `intersecting_points` are exactly the crossings the
      oracle reports, each with the walks that lead to it. */
  lemma {:induction false} CrossingsMembers(lines1: seq<Line>, lines2: seq<Line>, m: nat, meets: Intersects, c: Crossing)
    requires m <= |lines1|
    ensures c in Crossings(lines1, lines2, m, meets) <==>
      exists i, j | 0 <= i < m && 0 <= j < |lines2| ::
        meets(lines1[i], lines2[j]) == Some(c.at) && c == CrossingAt(lines1, lines2, i, j, c.at)
    decreases m
  {
    if m > 0 {
      CrossingsMembers(lines1, lines2, m - 1, meets, c);
      RowCrossingsMembers(lines1, lines2, m - 1, |lines2|, meets, c);
    }
  }

  /** The steps to a crossing along a wire: the segments passed, and the
      distance from the start of the crossed segment to the crossing. */
  lemma WalkLength(lines: seq<Line>, i: nat, p: Point)
    requires i < |lines|
    ensures LinesLength(lines[..i] + [Line(lines[i].start, p)]) == LinesLength(lines[..i]) + Manhattan(lines[i].start, p)
  {
    LinesLengthAppend(lines[..i], [Line(lines[i].start, p)]);
    assert [Line(lines[i].start, p)][..0] == [];
  }

  // ---------------------------------------------------------------------
  // `sort_by`, `reverse`, `pop`

  predicate SortedBy<T>(xs: seq<T>, key: T -> nat) {
    forall a, b | 0 <= a < b < |xs| :: key(xs[a]) <= key(xs[b])
  }

  /** `x` placed before the first element whose key is not below its own. */
  function Insert<T>(x: T, xs: seq<T>, key: T -> nat): (r: seq<T>)
    requires SortedBy(xs, key)
    ensures |r| == |xs| + 1 && (r[0] == x || (|xs| > 0 && r[0] == xs[0]))
    ensures SortedBy(r, key)
    ensures multiset(r) == multiset(xs) + multiset{x}
    decreases |xs|
  {
    if |xs| == 0 || key(x) <= key(xs[0]) then [x] + xs
    else
      var rest := Insert(x, xs[1..], key);
      assert xs == [xs[0]] + xs[1..];
      [xs[0]] + rest
  }

  /** `slice::sort_by` on a key: a stable sort. Each element is inserted
      before every element after it with a key as large, so equal keys keep
      their order. */
  function SortBy<T>(xs: seq<T>, key: T -> nat): (r: seq<T>)
    ensures SortedBy(r, key)
    ensures multiset(r) == multiset(xs)
    decreases |xs|
  {
    if |xs| == 0 then []
    else
      assert xs == [xs[0]] + xs[1..];
      Insert(xs[0], SortBy(xs[1..], key), key)
  }

  /** `i` is the first position with the smallest key. */
  predicate IsFirstMin<T>(xs: seq<T>, key: T -> nat, i: int) {
    && 0 <= i < |xs|
    && (forall k | 0 <= k < |xs| :: key(xs[i]) <= key(xs[k]))
    && (forall k | 0 <= k < i :: key(xs[i]) < key(xs[k]))
  }

  /** Where the insertion puts its element: in front exactly when no key
      of the sorted list is below its own. */
  lemma InsertFirst<T>(x: T, xs: seq<T>, key: T -> nat)
    requires SortedBy(xs, key)
    ensures Insert(x, xs, key)[0] == if |xs| == 0 || key(x) <= key(xs[0]) then x else xs[0]
  {
  }

  /** A head no greater than the first minimum of the tail is the first
      minimum of the whole. */
  lemma FirstMinHead<T>(xs: seq<T>, key: T -> nat, j: nat)
    requires |xs| > 1 && IsFirstMin(xs[1..], key, j) && key(xs[0]) <= key(xs[1..][j])
    ensures IsFirstMin(xs, key, 0)
  {
    forall k | 1 <= k < |xs| ensures key(xs[0]) <= key(xs[k]) {
      assert xs[k] == xs[1..][k - 1];
    }
  }

  /** Otherwise the first minimum of the tail is that of the whole. */
  lemma FirstMinTail<T>(xs: seq<T>, key: T -> nat, j: nat)
    requires |xs| > 1 && IsFirstMin(xs[1..], key, j) && key(xs[0]) > key(xs[1..][j])
    ensures IsFirstMin(xs, key, j + 1)
  {
    forall k | 1 <= k < |xs| ensures key(xs[j + 1]) <= key(xs[k]) {
      assert xs[k] == xs[1..][k - 1];
    }
    forall k | 1 <= k < j + 1 ensures key(xs[j + 1]) < key(xs[k]) {
      assert xs[k] == xs[1..][k - 1];
    }
  }

  /** A stable sort starts with the first of the elements with the smallest
      key. */
  lemma {:induction false} SortFirst<T>(xs: seq<T>, key: T -> nat) returns (i: nat)
    requires |xs| > 0
    ensures IsFirstMin(xs, key, i) && SortBy(xs, key)[0] == xs[i]
    decreases |xs|
  {
    var sorted := SortBy(xs[1..], key);
    assert SortBy(xs, key) == Insert(xs[0], sorted, key);
    InsertFirst(xs[0], sorted, key);
    if |xs| == 1 {
      i := 0;
    } else {
      var j := SortFirst(xs[1..], key);
      if key(xs[0]) <= key(sorted[0]) {
        i := 0;
        FirstMinHead(xs, key, j);
      } else {
        i := j + 1;
        FirstMinTail(xs, key, j);
      }
    }
  }

  /** `Vec::pop`: the last element, if any. */
  function Pop<T>(xs: seq<T>): Option<T> {
    if |xs| == 0 then None else Some(xs[|xs| - 1])
  }

  /** The selection of both answers: `sort_by` the key, `reverse`, `pop`.
      It gives the first of the elements with the smallest key, and nothing
      only when there are no elements. */
  function SelectMin<T>(xs: seq<T>, key: T -> nat): (r: Option<T>)
    ensures r.None? <==> |xs| == 0
    ensures r.Some? ==> exists i :: IsFirstMin(xs, key, i) && r.value == xs[i]
  {
    var r := Pop(Reverse(SortBy(xs, key)));
    assert |xs| > 0 ==> exists i :: IsFirstMin(xs, key, i) && r.value == xs[i] by {
      if |xs| > 0 {
        var i := SortFirst(xs, key);
        assert r.value == SortBy(xs, key)[0];
      }
    }
    r
  }

  // ---------------------------------------------------------------------
  // `process_lines`, `find_shortest_path`, `find_least_steps_path`

  /** Why no answer is given: a command that does not parse, or fewer than
      two wires (both panics in the source). */
  datatype Failure = Unparsable | MissingWire

  /** The first half of `process_lines`: the segments of the last two
      wires read, the second to last first. */
  function WireLines(text: string): (r: Result<(seq<Line>, seq<Line>), Failure>)
    ensures r.Err? <==> ReadWires(text).None? || |ReadWires(text).value| < 2
    ensures r.Err? ==> (r.error == Unparsable <==> ReadWires(text).None?)
    ensures r.Ok? ==> var wires := ReadWires(text).value;
      && LinesLength(r.value.0) == TotalDistance(wires[|wires| - 2])
      && LinesLength(r.value.1) == TotalDistance(wires[|wires| - 1])
      && Chained(r.value.0) && Chained(r.value.1)
  {
    match ReadWires(text)
    case None => Err(Unparsable)
    case Some(wires) =>
      if |wires| < 2 then Err(MissingWire)
      else
        var path2 := CommandsToPath(wires[|wires| - 1], Origin);
        var path1 := CommandsToPath(wires[|wires| - 2], Origin);
        PathLength(wires[|wires| - 1], Origin);
        PathLength(wires[|wires| - 2], Origin);
        assert |path1| >= 2 && |path2| >= 2;
        PointsToLinesInverse(path1);
        PointsToLinesInverse(path2);
        Ok((PointsToLines(path1), PointsToLines(path2)))
  }

  /** The key `find_shortest_path` sorts by. */
  function DistanceKey(e: (Point, nat)): nat {
    e.1
  }

  /** Each crossing with its Manhattan distance from the origin. */
  function Distances(cs: seq<Crossing>): (r: seq<(Point, nat)>)
    ensures |r| == |cs|
    ensures forall k | 0 <= k < |cs| :: r[k] == (cs[k].at, Manhattan(cs[k].at, Origin))
  {
    seq(|cs|, k requires 0 <= k < |cs| => (cs[k].at, Manhattan(cs[k].at, Origin)))
  }

  /** `best` answers `find_shortest_path` for the crossings `cs`: nothing
      exactly when there is no crossing, and otherwise the first crossing
      nearest the origin, with its distance. */
  predicate IsNearest(cs: seq<Crossing>, best: Option<(Point, nat)>) {
    && (best.None? <==> |cs| == 0)
    && (best.Some? ==> exists i | 0 <= i < |cs| ::
          && best.value == (cs[i].at, Manhattan(cs[i].at, Origin))
          && (forall k | 0 <= k < |cs| :: Manhattan(cs[i].at, Origin) <= Manhattan(cs[k].at, Origin))
          && (forall k | 0 <= k < i :: Manhattan(cs[i].at, Origin) < Manhattan(cs[k].at, Origin)))
  }

  /** `find_shortest_path`: of the crossings of the last two wires, the
      first nearest the origin, with its distance; `None` when the wires do
      not cross. */
  method FindShortestPath(text: string, meets: Intersects) returns (r: Result<Option<(Point, nat)>, Failure>)
    ensures r.Err? <==> WireLines(text).Err?
    ensures r.Err? ==> r.error == WireLines(text).error
    ensures r.Ok? ==> var lines := WireLines(text).value;
      IsNearest(Crossings(lines.0, lines.1, |lines.0|, meets), r.value)
  {
    var lines := WireLines(text);
    if lines.Err? {
      return Err(lines.error);
    }
    var (lines1, lines2) := lines.value;
    var cs := IntersectingPoints(lines1, lines2, meets);
    var best := SelectMin(Distances(cs), DistanceKey);
    Nearest(cs);
    return Ok(best);
  }

  /** The selection `find_shortest_path` makes: the first crossing nearest
      the origin. */
  lemma Nearest(cs: seq<Crossing>)
    ensures IsNearest(cs, SelectMin(Distances(cs), DistanceKey))
  {
    var ds := Distances(cs);
    var best := SelectMin(ds, DistanceKey);
    if best.Some? {
      var i :| IsFirstMin(ds, DistanceKey, i) && best.value == ds[i];
      FirstMinDistance(cs, i);
    }
  }

  lemma FirstMinDistance(cs: seq<Crossing>, i: int)
    requires IsFirstMin(Distances(cs), DistanceKey, i)
    ensures 0 <= i < |cs|
    ensures forall k | 0 <= k < |cs| :: Manhattan(cs[i].at, Origin) <= Manhattan(cs[k].at, Origin)
    ensures forall k | 0 <= k < i :: Manhattan(cs[i].at, Origin) < Manhattan(cs[k].at, Origin)
  {
    var ds := Distances(cs);
    forall k | 0 <= k < |cs| ensures Manhattan(cs[i].at, Origin) <= Manhattan(cs[k].at, Origin) {
      assert DistanceKey(ds[k]) == Manhattan(cs[k].at, Origin);
    }
    forall k | 0 <= k < i ensures Manhattan(cs[i].at, Origin) < Manhattan(cs[k].at, Origin) {
      assert DistanceKey(ds[k]) == Manhattan(cs[k].at, Origin);
    }
  }

  /** The steps to a crossing along both wires. */
  function Steps(c: Crossing): nat {
    LinesLength(c.walk1) + LinesLength(c.walk2)
  }

  function StepsOf(cs: seq<Crossing>): (r: seq<nat>)
    ensures |r| == |cs|
    ensures forall k | 0 <= k < |cs| :: r[k] == Steps(cs[k])
  {
    seq(|cs|, k requires 0 <= k < |cs| => Steps(cs[k]))
  }

  function Identity(n: nat): nat {
    n
  }

  /** `best` answers `find_least_steps_path` for the crossings `cs`:
      nothing exactly when there is no crossing, and otherwise the fewest
      steps to any of them. */
  predicate IsFewest(cs: seq<Crossing>, best: Option<nat>) {
    && (best.None? <==> |cs| == 0)
    && (best.Some? ==> exists i | 0 <= i < |cs| ::
          && best.value == Steps(cs[i])
          && forall k | 0 <= k < |cs| :: best.value <= Steps(cs[k]))
  }

  /** `find_least_steps_path`: the fewest steps, along both wires, to any
      crossing of the last two wires; `None` when they do not cross. */
  method FindLeastStepsPath(text: string, meets: Intersects) returns (r: Result<Option<nat>, Failure>)
    ensures r.Err? <==> WireLines(text).Err?
    ensures r.Err? ==> r.error == WireLines(text).error
    ensures r.Ok? ==> var lines := WireLines(text).value;
      IsFewest(Crossings(lines.0, lines.1, |lines.0|, meets), r.value)
  {
    var lines := WireLines(text);
    if lines.Err? {
      return Err(lines.error);
    }
    var (lines1, lines2) := lines.value;
    var cs := IntersectingPoints(lines1, lines2, meets);
    var best := SelectMin<nat>(StepsOf(cs), Identity);
    Fewest(cs);
    return Ok(best);
  }

  /** The selection `find_least_steps_path` makes: the fewest steps to a
      crossing. */
  lemma Fewest(cs: seq<Crossing>)
    ensures IsFewest(cs, SelectMin<nat>(StepsOf(cs), Identity))
  {
    var steps := StepsOf(cs);
    var best := SelectMin<nat>(steps, Identity);
    if best.Some? {
      var i :| IsFirstMin(steps, Identity, i) && best.value == steps[i];
      assert forall k | 0 <= k < |cs| :: Identity(steps[k]) == Steps(cs[k]);
    }
  }

  /** The steps to the crossing of segments `i` and `j` at `p`: the lengths
      of the segments each wire passes first, and the distance from the
      start of each crossed segment to `p`. */
  lemma CrossingSteps(lines1: seq<Line>, lines2: seq<Line>, i: nat, j: nat, p: Point)
    requires i < |lines1| && j < |lines2|
    ensures Steps(CrossingAt(lines1, lines2, i, j, p)) ==
      LinesLength(lines1[..i]) + Manhattan(lines1[i].start, p)
      + LinesLength(lines2[..j]) + Manhattan(lines2[j].start, p)
  {
    WalkLength(lines1, i, p);
    WalkLength(lines2, j, p);
  }
}

=== FILE: wire_crossings_examples.dfy ===
/** The first example of rust/day03 carried through the crossing search,
    with a sample `Line::intersects`: the crossing point of two
    perpendicular axis-aligned segments, strictly inside both. */
module WireCrossingsExamples {
  import opened Base
  import opened Wires
  import opened WireCrossings
  import opened WiresExamples

  /** `v` lies strictly between `a` and `b`, in either order. */
  predicate Inside(a: int, v: int, b: int) {
    (a < v < b) || (b < v < a)
  }

  predicate Vertical(l: Line) {
    l.start.x == l.end.x && l.start.y != l.end.y
  }

  predicate Horizontal(l: Line) {
    l.start.y == l.end.y && l.start.x != l.end.x
  }

  /** The sample oracle. */
  function AxisMeets(l1: Line, l2: Line): (r: Option<Point>)
    ensures r.Some? ==> (Vertical(l1) && Horizontal(l2)) || (Horizontal(l1) && Vertical(l2))
  {
    if Vertical(l1) && Horizontal(l2)
      && Inside(l1.start.y, l2.start.y, l1.end.y) && Inside(l2.start.x, l1.start.x, l2.end.x)
    then Some(Point(l1.start.x, l2.start.y))
    else if Horizontal(l1) && Vertical(l2)
      && Inside(l1.start.x, l2.start.x, l1.end.x) && Inside(l2.start.y, l1.start.y, l2.end.y)
    then Some(Point(l2.start.x, l1.start.y))
    else None
  }

  /** A point the sample oracle reports lies on both segments, away from
      their ends. */
  lemma AxisMeetsOnBoth(l1: Line, l2: Line)
    requires AxisMeets(l1, l2).Some?
    ensures var p := AxisMeets(l1, l2).value;
      && Manhattan(l1.start, p) + Manhattan(p, l1.end) == Manhattan(l1.start, l1.end)
      && Manhattan(l2.start, p) + Manhattan(p, l2.end) == Manhattan(l2.start, l2.end)
      && p != l1.start && p != l1.end && p != l2.start && p != l2.end
  {
  }

  /** The sample oracle answers the cases of `test_line_intersects` as the
      test expects. */
  lemma AxisMeetsExamples()
    ensures AxisMeets(Line(Point(0, -1), Point(0, 1)), Line(Point(-1, 0), Point(1, 0))) == Some(Point(0, 0))
    ensures AxisMeets(Line(Point(1, 0), Point(1, 2)), Line(Point(2, 0), Point(2, 2))) == None
    ensures AxisMeets(Line(Point(0, 0), Point(0, 7)), Line(Point(0, 0), Point(8, 0))) == None
    ensures AxisMeets(Line(Point(0, 0), Point(8, 0)), Line(Point(6, 7), Point(6, 3))) == None
    ensures AxisMeets(Line(Point(8, 0), Point(8, 5)), Line(Point(6, 3), Point(2, 3))) == None
  {
  }

  const Lines1: seq<Line> :=
    [Line(Point(0, 0), Point(8, 0)), Line(Point(8, 0), Point(8, 5)),
     Line(Point(8, 5), Point(3, 5)), Line(Point(3, 5), Point(3, 2))]

  const Lines2: seq<Line> :=
    [Line(Point(0, 0), Point(0, 7)), Line(Point(0, 7), Point(6, 7)),
     Line(Point(6, 7), Point(6, 3)), Line(Point(6, 3), Point(2, 3))]

  /** A path is determined by its start and its moves. */
  lemma PathIs(cmds: seq<Command>, p: Point, points: seq<Point>)
    requires |points| == |cmds| + 1 && points[0] == p
    requires forall k | 0 <= k < |cmds| :: points[k + 1] == Move(points[k], cmds[k])
    ensures CommandsToPath(cmds, p) == points
  {
    var path := CommandsToPath(cmds, p);
    forall k | 0 <= k < |path| ensures path[k] == points[k] {
      var n := 0;
      while n < k
        invariant n <= k && path[n] == points[n]
      {
        n := n + 1;
      }
    }
  }

  /** Segments are determined by their corners. */
  lemma SegmentsAre(points: seq<Point>, lines: seq<Line>)
    requires |points| == |lines| + 1
    requires forall k | 0 <= k < |lines| :: lines[k] == Line(points[k], points[k + 1])
    ensures PointsToLines(points) == lines
  {
    var r := PointsToLines(points);
    assert |r| == |lines|;
    forall k | 0 <= k < |lines| ensures r[k] == lines[k] {
      assert r[k] == Line(points[k], points[k + 1]);
    }
  }

  /** The segments of the two example wires. */
  lemma ExampleSegments()
    ensures PointsToLines(CommandsToPath(Wire1, Origin)) == Lines1
    ensures PointsToLines(CommandsToPath(Wire2, Origin)) == Lines2
  {
    var path1 := [Point(0, 0), Point(8, 0), Point(8, 5), Point(3, 5), Point(3, 2)];
    PathIs(Wire1, Origin, path1);
    SegmentsAre(path1, Lines1);
    var path2 := [Point(0, 0), Point(0, 7), Point(6, 7), Point(6, 3), Point(2, 3)];
    PathIs(Wire2, Origin, path2);
    SegmentsAre(path2, Lines2);
  }

  /** Reading the example text gives the example segments. */
  lemma ExampleWireLines()
    ensures WireLines(Example1Text) == Ok((Lines1, Lines2))
  {
    ReadWiresExample1();
    ExampleSegments();
  }

  const Hit1: Crossing := Crossing(
    [Line(Point(0, 0), Point(8, 0)), Line(Point(8, 0), Point(8, 5)), Line(Point(8, 5), Point(6, 5))],
    [Line(Point(0, 0), Point(0, 7)), Line(Point(0, 7), Point(6, 7)), Line(Point(6, 7), Point(6, 5))],
    Point(6, 5))

  const Hit2: Crossing := Crossing(
    [Line(Point(0, 0), Point(8, 0)), Line(Point(8, 0), Point(8, 5)),
     Line(Point(8, 5), Point(3, 5)), Line(Point(3, 5), Point(3, 3))],
    [Line(Point(0, 0), Point(0, 7)), Line(Point(0, 7), Point(6, 7)),
     Line(Point(6, 7), Point(6, 3)), Line(Point(6, 3), Point(3, 3))],
    Point(3, 3))

  /** The oracle on every pair of example segments: only segments 2 and 3
      of each wire meet, pairwise. */
  lemma ExampleMeets(i: nat, j: nat)
    requires i < 4 && j < 4
    ensures AxisMeets(Lines1[i], Lines2[j]) ==
      if i == 2 && j == 2 then Some(Point(6, 5))
      else if i == 3 && j == 3 then Some(Point(3, 3))
      else None
  {
  }

  /** A row whose segment meets at most the segment `j` of the second wire. */
  lemma RowOfOne(i: nat, j: int, p: Point)
    requires i < 4 && -1 <= j < 4
    requires forall k | 0 <= k < 4 :: AxisMeets(Lines1[i], Lines2[k]) == if k == j then Some(p) else None
    ensures RowCrossings(Lines1, Lines2, i, 4, AxisMeets) ==
      if j < 0 then [] else [CrossingAt(Lines1, Lines2, i, j, p)]
  {
    var row := RowCrossings(Lines1, Lines2, i, 4, AxisMeets);
    assert RowCrossings(Lines1, Lines2, i, 0, AxisMeets) == [];
    assert RowCrossings(Lines1, Lines2, i, 1, AxisMeets) == if j == 0 then [CrossingAt(Lines1, Lines2, i, 0, p)] else [];
    assert RowCrossings(Lines1, Lines2, i, 2, AxisMeets) == if 0 <= j < 2 then [CrossingAt(Lines1, Lines2, i, j, p)] else [];
    assert RowCrossings(Lines1, Lines2, i, 3, AxisMeets) == if 0 <= j < 3 then [CrossingAt(Lines1, Lines2, i, j, p)] else [];
  }

  /** `intersecting_points` on the example finds the two crossings of
      `test_example1`, with the walks it lists. */
  lemma ExampleCrossings()
    ensures Crossings(Lines1, Lines2, 4, AxisMeets) == [Hit1, Hit2]
  {
    forall k | 0 <= k < 4 ensures AxisMeets(Lines1[0], Lines2[k]) == None { ExampleMeets(0, k); }
    RowOfOne(0, -1, Origin);
    forall k | 0 <= k < 4 ensures AxisMeets(Lines1[1], Lines2[k]) == None { ExampleMeets(1, k); }
    RowOfOne(1, -1, Origin);
    forall k | 0 <= k < 4 ensures AxisMeets(Lines1[2], Lines2[k]) == if k == 2 then Some(Point(6, 5)) else None {
      ExampleMeets(2, k);
    }
    RowOfOne(2, 2, Point(6, 5));
    forall k | 0 <= k < 4 ensures AxisMeets(Lines1[3], Lines2[k]) == if k == 3 then Some(Point(3, 3)) else None {
      ExampleMeets(3, k);
    }
    RowOfOne(3, 3, Point(3, 3));
    assert CrossingAt(Lines1, Lines2, 2, 2, Point(6, 5)) == Hit1;
    assert CrossingAt(Lines1, Lines2, 3, 3, Point(3, 3)) == Hit2;
    assert Crossings(Lines1, Lines2, 1, AxisMeets) == [];
    assert Crossings(Lines1, Lines2, 2, AxisMeets) == [];
    assert Crossings(Lines1, Lines2, 3, AxisMeets) == [Hit1];
  }

  /** Where the example's crossings lie. */
  lemma ExampleDistances()
    ensures var cs := Crossings(Lines1, Lines2, |Lines1|, AxisMeets);
      && |cs| == 2 && cs[1].at == Point(3, 3)
      && Manhattan(cs[0].at, Origin) == 11 && Manhattan(cs[1].at, Origin) == 6
  {
    ExampleCrossings();
  }

  /** The choice `find_shortest_path` makes among two crossings at
      distances 11 and 6, the second at (3, 3). */
  lemma ShortestOfTwo(cs: seq<Crossing>, r: Option<(Point, nat)>)
    requires |cs| == 2 && cs[1].at == Point(3, 3)
    requires Manhattan(cs[0].at, Origin) == 11 && Manhattan(cs[1].at, Origin) == 6
    requires IsNearest(cs, r)
    ensures r == Some((Point(3, 3), 6))
  {
    var i :| 0 <= i < |cs| && r.value == (cs[i].at, Manhattan(cs[i].at, Origin))
      && (forall k | 0 <= k < |cs| :: Manhattan(cs[i].at, Origin) <= Manhattan(cs[k].at, Origin));
    assert Manhattan(cs[i].at, Origin) <= Manhattan(cs[1].at, Origin);
    assert i == 1;
  }

  /** The example text's crossings, by distance. */
  lemma ExampleTextDistances()
    ensures WireLines(Example1Text).Ok?
    ensures var lines := WireLines(Example1Text).value;
      var cs := Crossings(lines.0, lines.1, |lines.0|, AxisMeets);
      && |cs| == 2 && cs[1].at == Point(3, 3)
      && Manhattan(cs[0].at, Origin) == 11 && Manhattan(cs[1].at, Origin) == 6
  {
    ExampleWireLines();
    ExampleDistances();
  }

  /** `find_shortest_path` on the example: the crossing at (3, 3), at
      distance 6. */
  method ShortestExample() returns (r: Result<Option<(Point, nat)>, Failure>)
    ensures r == Ok(Some((Point(3, 3), 6)))
  {
    ExampleTextDistances();
    r := FindShortestPath(Example1Text, AxisMeets);
    ghost var lines := WireLines(Example1Text).value;
    ShortestOfTwo(Crossings(lines.0, lines.1, |lines.0|, AxisMeets), r.value);
  }

  /** The length of a run of three segments. */
  lemma LengthOfThree(w: seq<Line>)
    requires |w| == 3
    ensures LinesLength(w) == LineLength(w[0]) + LineLength(w[1]) + LineLength(w[2])
  {
    assert LinesLength(w[..1]) == LineLength(w[0]) by { assert w[..1][..0] == []; }
    assert LinesLength(w[..2]) == LineLength(w[0]) + LineLength(w[1]) by { assert w[..2][..1] == w[..1]; }
    assert w[..3] == w;
  }

  /** The length of a run of four segments. */
  lemma LengthOfFour(w: seq<Line>)
    requires |w| == 4
    ensures LinesLength(w) == LineLength(w[0]) + LineLength(w[1]) + LineLength(w[2]) + LineLength(w[3])
  {
    LengthOfThree(w[..3]);
  }

  lemma Hit1Steps()
    ensures Steps(Hit1) == 30
  {
    LengthOfThree(Hit1.walk1);
    LengthOfThree(Hit1.walk2);
  }

  /** The steps to a crossing four segments along each wire. */
  lemma StepsOfFour(c: Crossing)
    requires |c.walk1| == 4 && |c.walk2| == 4
    ensures Steps(c) ==
      LineLength(c.walk1[0]) + LineLength(c.walk1[1]) + LineLength(c.walk1[2]) + LineLength(c.walk1[3])
      + LineLength(c.walk2[0]) + LineLength(c.walk2[1]) + LineLength(c.walk2[2]) + LineLength(c.walk2[3])
  {
    LengthOfFour(c.walk1);
    LengthOfFour(c.walk2);
  }

  lemma Hit2Steps()
    ensures Steps(Hit2) == 40
  {
    StepsOfFour(Hit2);
  }

  /** The steps to each of the example's crossings. */
  lemma ExampleSteps()
    ensures var cs := Crossings(Lines1, Lines2, |Lines1|, AxisMeets);
      |cs| == 2 && Steps(cs[0]) == 30 && Steps(cs[1]) == 40
  {
    ExampleCrossings();
    Hit1Steps();
    Hit2Steps();
  }

  /** The choice `find_least_steps_path` makes among two crossings 30
      and 40 steps along. */
  lemma LeastStepsOfTwo(cs: seq<Crossing>, r: Option<nat>)
    requires |cs| == 2 && Steps(cs[0]) == 30 && Steps(cs[1]) == 40
    requires IsFewest(cs, r)
    ensures r == Some(30)
  {
    var i :| 0 <= i < |cs| && r.value == Steps(cs[i]) && forall k | 0 <= k < |cs| :: r.value <= Steps(cs[k]);
    assert r.value <= Steps(cs[0]);
  }

  /** The example text's crossings, by step count. */
  lemma ExampleTextSteps()
    ensures WireLines(Example1Text).Ok?
    ensures var lines := WireLines(Example1Text).value;
      var cs := Crossings(lines.0, lines.1, |lines.0|, AxisMeets);
      |cs| == 2 && Steps(cs[0]) == 30 && Steps(cs[1]) == 40
  {
    ExampleWireLines();
    ExampleSteps();
  }

  /** `find_least_steps_path` on the example: 30 steps, to the crossing at
      (6, 5). */
  method LeastStepsExample() returns (r: Result<Option<nat>, Failure>)
    ensures r == Ok(Some(30))
  {
    ExampleTextSteps();
    r := FindLeastStepsPath(Example1Text, AxisMeets);
    ghost var lines := WireLines(Example1Text).value;
    LeastStepsOfTwo(Crossings(lines.0, lines.1, |lines.0|, AxisMeets), r.value);
  }
}

=== FILE: wires.dfy ===
/** The wires of rust/day03: commands such as `R8` read from comma-separated
    lines, the corner points a wire's commands trace from the origin, the
    segments between consecutive corners, and their Manhattan lengths. */
module Wires {
  import opened Base

  datatype Direction = Up | Down | Left | Right

  /** `Command(Direction, Distance)`, the distance a `u32`. */
  datatype Command = Command(dir: Direction, dist: U32)

  /** `Point(i32, i32)`, with unbounded coordinates. */
  datatype Point = Point(x: int, y: int)

  /** `Point::ZERO`. */
  const Origin: Point := Point(0, 0)

  /** `Line(Point, Point)`: the segment from `start` to `end`. */
  datatype Line = Line(start: Point, end: Point)

  // ---------------------------------------------------------------------
  // Text: `str::split`, `str::trim` and `BufRead::lines`

  /** `str::split` on one character: the pieces between separators, an empty
      piece wherever two separators meet or the text starts or ends with
      one; the empty text is one empty piece. */
  function Split(s: string, sep: char): (r: seq<string>)
    ensures |r| >= 1
    ensures forall k | 0 <= k < |r| :: sep !in r[k]
    decreases |s|
  {
    if |s| == 0 then [""]
    else
      var rest := Split(s[1..], sep);
      if s[0] == sep then [""] + rest
      else [[s[0]] + rest[0]] + rest[1..]
  }

  /** The pieces put back together, a separator between each two. */
  function Join(pieces: seq<string>, sep: char): string
    requires |pieces| >= 1
    decreases |pieces|
  {
    if |pieces| == 1 then pieces[0] else pieces[0] + [sep] + Join(pieces[1..], sep)
  }

  /** Splitting loses nothing: joining the pieces gives the text back. */
  lemma {:induction false} JoinSplit(s: string, sep: char)
    ensures Join(Split(s, sep), sep) == s
    decreases |s|
  {
    if |s| > 0 {
      var rest := Split(s[1..], sep);
      JoinSplit(s[1..], sep);
      if s[0] == sep {
        assert ([""] + rest)[1..] == rest;
      } else {
        var r := [[s[0]] + rest[0]] + rest[1..];
        if |rest| > 1 {
          assert r[1..] == rest[1..];
        }
      }
    }
  }

  /** Text without the separator is a prefix of the first piece. */
  lemma {:induction false} SplitPrefix(a: string, t: string, sep: char)
    requires sep !in a
    ensures Split(a + t, sep) == [a + Split(t, sep)[0]] + Split(t, sep)[1..]
    decreases |a|
  {
    var st := Split(t, sep);
    if |a| > 0 {
      SplitPrefix(a[1..], t, sep);
      assert (a + t)[0] == a[0] && a[0] != sep;
      assert (a + t)[1..] == a[1..] + t;
      var rest := Split(a[1..] + t, sep);
      assert rest[0] == a[1..] + st[0] && rest[1..] == st[1..];
      assert [a[0]] + (a[1..] + st[0]) == a + st[0];
    } else {
      assert a + t == t && a + st[0] == st[0];
      assert [st[0]] + st[1..] == st;
    }
  }

  /** Pieces free of the separator are what splitting their join gives. */
  lemma {:induction false} SplitJoin(pieces: seq<string>, sep: char)
    requires |pieces| >= 1
    requires forall k | 0 <= k < |pieces| :: sep !in pieces[k]
    ensures Split(Join(pieces, sep), sep) == pieces
    decreases |pieces|
  {
    if |pieces| == 1 {
      SplitPrefix(pieces[0], "", sep);
      assert pieces[0] + "" == pieces[0];
    } else {
      var tail := Join(pieces[1..], sep);
      SplitJoin(pieces[1..], sep);
      assert ([sep] + tail)[0] == sep && ([sep] + tail)[1..] == tail;
      assert Split([sep] + tail, sep) == [""] + pieces[1..];
      assert pieces[0] + [sep] + tail == pieces[0] + ([sep] + tail);
      SplitPrefix(pieces[0], [sep] + tail, sep);
      assert pieces[0] + "" == pieces[0];
      assert [pieces[0]] + pieces[1..] == pieces;
    }
  }

  /** `char::is_whitespace`: the Unicode `White_Space` property. */
  predicate IsWhitespace(c: char) {
    var n := c as int;
    (0x09 <= n <= 0x0D) || n == 0x20 || n == 0x85 || n == 0xA0 || n == 0x1680
    || (0x2000 <= n <= 0x200A) || n == 0x2028 || n == 0x2029 || n == 0x202F
    || n == 0x205F || n == 0x3000
  }

  predicate AllWhitespace(s: string) {
    forall k | 0 <= k < |s| :: IsWhitespace(s[k])
  }

  /** The number of whitespace characters `str::trim` drops at the front:
      whitespace before it, and none at it. */
  function LeadingSpace(s: string): (n: nat)
    ensures n <= |s| && AllWhitespace(s[..n])
    ensures n < |s| ==> !IsWhitespace(s[n])
    decreases |s|
  {
    if |s| > 0 && IsWhitespace(s[0]) then
      var n := 1 + LeadingSpace(s[1..]);
      assert forall k | 1 <= k < n :: s[..n][k] == s[1..][..n - 1][k - 1];
      n
    else 0
  }

  /** Where the whitespace `str::trim` drops at the back begins: whitespace
      from it on, and none just before it. */
  function TrailingSpace(s: string): (n: nat)
    ensures n <= |s| && AllWhitespace(s[n..])
    ensures n > 0 ==> !IsWhitespace(s[n - 1])
    decreases |s|
  {
    if |s| > 0 && IsWhitespace(s[|s| - 1]) then
      var n := TrailingSpace(s[..|s| - 1]);
      assert AllWhitespace(s[n..]) by {
        forall m | 0 <= m < |s| - n ensures IsWhitespace(s[n..][m]) {
          if m < |s| - 1 - n {
            assert s[n..][m] == s[..|s| - 1][n..][m];
          }
        }
      }
      n
    else |s|
  }

  /** `str::trim`: the text between the leading and the trailing whitespace;
      empty exactly when the text is all whitespace. */
  function Trim(s: string): (r: string)
    ensures |r| > 0 ==> !IsWhitespace(r[0]) && !IsWhitespace(r[|r| - 1])
    ensures |r| == 0 <==> AllWhitespace(s)
    ensures var i := LeadingSpace(s);
      && i + |r| <= |s| && r == s[i..i + |r|] && AllWhitespace(s[i + |r|..])
  {
    var i := LeadingSpace(s);
    var j := TrailingSpace(s);
    if j <= i then
      assert AllWhitespace(s) by {
        assert forall k | 0 <= k < i :: s[k] == s[..i][k];
        assert forall k | j <= k < |s| :: s[k] == s[j..][k - j];
      }
      assert s[i..] == s[j..][i - j..];
      ""
    else
      assert !AllWhitespace(s) by {
        assert s[j - 1] == s[j - 1];
      }
      s[i..j]
  }

  /** A text with no whitespace at either end is its own trim. */
  lemma TrimmedIsTrim(s: string)
    requires |s| > 0 && !IsWhitespace(s[0]) && !IsWhitespace(s[|s| - 1])
    ensures Trim(s) == s
  {
    assert s[..|s|] == s;
  }

  /** `BufRead::lines`: the text cut at each `'\n'`, a `"\r"` before the
      `'\n'` dropped too, and no line after a final `'\n'`. */
  function ReadLines(text: string): (r: seq<string>)
  {
    var pieces := Split(text, '\n');
    var n := |pieces| - 1;
    seq(n, k requires 0 <= k < n => StripCr(pieces[k]))
      + (if |pieces[n]| > 0 then [pieces[n]] else [])
  }

  function StripCr(line: string): string {
    if |line| > 0 && line[|line| - 1] == '\r' then line[..|line| - 1] else line
  }

  /** Each line read: every piece before a `'\n'` with one trailing
      `'\r'` removed, then the final piece unless it is empty; and none
      containing a line break. */
  lemma ReadLinesMeaning(text: string)
    ensures var pieces := Split(text, '\n');
      && |ReadLines(text)| == (if |pieces[|pieces| - 1]| > 0 then |pieces| else |pieces| - 1)
      && (forall k | 0 <= k < |pieces| - 1 :: ReadLines(text)[k] == StripCr(pieces[k]))
      && (|pieces[|pieces| - 1]| > 0 ==> ReadLines(text)[|pieces| - 1] == pieces[|pieces| - 1])
      && forall k | 0 <= k < |ReadLines(text)| :: '\n' !in ReadLines(text)[k]
  {
    var pieces := Split(text, '\n');
    var r := ReadLines(text);
    forall k | 0 <= k < |r| ensures '\n' !in r[k] {
      if k < |pieces| - 1 {
        assert r[k] == StripCr(pieces[k]);
        assert '\n' !in pieces[k];
      }
    }
  }

  // ---------------------------------------------------------------------
  // Commands

  function DirectionLetter(d: Direction): char {
    match d
    case Up => 'U'
    case Down => 'D'
    case Left => 'L'
    case Right => 'R'
  }

  /** `parse_direction`: `L`, `R`, `U`, `D`; any other character panics
      (`None`). */
  function ParseDirection(c: char): (r: Option<Direction>)
    ensures r.Some? <==> c == 'L' || c == 'R' || c == 'U' || c == 'D'
    ensures r.Some? ==> DirectionLetter(r.value) == c
  {
    if c == 'L' then Some(Left)
    else if c == 'R' then Some(Right)
    else if c == 'U' then Some(Up)
    else if c == 'D' then Some(Down)
    else None
  }

  /** Every direction is read back from its letter. */
  lemma ParseDirectionLetter(d: Direction)
    ensures ParseDirection(DirectionLetter(d)) == Some(d)
  {
  }

  /** The decimal digits of `str::parse::<u32>` read from the left, as
      `acc * 10 + digit` in `u32`: a character other than a digit, or a
      value beyond `u32`, is an error (`None`). */
  function AccumulateDigits(s: string, acc: U32): Option<U32>
    decreases |s|
  {
    if |s| == 0 then Some(acc)
    else if !IsDigit(s[0]) then None
    else if acc * 10 + ToDigit(s[0]) > U32_MAX then None
    else AccumulateDigits(s[1..], acc * 10 + ToDigit(s[0]))
  }

  /** The digits after the optional `+` that `str::parse::<u32>` allows. */
  function Unsigned(s: string): string {
    if |s| > 0 && s[0] == '+' then s[1..] else s
  }

  /** `str::parse::<u32>`: an optional `+` and at least one digit; the
      empty text, a lone sign, a `-`, any other character and a value
      beyond `u32` are errors. The result is the number the digits write. */
  function ParseU32(s: string): (r: Option<U32>)
    ensures r.Some? <==> var ds := Unsigned(s);
      |ds| > 0 && AllDigits(ds) && DecimalValue(DigitValues(ds)) <= U32_MAX
    ensures r.Some? ==> r.value == DecimalValue(DigitValues(Unsigned(s)))
  {
    var ds := Unsigned(s);
    AccumulateValue(ds, 0);
    assert AllDigits(ds) ==> DecimalValue([0] + DigitValues(ds)) == DecimalValue(DigitValues(ds)) by {
      if AllDigits(ds) {
        LeadingZero(DigitValues(ds));
      }
    }
    if |ds| == 0 then None else AccumulateDigits(ds, 0)
  }

  /** A number before the digits acts as one more leading digit: reading
      `ds` after `acc` gives the value of `[acc] + ds`. */
  lemma {:induction false} AccumulateValue(s: string, acc: U32)
    ensures var total := if AllDigits(s) then DecimalValue([acc] + DigitValues(s)) else 0;
      && (AccumulateDigits(s, acc).Some? <==> AllDigits(s) && total <= U32_MAX)
      && (AccumulateDigits(s, acc).Some? ==> AccumulateDigits(s, acc).value == total)
    decreases |s|
  {
    if |s| == 0 {
      assert [acc] + DigitValues(s) == [acc] && [acc][..0] == [];
    } else if IsDigit(s[0]) {
      AllDigitsFirst(s);
      var next := acc * 10 + ToDigit(s[0]);
      if AllDigits(s) {
        var ds := DigitValues(s);
        assert DigitValues(s[1..]) == ds[1..];
        ShiftLeadingDigit(acc, ds);
        PrefixValueGrows([next], ds[1..]);
        assert [next][..0] == [];
      }
      if next <= U32_MAX {
        AccumulateValue(s[1..], next);
      }
    }
  }

  lemma AllDigitsFirst(s: string)
    requires |s| > 0
    ensures AllDigits(s) <==> IsDigit(s[0]) && AllDigits(s[1..])
  {
    if IsDigit(s[0]) && AllDigits(s[1..]) {
      forall k | 0 < k < |s| ensures IsDigit(s[k]) {
        assert s[k] == s[1..][k - 1];
      }
    }
  }

  /** `[a] + ds` and `[10 * a + ds[0]] + ds[1..]` write the same number. */
  lemma {:induction false} ShiftLeadingDigit(a: int, ds: seq<int>)
    requires |ds| > 0
    ensures DecimalValue([a] + ds) == DecimalValue([10 * a + ds[0]] + ds[1..])
    decreases |ds|
  {
    var n := |ds|;
    if n == 1 {
      assert ([a] + ds)[..1] == [a] && [a][..0] == [];
      assert ([10 * a + ds[0]] + ds[1..]) == [10 * a + ds[0]];
      assert [10 * a + ds[0]][..0] == [];
    } else {
      ShiftLeadingDigit(a, ds[..n - 1]);
      assert ([a] + ds)[..n] == [a] + ds[..n - 1];
      assert ([10 * a + ds[0]] + ds[1..])[..n - 1] == [10 * a + ds[0]] + ds[..n - 1][1..];
    }
  }

  /** With non-negative digits, more digits never write a smaller number. */
  lemma {:induction false} PrefixValueGrows(xs: seq<int>, ys: seq<int>)
    requires forall k | 0 <= k < |xs| :: xs[k] >= 0
    requires forall k | 0 <= k < |ys| :: ys[k] >= 0
    ensures 0 <= DecimalValue(xs) <= DecimalValue(xs + ys)
    decreases |xs| + |ys|
  {
    if |ys| > 0 {
      var zs := xs + ys;
      assert zs[..|zs| - 1] == xs + ys[..|ys| - 1];
      PrefixValueGrows(xs, ys[..|ys| - 1]);
    } else {
      assert xs + ys == xs;
      if |xs| > 0 {
        PrefixValueGrows(xs[..|xs| - 1], []);
        assert xs[..|xs| - 1] + [] == xs[..|xs| - 1];
      }
    }
  }

  /** A leading zero does not change the number. */
  lemma {:induction false} LeadingZero(ds: seq<int>)
    ensures DecimalValue([0] + ds) == DecimalValue(ds)
    decreases |ds|
  {
    if |ds| == 0 {
      assert [0][..0] == [];
    } else {
      LeadingZero(ds[..|ds| - 1]);
      assert ([0] + ds)[..|ds|] == [0] + ds[..|ds| - 1];
    }
  }

  /** `u32::to_string` is read back by `str::parse::<u32>`. */
  lemma ParseDecimalString(n: U32)
    ensures ParseU32(DecimalString(n)) == Some(n)
  {
  }

  /** `parse_command`: the direction from the first character (an empty
      token panics), the distance from the rest; any failure is `None`. */
  function ParseCommand(s: string): (r: Option<Command>)
    ensures r.Some? ==>
      |s| > 0 && DirectionLetter(r.value.dir) == s[0] && ParseU32(s[1..]) == Some(r.value.dist)
    ensures r.None? <==> |s| == 0 || ParseDirection(s[0]).None? || ParseU32(s[1..]).None?
  {
    if |s| == 0 then None
    else
      var dir :- ParseDirection(s[0]);
      var dist :- ParseU32(s[1..]);
      Some(Command(dir, dist))
  }

  /** The text of a command, as in the puzzle input: `R8`, `U5`. */
  function FormatCommand(c: Command): (s: string)
    ensures |s| >= 2 && !IsWhitespace(s[0]) && !IsWhitespace(s[|s| - 1]) && ',' !in s
  {
    var s := [DirectionLetter(c.dir)] + DecimalString(c.dist);
    assert forall k | 1 <= k < |s| :: IsDigit(s[k]);
    s
  }

  /** `parse_command` reads back every formatted command. */
  lemma ParseFormatCommand(c: Command)
    ensures ParseCommand(FormatCommand(c)) == Some(c)
  {
    var s := FormatCommand(c);
    assert s[1..] == DecimalString(c.dist);
    ParseDecimalString(c.dist);
    ParseDirectionLetter(c.dir);
  }

  /** `read_commands` on the pieces of a line: each trimmed, the empty ones
      dropped, the rest parsed in order; a token that does not parse panics
      (`None`). */
  function ParseTokens(tokens: seq<string>): Option<seq<Command>> {
    ParseEach(Trim, ParseCommand, tokens)
  }

  /** The tokens once trimmed, the blank ones left out. */
  function NonBlank(tokens: seq<string>): seq<string> {
    Kept(Trim, tokens)
  }

  /** The lazy pipeline of `read_commands` for any `trim` and `parse`: one
      token at a time, trimmed, skipped when blank, parsed otherwise. */
  function ParseEach(trim: string -> string, parse: string -> Option<Command>, tokens: seq<string>): Option<seq<Command>>
    decreases |tokens|
  {
    if |tokens| == 0 then Some([])
    else
      var t := trim(tokens[0]);
      if |t| == 0 then ParseEach(trim, parse, tokens[1..])
      else
        var c := parse(t);
        var rest := ParseEach(trim, parse, tokens[1..]);
        if c.None? || rest.None? then None else Some([c.value] + rest.value)
  }

  /** The tokens once trimmed by `trim`, the blank ones left out. */
  function Kept(trim: string -> string, tokens: seq<string>): (r: seq<string>)
    ensures forall k | 0 <= k < |r| :: |r[k]| > 0
    decreases |tokens|
  {
    if |tokens| == 0 then []
    else
      var t := trim(tokens[0]);
      (if |t| == 0 then [] else [t]) + Kept(trim, tokens[1..])
  }

  /** The pipeline fails exactly when one of the kept tokens does not
      parse. */
  lemma {:induction false} ParseEachSome(trim: string -> string, parse: string -> Option<Command>, tokens: seq<string>)
    ensures var ts := Kept(trim, tokens);
      ParseEach(trim, parse, tokens).Some? <==> forall k | 0 <= k < |ts| :: parse(ts[k]).Some?
    decreases |tokens|
  {
    if |tokens| > 0 {
      ParseEachSome(trim, parse, tokens[1..]);
      var t := trim(tokens[0]);
      if |t| == 0 {
        assert Kept(trim, tokens) == Kept(trim, tokens[1..]);
      } else {
        var ts := Kept(trim, tokens);
        var rest := Kept(trim, tokens[1..]);
        assert ts == [t] + rest;
        if ParseEach(trim, parse, tokens).Some? {
          assert parse(t).Some? && ParseEach(trim, parse, tokens[1..]).Some?;
          forall k | 0 <= k < |ts| ensures parse(ts[k]).Some? {
            if k > 0 {
              assert ts[k] == rest[k - 1];
            }
          }
        } else if parse(t).None? {
          assert parse(ts[0]).None?;
        } else {
          var k :| 0 <= k < |rest| && parse(rest[k]).None?;
          assert ts[k + 1] == rest[k];
        }
      }
    }
  }

  /** Where it succeeds, the pipeline yields the commands of the kept
      tokens, in order. */
  lemma {:induction false} ParseEachValues(trim: string -> string, parse: string -> Option<Command>, tokens: seq<string>)
    requires ParseEach(trim, parse, tokens).Some?
    ensures var ts := Kept(trim, tokens);
      var cmds := ParseEach(trim, parse, tokens).value;
      |cmds| == |ts| && forall k | 0 <= k < |ts| :: parse(ts[k]) == Some(cmds[k])
    decreases |tokens|
  {
    if |tokens| > 0 {
      ParseEachValues(trim, parse, tokens[1..]);
      var t := trim(tokens[0]);
      if |t| > 0 {
        var ts := Kept(trim, tokens);
        var rest := Kept(trim, tokens[1..]);
        var rr := ParseEach(trim, parse, tokens[1..]).value;
        var cmds := ParseEach(trim, parse, tokens).value;
        assert ts == [t] + rest && cmds == [parse(t).value] + rr;
        forall k | 0 <= k < |ts| ensures parse(ts[k]) == Some(cmds[k]) {
          if k > 0 {
            assert ts[k] == rest[k - 1] && cmds[k] == rr[k - 1];
          }
        }
      }
    }
  }

  /** `read_commands` as its pipeline reads: trim every token, keep those
      that are not blank, and parse each; it fails exactly when one of those
      does not parse, and otherwise yields their commands in order. */
  lemma ParseTokensMeaning(tokens: seq<string>)
    ensures var ts := NonBlank(tokens);
      && (ParseTokens(tokens).Some? <==> forall k | 0 <= k < |ts| :: ParseCommand(ts[k]).Some?)
      && (ParseTokens(tokens).Some? ==>
            && |ParseTokens(tokens).value| == |ts|
            && forall k | 0 <= k < |ts| :: ParseCommand(ts[k]) == Some(ParseTokens(tokens).value[k]))
  {
    var ts := NonBlank(tokens);
    ParseEachSome(Trim, ParseCommand, tokens);
    assert forall k | 0 <= k < |ts| :: (ParseCommand)(ts[k]) == ParseCommand(ts[k]);
    if ParseTokens(tokens).Some? {
      ParseEachValues(Trim, ParseCommand, tokens);
    }
  }

  /** `read_commands`. */
  function ReadCommands(line: string): Option<seq<Command>> {
    ParseTokens(Split(line, ','))
  }

  /** The text of a wire: its commands separated by commas. */
  function FormatWire(cmds: seq<Command>): string
    decreases |cmds|
  {
    if |cmds| == 0 then ""
    else if |cmds| == 1 then FormatCommand(cmds[0])
    else FormatCommand(cmds[0]) + [','] + FormatWire(cmds[1..])
  }

  /** The tokens of a formatted wire. */
  function Tokens(cmds: seq<Command>): (r: seq<string>)
    ensures |r| == |cmds|
    ensures forall k | 0 <= k < |cmds| :: r[k] == FormatCommand(cmds[k])
  {
    seq(|cmds|, k requires 0 <= k < |cmds| => FormatCommand(cmds[k]))
  }

  lemma {:induction false} FormatWireJoins(cmds: seq<Command>)
    requires |cmds| > 0
    ensures FormatWire(cmds) == Join(Tokens(cmds), ',')
    decreases |cmds|
  {
    if |cmds| > 1 {
      FormatWireJoins(cmds[1..]);
      assert Tokens(cmds)[1..] == Tokens(cmds[1..]);
    }
  }

  /** Tokens that each trim to a non-blank text parsing to the matching
      command yield exactly those commands. */
  lemma {:induction false} ParseEachAll(trim: string -> string, parse: string -> Option<Command>, tokens: seq<string>, cmds: seq<Command>)
    requires |tokens| == |cmds|
    requires forall k | 0 <= k < |tokens| :: |trim(tokens[k])| > 0 && parse(trim(tokens[k])) == Some(cmds[k])
    ensures ParseEach(trim, parse, tokens) == Some(cmds)
    decreases |tokens|
  {
    if |tokens| > 0 {
      assert |trim(tokens[0])| > 0 && parse(trim(tokens[0])) == Some(cmds[0]);
      assert forall k | 0 <= k < |tokens| - 1 :: tokens[1..][k] == tokens[k + 1] && cmds[1..][k] == cmds[k + 1];
      ParseEachAll(trim, parse, tokens[1..], cmds[1..]);
      assert [cmds[0]] + cmds[1..] == cmds;
    }
  }

  /** The tokens of a formatted wire parse back to its commands. */
  lemma ParseFormattedTokens(cmds: seq<Command>)
    ensures ParseTokens(Tokens(cmds)) == Some(cmds)
  {
    var ts := Tokens(cmds);
    forall k | 0 <= k < |ts| ensures |Trim(ts[k])| > 0 && ParseCommand(Trim(ts[k])) == Some(cmds[k]) {
      TrimmedIsTrim(ts[k]);
      ParseFormatCommand(cmds[k]);
    }
    ParseEachAll(Trim, ParseCommand, ts, cmds);
  }

  /** `read_commands` reads back the commands of every formatted wire; the
      empty line is the empty wire. */
  lemma ReadFormattedWire(cmds: seq<Command>)
    ensures ReadCommands(FormatWire(cmds)) == Some(cmds)
  {
    if |cmds| == 0 {
      assert Split("", ',') == [""];
      assert AllWhitespace("");
    } else {
      FormatWireJoins(cmds);
      SplitJoin(Tokens(cmds), ',');
      ParseFormattedTokens(cmds);
    }
  }

  /** `read_wires`: the commands of every line, lines without any command
      dropped; a command that does not parse panics (`None`). */
  function ReadWires(text: string): Option<seq<seq<Command>>> {
    Collect(ReadCommands, ReadLines(text))
  }

  /** The wires of the lines as `read` reads each one, the lines that hold
      no command dropped; `None` when some line does not read. */
  function Collect(read: string -> Option<seq<Command>>, lines: seq<string>): (r: Option<seq<seq<Command>>>)
    ensures r.Some? ==> forall k | 0 <= k < |r.value| :: |r.value[k]| > 0
    ensures r.Some? ==> |r.value| <= |lines|
    decreases |lines|
  {
    if |lines| == 0 then Some([])
    else
      var wire := read(lines[0]);
      var rest := Collect(read, lines[1..]);
      if wire.None? || rest.None? then None
      else if |wire.value| == 0 then rest
      else Some([wire.value] + rest.value)
  }

  /** The lines are read as wires exactly when every line reads. */
  lemma {:induction false} CollectSome(read: string -> Option<seq<Command>>, lines: seq<string>)
    ensures Collect(read, lines).Some? <==> forall k | 0 <= k < |lines| :: read(lines[k]).Some?
    decreases |lines|
  {
    if |lines| > 0 {
      var rest := lines[1..];
      CollectSome(read, rest);
      assert forall k | 1 <= k < |lines| :: lines[k] == rest[k - 1];
    }
  }

  // ---------------------------------------------------------------------
  // Paths and segments

  function Abs(n: int): nat {
    if n < 0 then -n else n
  }

  /** The corner a command reaches from `p`. */
  function Move(p: Point, c: Command): (q: Point)
    ensures c.dir == Left ==> q.y == p.y && q.x == p.x - c.dist
    ensures c.dir == Right ==> q.y == p.y && q.x == p.x + c.dist
    ensures c.dir == Up ==> q.x == p.x && q.y == p.y + c.dist
    ensures c.dir == Down ==> q.x == p.x && q.y == p.y - c.dist
  {
    match c.dir
    case Left => Point(p.x - c.dist, p.y)
    case Right => Point(p.x + c.dist, p.y)
    case Up => Point(p.x, p.y + c.dist)
    case Down => Point(p.x, p.y - c.dist)
  }

  /** `commands_to_path`: the start and then one corner per command, each
      reached from the one before along one axis by the command's
      distance. */
  function CommandsToPath(cmds: seq<Command>, p: Point): (path: seq<Point>)
    ensures |path| == |cmds| + 1 && path[0] == p
    ensures forall k | 0 <= k < |cmds| :: path[k + 1] == Move(path[k], cmds[k])
    decreases |cmds|
  {
    if |cmds| == 0 then [p]
    else [p] + CommandsToPath(cmds[1..], Move(p, cmds[0]))
  }

  /** `points_to_lines`: the segments between consecutive points. */
  function PointsToLines(points: seq<Point>): (lines: seq<Line>)
    ensures |lines| == if |points| < 2 then 0 else |points| - 1
    ensures forall k | 0 <= k < |lines| :: lines[k] == Line(points[k], points[k + 1])
    decreases |points|
  {
    if |points| < 2 then []
    else [Line(points[0], points[1])] + PointsToLines(points[1..])
  }

  /** Consecutive segments meet: each starts where the one before ends. */
  predicate Chained(lines: seq<Line>) {
    forall k | 0 < k < |lines| :: lines[k - 1].end == lines[k].start
  }

  /** The corners of chained segments, the first start and then every end. */
  function Corners(lines: seq<Line>): (points: seq<Point>)
    requires |lines| > 0
    ensures |points| == |lines| + 1
  {
    [lines[0].start] + seq(|lines|, k requires 0 <= k < |lines| => lines[k].end)
  }

  /** The segments of a path are chained, and their corners are the path:
      `points_to_lines` loses nothing of a path with a segment. */
  lemma PointsToLinesInverse(points: seq<Point>)
    requires |points| >= 2
    ensures Chained(PointsToLines(points))
    ensures Corners(PointsToLines(points)) == points
  {
    var lines := PointsToLines(points);
    var cs := Corners(lines);
    forall k | 0 <= k < |points| ensures cs[k] == points[k] {
      if k > 0 {
        assert cs[k] == lines[k - 1].end;
      }
    }
  }

  /** `Point::manhattan_distance_to`: the distance along the axes, zero
      exactly from a point to itself. */
  function Manhattan(a: Point, b: Point): (d: nat)
    ensures d == 0 <==> a == b
  {
    Abs(b.x - a.x) + Abs(b.y - a.y)
  }

  lemma ManhattanSymmetric(a: Point, b: Point)
    ensures Manhattan(a, b) == Manhattan(b, a)
  {
  }

  lemma ManhattanTriangle(a: Point, b: Point, c: Point)
    ensures Manhattan(a, c) <= Manhattan(a, b) + Manhattan(b, c)
  {
  }

  /** `Line::length`. */
  function LineLength(l: Line): (n: nat)
    ensures n == Manhattan(l.start, l.end)
  {
    Abs(l.end.x - l.start.x) + Abs(l.end.y - l.start.y)
  }

  /** `Lines::length`: `fold(0, |acc, x| acc + x.length())`. */
  function LinesLength(lines: seq<Line>): nat
    decreases |lines|
  {
    if |lines| == 0 then 0 else LinesLength(lines[..|lines| - 1]) + LineLength(lines[|lines| - 1])
  }

  /** The length of two runs of segments is the sum of their lengths. */
  lemma {:induction false} LinesLengthAppend(a: seq<Line>, b: seq<Line>)
    ensures LinesLength(a + b) == LinesLength(a) + LinesLength(b)
    decreases |b|
  {
    if |b| == 0 {
      assert a + b == a;
    } else {
      assert (a + b)[..|a + b| - 1] == a + b[..|b| - 1];
      LinesLengthAppend(a, b[..|b| - 1]);
    }
  }

  /** The distance the commands travel. */
  function TotalDistance(cmds: seq<Command>): nat
    decreases |cmds|
  {
    if |cmds| == 0 then 0 else cmds[0].dist + TotalDistance(cmds[1..])
  }

  /** The segments of a wire's path are as long as its commands: each
      command's segment has the command's distance. */
  lemma {:induction false} PathLength(cmds: seq<Command>, p: Point)
    ensures LinesLength(PointsToLines(CommandsToPath(cmds, p))) == TotalDistance(cmds)
    decreases |cmds|
  {
    if |cmds| > 0 {
      var q := Move(p, cmds[0]);
      var path := CommandsToPath(cmds, p);
      var rest := CommandsToPath(cmds[1..], q);
      assert path[1..] == rest;
      PathLength(cmds[1..], q);
      var first := Line(p, q);
      assert PointsToLines(path) == [first] + PointsToLines(rest);
      LinesLengthAppend([first], PointsToLines(rest));
      assert LinesLength([first]) == LineLength(first) by {
        assert [first][..0] == [];
      }
    }
  }
}

=== FILE: wires_examples.dfy ===
/** The unit tests of rust/day03, restated as lemmas about the model. */
module WiresExamples {
  import opened Base
  import opened Wires

  lemma ParseDirectionExamples()
    ensures ParseDirection('R') == Some(Right)
    ensures ParseDirection('L') == Some(Left)
    ensures ParseDirection('U') == Some(Up)
    ensures ParseDirection('D') == Some(Down)
    ensures ParseDirection('X').None?
  {
  }

  lemma ParseCommandR10()
    ensures ParseCommand("R10") == Some(Command(Right, 10))
  {
    assert "R10"[1..] == "10";
    AccumulateTwo('1', '0');
  }

  lemma ParseCommandU9()
    ensures ParseCommand("U9") == Some(Command(Up, 9))
  {
    assert "U9"[1..] == "9";
    assert "9"[1..] == "";
  }

  lemma ParseCommandD999()
    ensures ParseCommand("D999") == Some(Command(Down, 999))
  {
    var s := "D999";
    assert s[1..] == "999" && "999"[1..] == "99" && "99"[1..] == "9" && "9"[1..] == "";
    assert AccumulateDigits("9", 99) == Some(999);
    assert AccumulateDigits("99", 9) == Some(999);
  }

  lemma ParseCommandL7()
    ensures ParseCommand("L7") == Some(Command(Left, 7))
  {
    assert "L7"[1..] == "7";
    assert "7"[1..] == "";
  }

  lemma AccumulateTwo(a: char, b: char)
    requires IsDigit(a) && IsDigit(b)
    ensures AccumulateDigits([a, b], 0) == Some(10 * ToDigit(a) + ToDigit(b))
  {
    assert [a, b][1..] == [b] && [b][1..] == [];
    assert AccumulateDigits([b], ToDigit(a)) == Some(10 * ToDigit(a) + ToDigit(b));
  }

  /** Signs, blanks and overflow in the distance. */
  lemma ParseU32Examples()
    ensures ParseU32("").None?
    ensures ParseU32("+").None?
    ensures ParseU32("-1").None?
  {
    assert !IsDigit('-');
    assert "+"[1..] == "";
  }

  /** One past `u32::MAX` does not parse. */
  lemma ParseU32Overflow()
    ensures ParseU32("4294967296").None?
  {
    var big := "4294967296";
    assert AllDigits(big);
    var ds := DigitValues(big);
    assert ds == [4, 2, 9, 4, 9, 6, 7, 2, 9, 6];
    assert DecimalValue(ds[..1]) == 4 by { assert ds[..1][..0] == []; }
    assert DecimalValue(ds[..2]) == 42 by { assert ds[..2][..1] == ds[..1]; }
    assert DecimalValue(ds[..3]) == 429 by { assert ds[..3][..2] == ds[..2]; }
    assert DecimalValue(ds[..4]) == 4294 by { assert ds[..4][..3] == ds[..3]; }
    assert DecimalValue(ds[..5]) == 42949 by { assert ds[..5][..4] == ds[..4]; }
    assert DecimalValue(ds[..6]) == 429496 by { assert ds[..6][..5] == ds[..5]; }
    assert DecimalValue(ds[..7]) == 4294967 by { assert ds[..7][..6] == ds[..6]; }
    assert DecimalValue(ds[..8]) == 42949672 by { assert ds[..8][..7] == ds[..7]; }
    assert DecimalValue(ds[..9]) == 429496729 by { assert ds[..9][..8] == ds[..8]; }
    assert DecimalValue(ds) == 4294967296 by { assert ds[..9] == ds[..|ds| - 1]; }
  }

  lemma CommandsToPathExample()
    ensures CommandsToPath([Command(Up, 10), Command(Right, 9), Command(Down, 1)], Origin)
      == [Point(0, 0), Point(0, 10), Point(9, 10), Point(9, 9)]
  {
  }

  lemma PointsToLinesExample()
    ensures PointsToLines([Point(1, 1), Point(2, 2), Point(3, 4)])
      == [Line(Point(1, 1), Point(2, 2)), Line(Point(2, 2), Point(3, 4))]
  {
  }

  /** A line of blanks holds no wire. */
  lemma ReadWiresBlank()
    ensures ReadWires(" ") == Some([])
  {
    assert " "[1..] == "" && [' '] + "" == " ";
    assert Split("", '\n') == [""];
    assert Split(" ", '\n') == [" "];
    assert ReadLines(" ") == [" "];
    assert Split(" ", ',') == [" "];
    assert AllWhitespace(" ");
    assert ReadCommands(" ") == Some([]);
  }

  const Wire1: seq<Command> := [Command(Right, 8), Command(Up, 5), Command(Left, 5), Command(Down, 3)]
  const Wire2: seq<Command> := [Command(Up, 7), Command(Right, 6), Command(Down, 4), Command(Left, 4)]

  /** The indentation of the test's input lines. */
  const Indent: string := "        "

  /** The two wire lines of the first example, indented as in the test. */
  const Example1Line1: string := Join([Indent + "R8", "U5", "L5", "D3"], ',')
  const Example1Line2: string := Join([Indent + "U7", "R6", "D4", "L4"], ',')

  /** The input of the first example: a line break, the two indented wire
      lines, and the indentation before the closing quote. */
  const Example1Text: string := Join(["", Example1Line1, Example1Line2, Indent], '\n')

  lemma SingleDigit(d: nat)
    requires 1 <= d <= 9
    ensures ParseU32([DigitChar(d)]) == Some(d)
  {
    var s := [DigitChar(d)];
    assert s[1..] == [];
    assert Unsigned(s) == s;
    assert AccumulateDigits(s, 0) == AccumulateDigits([], d);
  }

  /** Whitespace before a token is what `trim` drops. */
  lemma {:induction false} LeadingSpaceOf(ws: string, t: string)
    requires AllWhitespace(ws) && |t| > 0 && !IsWhitespace(t[0])
    ensures LeadingSpace(ws + t) == |ws|
    decreases |ws|
  {
    if |ws| == 0 {
      assert ws + t == t;
    } else {
      assert (ws + t)[1..] == ws[1..] + t;
      LeadingSpaceOf(ws[1..], t);
    }
  }

  lemma TrimIndented(ws: string, t: string)
    requires AllWhitespace(ws) && |t| > 0 && !IsWhitespace(t[0]) && !IsWhitespace(t[|t| - 1])
    ensures Trim(ws + t) == t
  {
    LeadingSpaceOf(ws, t);
    var r := Trim(ws + t);
    assert |r| > 0;
    var i := |ws|;
    assert (ws + t)[i..] == t;
    assert r == t[..|r|];
  }

  /** A token of a direction letter and one non-zero digit. */
  predicate ShortToken(t: string, c: Command) {
    1 <= c.dist <= 9 && t == [DirectionLetter(c.dir), DigitChar(c.dist)]
  }

  lemma ShortTokenFacts(t: string, c: Command)
    requires ShortToken(t, c)
    ensures |t| == 2 && !IsWhitespace(t[0]) && !IsWhitespace(t[1])
    ensures ',' !in t && '\n' !in t && '\r' !in t
    ensures ParseCommand(t) == Some(c)
  {
    assert t[1..] == [DigitChar(c.dist)];
    SingleDigit(c.dist);
    ParseDirectionLetter(c.dir);
  }

  /** Tokens of a letter and one digit each parse to the listed commands. */
  lemma ReadTokens(tokens: seq<string>, cmds: seq<Command>)
    requires |tokens| == |cmds|
    requires forall k | 0 <= k < |tokens| :: ShortToken(tokens[k], cmds[k])
    ensures ParseTokens(tokens) == Some(cmds)
  {
    forall k | 0 <= k < |tokens| ensures |Trim(tokens[k])| > 0 && ParseCommand(Trim(tokens[k])) == Some(cmds[k]) {
      ShortTokenFacts(tokens[k], cmds[k]);
      TrimmedIsTrim(tokens[k]);
    }
    ParseEachAll(Trim, ParseCommand, tokens, cmds);
  }

  /** A first token with the same trim reads alike. */
  lemma ParseTokensHead(a: string, b: string, rest: seq<string>)
    requires Trim(a) == Trim(b)
    ensures ParseTokens([a] + rest) == ParseTokens([b] + rest)
  {
    assert ([a] + rest)[1..] == rest == ([b] + rest)[1..];
  }

  /** Short tokens without a separator or a line break. */
  lemma {:induction false} JoinFree(pieces: seq<string>, sep: char, c: char)
    requires |pieces| >= 1 && c != sep
    requires forall k | 0 <= k < |pieces| :: c !in pieces[k]
    ensures c !in Join(pieces, sep)
    decreases |pieces|
  {
    if |pieces| > 1 {
      JoinFree(pieces[1..], sep, c);
    }
  }

  /** An indented line whose tokens are a letter and a digit each. */
  lemma ReadIndentedLine(tokens: seq<string>, cmds: seq<Command>)
    requires |tokens| == |cmds| > 0
    requires forall k | 0 <= k < |tokens| :: ShortToken(tokens[k], cmds[k])
    ensures ReadCommands(Join([Indent + tokens[0]] + tokens[1..], ',')) == Some(cmds)
  {
    var first := tokens[0];
    var pieces := [Indent + first] + tokens[1..];
    ShortTokenFacts(first, cmds[0]);
    forall k | 0 <= k < |pieces| ensures ',' !in pieces[k] {
      if k > 0 {
        assert pieces[k] == tokens[k];
        ShortTokenFacts(tokens[k], cmds[k]);
      } else {
        assert ',' !in Indent;
      }
    }
    SplitJoin(pieces, ',');
    assert AllWhitespace(Indent);
    TrimIndented(Indent, first);
    TrimmedIsTrim(first);
    ParseTokensHead(Indent + first, first, tokens[1..]);
    assert [first] + tokens[1..] == tokens;
    ReadTokens(tokens, cmds);
  }

  lemma ReadWire1Line()
    ensures ReadCommands(Example1Line1) == Some(Wire1)
  {
    var tokens := ["R8", "U5", "L5", "D3"];
    assert forall k | 0 <= k < 4 :: ShortToken(tokens[k], Wire1[k]);
    ReadIndentedLine(tokens, Wire1);
    assert [Indent + tokens[0]] + tokens[1..] == [Indent + "R8", "U5", "L5", "D3"];
  }

  lemma ReadWire2Line()
    ensures ReadCommands(Example1Line2) == Some(Wire2)
  {
    var tokens := ["U7", "R6", "D4", "L4"];
    assert forall k | 0 <= k < 4 :: ShortToken(tokens[k], Wire2[k]);
    ReadIndentedLine(tokens, Wire2);
    assert [Indent + tokens[0]] + tokens[1..] == [Indent + "U7", "R6", "D4", "L4"];
  }

  /** Text free of line breaks and carriage returns. */
  predicate SingleLine(s: string) {
    '\n' !in s && '\r' !in s
  }

  /** Four single lines joined by line breaks are read back as they are;
      the last one, unterminated, only when it is not empty. */
  lemma ReadFourLines(a: string, b: string, c: string, d: string)
    requires SingleLine(a) && SingleLine(b) && SingleLine(c) && SingleLine(d) && |d| > 0
    ensures ReadLines(Join([a, b, c, d], '\n')) == [a, b, c, d]
  {
    var pieces := [a, b, c, d];
    SplitJoin(pieces, '\n');
    assert |a| > 0 ==> a[|a| - 1] != '\r';
    assert |b| > 0 ==> b[|b| - 1] != '\r';
    assert |c| > 0 ==> c[|c| - 1] != '\r';
  }

  lemma WireLineSingle(pieces: seq<string>)
    requires |pieces| >= 1 && forall k | 0 <= k < |pieces| :: SingleLine(pieces[k])
    ensures SingleLine(Join(pieces, ','))
  {
    JoinFree(pieces, ',', '\n');
    JoinFree(pieces, ',', '\r');
  }

  /** The lines of the first example: a blank one, the two wires, and the
      indentation. */
  lemma Example1Lines()
    ensures ReadLines(Example1Text) == ["", Example1Line1, Example1Line2, Indent]
  {
    WireLineSingle([Indent + "R8", "U5", "L5", "D3"]);
    WireLineSingle([Indent + "U7", "R6", "D4", "L4"]);
    ReadFourLines("", Example1Line1, Example1Line2, Indent);
  }

  /** One line of `read_wires`. */
  lemma WiresStep(line: string, rest: seq<string>)
    ensures Collect(ReadCommands, [line] + rest) ==
      if ReadCommands(line).None? || Collect(ReadCommands, rest).None? then None
      else if |ReadCommands(line).value| == 0 then Collect(ReadCommands, rest)
      else Some([ReadCommands(line).value] + Collect(ReadCommands, rest).value)
  {
    assert ([line] + rest)[1..] == rest;
  }

  lemma Cons<T>(x: T, xs: seq<T>)
    ensures |xs| == 0 ==> [x] + xs == [x]
    ensures |xs| == 1 ==> [x] + xs == [x, xs[0]]
    ensures |xs| == 2 ==> [x] + xs == [x, xs[0], xs[1]]
    ensures |xs| == 3 ==> [x] + xs == [x, xs[0], xs[1], xs[2]]
  {
  }

  /** Lines whose commands are known: the blank ones dropped. */
  lemma WiresOfFour(a: string, b: string, c: string, d: string, wb: seq<Command>, wc: seq<Command>)
    requires ReadCommands(a) == Some([]) && ReadCommands(d) == Some([])
    requires ReadCommands(b) == Some(wb) && ReadCommands(c) == Some(wc)
    requires |wb| > 0 && |wc| > 0
    ensures Collect(ReadCommands, [a, b, c, d]) == Some([wb, wc])
  {
    Cons(d, []);
    WiresStep(d, []);
    Cons(c, [d]);
    Cons(wc, []);
    WiresStep(c, [d]);
    Cons(b, [c, d]);
    Cons(wb, [wc]);
    WiresStep(b, [c, d]);
    Cons(a, [b, c, d]);
    WiresStep(a, [b, c, d]);
  }

  /** A line of blanks reads as no commands. */
  lemma ReadBlankLine(s: string)
    requires AllWhitespace(s) && ',' !in s
    ensures ReadCommands(s) == Some([])
  {
    SplitPrefix(s, "", ',');
    assert Split("", ',') == [""];
    assert s + "" == s;
    assert Split(s, ',') == [s];
    assert |Trim(s)| == 0;
    assert [s][1..] == [];
    assert ParseTokens([s]) == ParseTokens([]);
  }

  /** `read_wires` on the first example gives its two wires. */
  lemma ReadWiresExample1()
    ensures ReadWires(Example1Text) == Some([Wire1, Wire2])
  {
    Example1Lines();
    ReadBlankLine("");
    ReadBlankLine(Indent);
    ReadWire1Line();
    ReadWire2Line();
    WiresOfFour("", Example1Line1, Example1Line2, Indent, Wire1, Wire2);
  }
}
